=== FILE: README.md ===
# Magma client core in Dafny

This project models the Magma client of the etna libraries. Magma is a data
server whose projects are sets of models, each with a template of attributes.
The model covers three pieces of the client:

- **The JSON project description** (`json_models.rb`). A user describes a
  project, its models and their attributes as JSON.
  - `JsonProject`, `JsonModel` and `JsonAttribute` validate the description.
    They collect every problem, in a fixed order, instead of stopping at the
    first (modules `JsonModels`, `JsonValidation`).
  - The name rules are the three regular expressions of `JsonBase`, given as an
    automaton and as character-class rules (`NamePatterns`).
  - `model_tree` lists the models shallow to deep, each depth sorted by name
    (`ModelTree`).
  - `get_magma_models` compiles the description into Magma models, adding the
    parent, child and reciprocal link attributes the JSON leaves implicit
    (`MagmaCompile`).
- **The request and response values** (`models.rb`): the `RetrievalRequest`
  defaults, the nested revision merge of `UpdateRequest`, `UpdateModelRequest`,
  the read accessors with their defaults, the model graph, and the closed type
  enumerations (`MagmaModels`).
- **`MagmaCrudWorkflow`** (`crud_workflow.rb`): a record cache and a ledger of
  submitted revisions kept in front of a Magma client. It covers lookups,
  write-through under `:update_on_write`, batching of updates by model, and
  `read_only` runs (`CrudWorkflow`).

Supporting modules:

- `Wrappers` holds `Option` and `Result`.
- `RubyValues` holds parsed JSON values and the Ruby core methods the client
  applies to them: `strip`, `empty?`, truthiness, `String#<=>` and
  `split`/`capitalize`/`join`.
- `Dicts` models Ruby's insertion-ordered `Hash`, including `Hash#update`.
- `Sorting` is a sort by name.

Several modelling choices run through the project:

- A Ruby exception the code would raise on malformed input is a `Failure`.
  Examples are `strip` on a number, `empty?` on a boolean, `nil.name` from
  `fetch_model`, `each_slice(0)`, and `key?` on a parsed file whose top-level
  value is not an object.
- Validation problems are structured `Diagnostic`s, and `Message` renders the
  exact error string.
- The client's `retrieve` and `update` calls are appended to a call log, and
  the document `retrieve` would answer is a parameter.

Three behaviours of the code are easy to miss, and the model keeps them:

- `lookup_record` never stores what it fetched. It indexes the cache with
  `record_id = result` instead of assigning. Write-through only updates records
  that are already cached. So a workflow's cache never holds a record, and
  every lookup asks the client again (`CrudWorkflow.LookupAlwaysRetrieves`).
- The list of validation types in the error message is sorted
  (`["Array", "Range", "Regexp"]`), as `entries.sort` makes it.
- Validation rejects a link from a child model to its parent, but not a link
  from a parent to its child. The reciprocal of such a link is a `collection`
  attribute on the child, named after the parent. It comes last, so it
  replaces the type of the child's `parent` attribute
  (`MagmaCompile.CompiledParentType`).

## Model

| member | source | states |
|---|---|---|
| RubyValues.NilOrEmpty | lib/etna/clients/magma/workflows/json_models.rb:16-18 | `nil_or_empty?` raises exactly on booleans and numbers (they have no `empty?`), and is otherwise true exactly for nil and for an empty string, array or hash. |
| RubyValues.StripDropsSpaces | lib/etna/clients/magma/workflows/json_models.rb:178 | `strip` keeps one contiguous middle part of the name and removes only white space before and after it. |
| RubyValues.StripIdempotent | lib/etna/clients/magma/workflows/json_models.rb:303 | Stripping an already stripped name changes nothing. |
| RubyValues.StripOrNil | lib/etna/clients/magma/workflows/json_models.rb:200-202 | `raw[key]&.strip` keeps nil as nil and strips a string. Any other value raises, because it has no `strip`. |
| RubyValues.PrettifyChars | lib/etna/clients/magma/workflows/json_models.rb:216-218 | For a name of ASCII letters, digits and underscores that does not end in `_`, `prettified_name` has the same length, and each character is determined independently: an underscore becomes a space, the first letter of a word is upper case, and every other letter is lower case. |
| RubyValues.PrettifyTrailing | lib/etna/clients/magma/workflows/json_models.rb:216-218 | A trailing underscore does not show in `prettified_name`, because `split` drops trailing empty fields. |
| Dicts.Merge | lib/etna/clients/magma/models.rb:14 | `Hash#update`: the caller's value wins for every key it gives, every other key keeps its old value, and no old key is lost. |
| Dicts.MergeKeys | lib/etna/clients/magma/models.rb:14 | The keys of an updated hash are exactly the keys of either side. |
| Dicts.MergeConcat | lib/etna/clients/magma/workflows/crud_workflow.rb:53-56 | Updating a hash with two consecutive runs of entries, one after the other, equals updating it with both at once. |
| NamePatterns.MatchesWithNumbersIff | lib/etna/clients/magma/workflows/json_models.rb:29-31 | The pattern `[a-z][a-z0-9]*(_[a-z0-9]+)*` accepts a name iff it is snake_case: a lower-case letter first, then letters, digits and single underscores, each underscore followed by a letter or digit. |
| NamePatterns.MatchesNoNumbersIff | lib/etna/clients/magma/workflows/json_models.rb:33-35 | The pattern `[a-z]*(_[a-z]+)*` accepts a name iff it is letters and single underscores, with no trailing underscore. The empty name is accepted. |
| NamePatterns.AnchoredOnStripped | lib/etna/clients/magma/workflows/json_models.rb:29-35 | On a stripped name, Ruby's `\Z` allowance for a final line feed never applies, so the anchored patterns are exactly the two snake_case rules. |
| Sorting.SortBy | lib/etna/clients/magma/workflows/json_models.rb:80-82 | The result is ordered by name under `String#<=>` and is a permutation of the input. |
| MagmaModels.ParseType | lib/etna/clients/magma/models.rb:233-249 | A string names an attribute type exactly when it equals that constant's name, and then it names only that constant. |
| MagmaModels.AttributeTypesClosed | lib/etna/clients/magma/models.rb:233-249 | `AttributeType` has exactly the 15 constants, and each constant's name parses back to it. |
| MagmaModels.AttributeTypesDistinct | lib/etna/clients/magma/models.rb:233-249 | No attribute type is listed twice. |
| MagmaModels.DeclarableTypeNamesSpec | lib/etna/clients/magma/workflows/json_models.rb:309-314 | The attribute types a description may declare are sorted and are exactly the constants other than child, collection, identifier and parent. |
| MagmaModels.ValidationTypeNamesSpec | lib/etna/clients/magma/models.rb:57-61 | The validation types are sorted and are exactly Regexp, Array and Range. |
| MagmaModels.StructFrom | lib/etna/clients/magma/models.rb:10 | A keyword struct refuses an unknown keyword. Otherwise each member holds the value given for it, or nil. |
| MagmaModels.NewRetrievalRequest | lib/etna/clients/magma/models.rb:13-15 | `RetrievalRequest.new` raises exactly when the caller passes a keyword that is not a member. |
| MagmaModels.RetrievalRequestDefaults | lib/etna/clients/magma/models.rb:13-15 | Each member the caller passes is used as given. Otherwise `model_name` is "all", `attribute_names` is "identifier", `record_names` is empty, and `project_name` is nil. |
| MagmaModels.MemberOrDefault | lib/etna/clients/magma/models.rb:14 | For any member, updating the defaults with the caller's keywords yields the caller's value when given and the default otherwise. |
| MagmaModels.NewUpdateRequest | lib/etna/clients/magma/models.rb:25-27 | A new update request holds no revisions and keeps the project name it was given. |
| MagmaModels.UpdateRevision | lib/etna/clients/magma/models.rb:29-33 | After `update_revision(m, r, attrs)`, every key of `attrs` holds its new value in record `r` of model `m`. The record's other keys, the model's other records and the other models are unchanged. Missing levels are created. |
| MagmaModels.NewUpdateModelRequest | lib/etna/clients/magma/models.rb:40-42 | A new model-update request holds no actions. |
| MagmaModels.AddAction | lib/etna/clients/magma/models.rb:44-46 | `add_action` appends at the end and leaves the earlier actions in place. |
| MagmaModels.AddActionsInOrder | lib/etna/clients/magma/models.rb:44-46 | Actions added one by one come out in exactly the order they were added. |
| MagmaModels.OrEmpty | lib/etna/clients/magma/models.rb:176-182 | `raw[key] \|\| ""` is the stored value when it is truthy, and `""` when it is absent, nil or false. It raises only when `raw` has no string index. |
| MagmaModels.AttributeTypeOf | lib/etna/clients/magma/models.rb:224-226 | `Attribute#type` is nil exactly when the raw type is absent or nil. A stored `false` stays `false`, a stored string is kept as it is, and any other value raises, as `AttributeType.new` cannot make a string of it. A raw value that cannot be indexed raises too. |
| MagmaModels.LinkEdges | lib/etna/clients/magma/models.rb:124-129 | One edge from the model to every truthy `link_model_name` among its attributes, and no other edge. |
| MagmaModels.ModelEdges | lib/etna/clients/magma/models.rb:119-131 | The edges one model contributes are its parent edge and, only with casual links, its link edges. |
| MagmaModels.EdgesOver | lib/etna/clients/magma/models.rb:119-131 | The edges of several models are exactly the union of what each contributes. |
| MagmaModels.ToDirectedGraph | lib/etna/clients/magma/models.rb:116-134 | Every model gets an edge from its template's parent. Only with `include_casual_links` does it also get an edge to each truthy link target. No other edge is added. |
| MagmaModels.ParentEdgesOnly | lib/etna/clients/magma/models.rb:116-134 | Without casual links, every edge ends at a model and starts at that model's parent. |
| JsonModels.StripOrNilValue | lib/etna/clients/magma/workflows/json_models.rb:208-214 | Reading a key through `&.strip` raises exactly when the key holds something other than nil or a string, and otherwise yields the stripped value. |
| JsonModels.KeyDiagnosticsRule | lib/etna/clients/magma/workflows/json_models.rb:20-23 | `check_key` reports at most one problem, about that key. It reports one exactly when the key is missing, or present with a nil or empty value. |
| JsonModels.KeyDiagnosticsMissing | lib/etna/clients/magma/workflows/json_models.rb:20-23 | `check_key` reports a missing key only for the key it checks, and only when that key is absent. |
| JsonModels.CheckKey | lib/etna/clients/magma/workflows/json_models.rb:20-23 | `check_key` raises exactly when the value has no `empty?`. Otherwise it reports the missing-or-blank problem. |
| JsonModels.ChoiceDiagnosticsRule | lib/etna/clients/magma/workflows/json_models.rb:25-27 | `check_type` reports at most one problem. It reports one exactly when the key holds a string whose stripped form is not among the allowed values. |
| JsonModels.CheckType | lib/etna/clients/magma/workflows/json_models.rb:25-27 | `check_type` raises exactly when a present value has no `strip`, which includes a present nil. Otherwise it reports the invalid-choice problem. |
| JsonModels.Definitions | lib/etna/clients/magma/workflows/json_models.rb:53-57 | A hash of definitions yields one entry per definition, in order, and raises unless every definition is itself a hash. |
| JsonModels.ModelsOf | lib/etna/clients/magma/workflows/json_models.rb:53-57 | One model per entry of `models`, in declaration order, each under its stripped name. `models` may be a hash of hashes or an array of `[name, hash]` pairs; anything else raises. |
| JsonModels.Pairs | lib/etna/clients/magma/workflows/json_models.rb:54 | An array of definitions is read element by element: each must be a `[name, hash]` pair, which the two-argument block destructures. Any other element raises. |
| JsonModels.DeclaredEntries | lib/etna/clients/magma/workflows/json_models.rb:54 | `map` yields entries from a hash of hashes or an array of pairs, one per entry. Anything else raises. |
| JsonModels.PairsLikeHash | lib/etna/clients/magma/workflows/json_models.rb:54 | An array of `[name, hash]` pairs declares the same entries, in the same order, as the hash with those entries. |
| JsonModels.ModelNames | lib/etna/clients/magma/workflows/json_models.rb:153 | The names of the models, in declaration order. |
| JsonValidation.ValidateProjectNames | lib/etna/clients/magma/workflows/json_models.rb:138-142 | The project-name error appears iff the stripped name is not snake_case with digits, or starts with `pg_`. A missing `project_name` yields both the missing-key error and the snake_case error. All other problems are about the root project's keys. |
| JsonValidation.ParentKeyChecks | lib/etna/clients/magma/workflows/json_models.rb:255-259 | A non-project model's parent keys are checked in source order: parent name, link type, link type's value. |
| JsonValidation.ValidateModelData | lib/etna/clients/magma/workflows/json_models.rb:252-263 | `validate_add_model_data` raises exactly on a parent key or identifier of the wrong type. Otherwise it reports the name, parent and identifier problems in that order. |
| JsonValidation.ModelNamePart | lib/etna/clients/magma/workflows/json_models.rb:253 | The model-name error is reported iff the name is not letters-only snake_case. |
| JsonValidation.ParentPart | lib/etna/clients/magma/workflows/json_models.rb:255-259 | A missing parent name or link type is reported iff the model is not `project` and the key is absent. An invalid link type is reported iff the value is a string not among child, collection and table. |
| JsonValidation.IdentifierPart | lib/etna/clients/magma/workflows/json_models.rb:260-262 | An identifier problem is reported iff the link type is not `table` and the identifier is missing or blank. |
| JsonValidation.ModelNameRule | lib/etna/clients/magma/workflows/json_models.rb:252-263 | A model's own problems are its name error and problems about its parent and identifier keys, with the name error exactly for a name that is not snake_case. |
| JsonValidation.ParentKeysRule | lib/etna/clients/magma/workflows/json_models.rb:255-259 | Every model except `project` must name its parent and its kind of link. `project` is never asked for either. |
| JsonValidation.ParentLinkTypeRule | lib/etna/clients/magma/workflows/json_models.rb:258 | The link type, once stripped, must be child, collection or table. |
| JsonValidation.IdentifierRule | lib/etna/clients/magma/workflows/json_models.rb:260-262 | A model needs an identifier unless it is a table. |
| JsonValidation.DeclarationChecks | lib/etna/clients/magma/workflows/json_models.rb:337-345 | A declared attribute's keys are checked in source order: type, display name, description, type's value. |
| JsonValidation.ValidationChecks | lib/etna/clients/magma/workflows/json_models.rb:348-352 | A `validation` entry must be a hash, otherwise the check raises. Its `type` and `value` are checked, and the type must be a validation type. |
| JsonValidation.TrailingChecks | lib/etna/clients/magma/workflows/json_models.rb:348-356 | The validation check and the link-name check end an attribute's validation, in that order. |
| JsonValidation.ValidateAttribute | lib/etna/clients/magma/workflows/json_models.rb:333-357 | `validate_add_attribute_data` raises exactly on a value of the wrong type. Otherwise it reports the name, declaration, validation and link-name problems in that order. |
| JsonValidation.AttributeNamePart | lib/etna/clients/magma/workflows/json_models.rb:334 | The attribute-name error is reported iff the name is not snake_case with digits. |
| JsonValidation.DeclarationPart | lib/etna/clients/magma/workflows/json_models.rb:336-346 | A missing type, display name or description is reported iff the attribute is not the model's identifier and the key is absent. |
| JsonValidation.DeclarationMissing | lib/etna/clients/magma/workflows/json_models.rb:336-346 | A missing-key report names one of the three declaration keys of a non-identifier attribute, and only when that key is absent. |
| JsonValidation.DeclarationChoicePart | lib/etna/clients/magma/workflows/json_models.rb:345 | An invalid type is reported iff the attribute is not the identifier and its stripped type is not declarable. |
| JsonValidation.ValidationPart | lib/etna/clients/magma/workflows/json_models.rb:348-352 | A validation problem is reported iff the validation is a hash with a missing or blank `type` or `value`, or with an unknown type. |
| JsonValidation.LinkNamePart | lib/etna/clients/magma/workflows/json_models.rb:354-356 | A link-name mismatch is reported iff the stripped `link_model_name` is present and differs from the attribute's name. |
| JsonValidation.AttributeNameRule | lib/etna/clients/magma/workflows/json_models.rb:334 | An attribute's problems are its name error and problems about its own keys, its validation or its link name, with the name error exactly for a name that is not snake_case with digits. |
| JsonValidation.IdentifierExemptRule | lib/etna/clients/magma/workflows/json_models.rb:336 | The model's identifier attribute is never asked for its declaration keys. |
| JsonValidation.DeclarationRule | lib/etna/clients/magma/workflows/json_models.rb:336-346 | Every other attribute must have all three declaration keys. |
| JsonValidation.TrailingScope | lib/etna/clients/magma/workflows/json_models.rb:348-356 | The validation and link-name checks never report on the attribute's own keys. |
| JsonValidation.AttributeTypeRule | lib/etna/clients/magma/workflows/json_models.rb:345 | A declared attribute's type must be declarable once stripped. |
| JsonValidation.ValidationRule | lib/etna/clients/magma/workflows/json_models.rb:348-352 | A validation is reported iff it is a hash with a missing or blank `type` or `value`, or an unknown type. |
| JsonValidation.LinkNameRule | lib/etna/clients/magma/workflows/json_models.rb:354-356 | A link model name, when given, must equal the attribute's own name. |
| JsonValidation.ModelDataPhase | lib/etna/clients/magma/workflows/json_models.rb:252-263 | Every problem with a model's own keys names that model and belongs to the model step. |
| JsonValidation.AttributePhase | lib/etna/clients/magma/workflows/json_models.rb:333-357 | Every problem with an attribute names its model and belongs to the model step. |
| JsonValidation.AttributeListPhase | lib/etna/clients/magma/workflows/json_models.rb:265-269 | The same holds for all the attributes of a model together. |
| JsonValidation.ValidateAttributes | lib/etna/clients/magma/workflows/json_models.rb:265-269 | Every attribute is validated, in order. The whole raises iff some attribute does. |
| JsonValidation.ValidateModel | lib/etna/clients/magma/workflows/json_models.rb:247-250 | A model's own keys come first, then its attributes. Everything reported names the model. |
| JsonValidation.ValidateModels | lib/etna/clients/magma/workflows/json_models.rb:144-148 | The whole raises iff some model does. Otherwise the result is `ModelListDiagnostics`: each model's own problems, then its attributes' problems, model after model in declaration order. |
| JsonValidation.ModelListAt | lib/etna/clients/magma/workflows/json_models.rb:144-148 | Model i's problems sit between those of the models declared before it and those declared after it. |
| JsonValidation.ValidateModelsContents | lib/etna/clients/magma/workflows/json_models.rb:144-148 | `validate_models` reports exactly the problems the models report. |
| JsonValidation.ValidateModelsPhase | lib/etna/clients/magma/workflows/json_models.rb:144-148 | Everything `validate_models` reports belongs to the model step. |
| JsonValidation.ParentClash | lib/etna/clients/magma/workflows/json_models.rb:159 | The "already belongs to parent" error appears iff the link target equals the parent name. Both being absent counts as equal. |
| JsonValidation.UnknownTarget | lib/etna/clients/magma/workflows/json_models.rb:161 | The "does not exist" error appears iff the link target is absent or names no model of the project. |
| JsonValidation.ValidateLink | lib/etna/clients/magma/workflows/json_models.rb:155-162 | Checking one link raises exactly when a value it strips has the wrong type. Otherwise it reports the link-key, parent and target problems. |
| JsonValidation.LinkKeyRule | lib/etna/clients/magma/workflows/json_models.rb:156 | A link attribute must give its `link_model_name`. |
| JsonValidation.LinkParentRule | lib/etna/clients/magma/workflows/json_models.rb:159 | A link may not point at the model's parent, and two absent names count as equal. |
| JsonValidation.LinkTargetRule | lib/etna/clients/magma/workflows/json_models.rb:161 | A link must point at a model of the project. |
| JsonValidation.LinkPhase | lib/etna/clients/magma/workflows/json_models.rb:155-162 | Every link problem names its model and belongs to the link step. |
| JsonValidation.LinkStep | lib/etna/clients/magma/workflows/json_models.rb:229-233 | Only attributes of type `link` are checked, but every attribute's type is read. A link attribute contributes its link problems; any other attribute contributes none. |
| JsonValidation.ValidateModelLinks | lib/etna/clients/magma/workflows/json_models.rb:165-171 | A model's link check raises iff one of its attributes' checks does. Otherwise it reports the link attributes' problems attribute by attribute, in declaration order. |
| JsonValidation.ModelLinksContents | lib/etna/clients/magma/workflows/json_models.rb:165-171 | A model's link check reports exactly what its link attributes report. |
| JsonValidation.ModelLinksPhase | lib/etna/clients/magma/workflows/json_models.rb:165-171 | Everything a model's link check reports names the model and belongs to the link step. |
| JsonValidation.ModelLinkStep | lib/etna/clients/magma/workflows/json_models.rb:165-171 | One model's link step raises iff its attributes cannot be read or one of its link checks raises. Otherwise it reports its link problems in attribute order, all naming that model. |
| JsonValidation.ValidateLinks | lib/etna/clients/magma/workflows/json_models.rb:150-171 | The link step raises iff one model's check does. Otherwise it reports each model's link problems, model after model in declaration order. |
| JsonValidation.LinksAt | lib/etna/clients/magma/workflows/json_models.rb:165-171 | Model i's link problems sit between those of the models declared before it and those declared after it. |
| JsonValidation.ValidateLinksContents | lib/etna/clients/magma/workflows/json_models.rb:150-163 | The link step reports exactly what the models' link checks report. |
| JsonValidation.ValidateLinksPhase | lib/etna/clients/magma/workflows/json_models.rb:150-163 | Everything the link step reports belongs to it. |
| JsonValidation.PhasesInOrder | lib/etna/clients/magma/workflows/json_models.rb:132-136 | Project problems, then model problems, then link problems, concatenated, are ordered by step. |
| JsonValidation.ProjectNameFirst | lib/etna/clients/magma/workflows/json_models.rb:132-136 | Only the first step reports on the project's name. |
| JsonValidation.ProjectNamesPhase | lib/etna/clients/magma/workflows/json_models.rb:138-142 | Everything the project step reports belongs to it. |
| JsonValidation.Validate | lib/etna/clients/magma/workflows/json_models.rb:132-136 | `validate` raises iff one of its three steps raises. Otherwise it reports the project's problems, then the models', then the links', and never stops at the first problem. |
| JsonValidation.NewProject | lib/etna/clients/magma/workflows/json_models.rb:39-43 | Constructing a project validates the parsed file at once. A top-level value that is not an object always raises, because `check_key` calls `key?` on it (line 21). An object raises exactly when `validate` does, and otherwise gives `validate`'s reports. |
| JsonValidation.ValidateOrdered | lib/etna/clients/magma/workflows/json_models.rb:132-136 | In the whole validation, problems come step by step: project names, then models, then links. |
| JsonValidation.ValidateInOrder | lib/etna/clients/magma/workflows/json_models.rb:132-171 | The whole validation reports the project-name problems first. Then come the models' own and attribute problems, in declaration order. Last come the link problems, in declaration order. |
| JsonValidation.ValidateProjectName | lib/etna/clients/magma/workflows/json_models.rb:132-142 | The whole validation reports the project name iff the name is not acceptable. |
| JsonValidation.ValidateIncludesModels | lib/etna/clients/magma/workflows/json_models.rb:144-148 | Every problem a model reports is among the whole validation's. |
| ModelTree.Entries | lib/etna/clients/magma/workflows/json_models.rb:53-57 | The name and stripped parent of each model, in declaration order. |
| ModelTree.ChildrenOfMembers | lib/etna/clients/magma/workflows/json_models.rb:63-65 | `models_by_parent[p]` holds exactly the models whose parent is `p`. |
| ModelTree.NextLevelMembers | lib/etna/clients/magma/workflows/json_models.rb:73 | A turn of the loop finds exactly the models whose parent is one of the names it looks up. |
| ModelTree.DepthNext | lib/etna/clients/magma/workflows/json_models.rb:73-77 | Each turn looks up the names of the models the previous turn found. |
| ModelTree.ParentsAt | lib/etna/clients/magma/workflows/json_models.rb:70-77 | The loop first looks up `nil`, then the names of the previous turn's models. |
| ModelTree.SortDepths | lib/etna/clients/magma/workflows/json_models.rb:80-82 | Every depth is sorted by name and is a permutation of what the turn found. |
| ModelTree.TreeLevels | lib/etna/clients/magma/workflows/json_models.rb:67-85 | `model_tree` raises exactly when some model's parent name cannot be stripped. |
| ModelTree.Flatten | lib/etna/clients/magma/workflows/json_models.rb:80 | The concatenated depths hold exactly the models of some depth. |
| ModelTree.GrowNoneIffEndless | lib/etna/clients/magma/workflows/json_models.rb:72-83 | The model runs out of its bounded number of turns exactly when the Ruby loop would never stop. |
| ModelTree.GrowNoneIffCycle | lib/etna/clients/magma/workflows/json_models.rb:72-83 | The loop never stops exactly when the parent links reachable from the models without a parent run into a cycle. |
| ModelTree.GrowStopsOnDistinctNames | lib/etna/clients/magma/workflows/json_models.rb:72-83 | With distinct names, the loop stops. |
| ModelTree.FirstLevel | lib/etna/clients/magma/workflows/json_models.rb:70-73 | The first turn finds exactly the models without a parent. |
| ModelTree.ParentInPrevious | lib/etna/clients/magma/workflows/json_models.rb:73-77 | A model found on a later turn has its parent found on the turn before. |
| ModelTree.TreeDepths | lib/etna/clients/magma/workflows/json_models.rb:67-85 | The returned depths are the loop's turns, each sorted by name. |
| ModelTree.TreeRoots | lib/etna/clients/magma/workflows/json_models.rb:67-85 | The models at depth 0 are exactly those without a `parent_model_name`. |
| ModelTree.TreeParentAbove | lib/etna/clients/magma/workflows/json_models.rb:67-85 | Every model at a later depth has its parent one depth above. |
| ModelTree.TreeParentBefore | lib/etna/clients/magma/workflows/json_models.rb:67-85 | In the returned list, a model's parent comes before it. |
| ModelTree.TreeMembers | lib/etna/clients/magma/workflows/json_models.rb:67-85 | `model_tree` lists exactly the models whose chain of parents reaches a model without one. The others are left out. |
| ModelTree.TreeNoRepeats | lib/etna/clients/magma/workflows/json_models.rb:67-85 | With distinct model names, no model is listed twice. |
| ModelTree.TreeNoneIffCycle | lib/etna/clients/magma/workflows/json_models.rb:67-85 | `model_tree` never returns exactly when a cycle of parent links is reachable from a root, that is, when every turn finds models. |
| ModelTree.TreeStopsOnDistinctNames | lib/etna/clients/magma/workflows/json_models.rb:67-85 | With distinct model names, `model_tree` returns. |
| ModelTree.TreeWithin | lib/etna/clients/magma/workflows/json_models.rb:67-85 | Every listed position is a model of the project. |
| ModelTree.Select | lib/etna/clients/magma/workflows/json_models.rb:73 | Picking models by position keeps the positions' order. |
| ModelTree.Tree | lib/etna/clients/magma/workflows/json_models.rb:67-85 | The result raises exactly on an unreadable parent name. It never returns exactly on a reachable cycle. |
| ModelTree.TreeParentFirst | lib/etna/clients/magma/workflows/json_models.rb:67-85 | The list holds models of the project only, each after the model its `parent_model_name` names. |
| MagmaCompile.SetValuesField | lib/etna/clients/magma/workflows/json_models.rb:114-121 | A setter block changes only the fields it sets, on the one target it is run on. |
| MagmaCompile.SetAttributeFields | lib/etna/clients/magma/workflows/json_models.rb:115 | A block on one attribute leaves the other attributes alone, and creates its attribute when missing. |
| MagmaCompile.Apply | lib/etna/clients/magma/workflows/json_models.rb:92 | `build_model` is get-or-create: a block creates its model when missing and removes none. |
| MagmaCompile.ApplyField | lib/etna/clients/magma/workflows/json_models.rb:92-93 | A block changes the slots it sets and no other. |
| MagmaCompile.LastWriteWins | lib/etna/clients/magma/workflows/json_models.rb:91-101 | After all the blocks have run, every slot holds the value of the last block that set it, or its old value. |
| MagmaCompile.ModelsCreated | lib/etna/clients/magma/workflows/json_models.rb:91-101 | Running the blocks creates exactly the models they touch. |
| MagmaCompile.StripValue | lib/etna/clients/magma/workflows/json_models.rb:365-366 | `raw[key].strip` without `&.` succeeds exactly on a string. |
| MagmaCompile.CopySettings | lib/etna/clients/magma/workflows/json_models.rb:372-375 | `hidden`, `read_only`, `validation` and `restricted` are copied exactly when their key is present, with the raw value. |
| MagmaCompile.ReadAttribute | lib/etna/clients/magma/workflows/json_models.rb:359-376 | What compiling reads from an attribute: stripped display name and description, which raise unless they are strings; type and link target through `&.strip`; the copied settings. |
| MagmaCompile.TypedFields | lib/etna/clients/magma/workflows/json_models.rb:364-370 | The typed fields raise exactly for a non-identifier attribute with an unreadable display name, description or type. |
| MagmaCompile.AttributeBlock | lib/etna/clients/magma/workflows/json_models.rb:359-378 | `JsonAttribute#to_magma_model` raises exactly when one of the values it strips has the wrong type. Its block is on that attribute of that model. |
| MagmaCompile.TypedLookup | lib/etna/clients/magma/workflows/json_models.rb:361-370 | The names and types set first are the compiled ones. |
| MagmaCompile.BlockFieldsCopied | lib/etna/clients/magma/workflows/json_models.rb:372-375 | The copied settings are stored over the typed fields. |
| MagmaCompile.BlockLinkField | lib/etna/clients/magma/workflows/json_models.rb:376 | The link target is stored only when there is one. |
| MagmaCompile.AttributeBlockFields | lib/etna/clients/magma/workflows/json_models.rb:359-378 | Both names are the attribute name. The identifier attribute is typed `identifier` and has no display name or description. Any other attribute has its stripped type, display name and description. The four settings are present only when given, and the link target only when there is one. |
| MagmaCompile.AttributeBlocksFail | lib/etna/clients/magma/workflows/json_models.rb:276-278 | The attribute blocks raise exactly when one of the attributes does. |
| MagmaCompile.AttributeBlocksOneForOne | lib/etna/clients/magma/workflows/json_models.rb:276-278 | The attribute blocks are those of the declared attributes, one for one, in order. |
| MagmaCompile.AttributeBlocksEach | lib/etna/clients/magma/workflows/json_models.rb:276-278 | Both facts together. |
| MagmaCompile.ReadModel | lib/etna/clients/magma/workflows/json_models.rb:271-274 | The parent name a model is compiled with is its stripped `parent_model_name`, and reading it raises exactly when that cannot be stripped. |
| MagmaCompile.ModelBlocks | lib/etna/clients/magma/workflows/json_models.rb:271-284 | `JsonModel#to_magma_model` raises exactly on an unreadable value, or on a non-project model with no parent. All its blocks are on that model. |
| MagmaCompile.ModelBlocksParts | lib/etna/clients/magma/workflows/json_models.rb:271-284 | The template block, then the attribute blocks, then the parent attribute for any model except `project`. |
| MagmaCompile.ModelBlocksShape | lib/etna/clients/magma/workflows/json_models.rb:271-295 | The template block comes first and only there, the declared attributes follow one for one, and last, unless the model is `project`, comes the parent attribute. |
| MagmaCompile.ChildBlock | lib/etna/clients/magma/workflows/json_models.rb:114-122 | A child attribute raises exactly when the child's `parent_link_type` cannot be read. |
| MagmaCompile.ChildBlocksFail | lib/etna/clients/magma/workflows/json_models.rb:105-112 | The child attributes raise exactly when some child's link type cannot be read. |
| MagmaCompile.ChildBlocksFrom | lib/etna/clients/magma/workflows/json_models.rb:105-112 | Every child attribute belongs to one of the model's children. |
| MagmaCompile.ChildBlocksCover | lib/etna/clients/magma/workflows/json_models.rb:105-112 | Every child of the model gets its attribute. |
| MagmaCompile.ChildBlocksEach | lib/etna/clients/magma/workflows/json_models.rb:105-122 | Child attributes raise exactly on an unreadable link type. Otherwise there is one per child and none for any other model. |
| MagmaCompile.ModelPass | lib/etna/clients/magma/workflows/json_models.rb:91-99 | A model's turn raises exactly when its own compilation or one of its child attributes raises, or when some parent name cannot be read. All its blocks are on that model. |
| MagmaCompile.FirstPassFails | lib/etna/clients/magma/workflows/json_models.rb:91-99 | The loop raises exactly when some model's turn does. |
| MagmaCompile.FirstPassNamed | lib/etna/clients/magma/workflows/json_models.rb:91-99 | Every block of the loop is on one of the models. |
| MagmaCompile.FirstPassTouches | lib/etna/clients/magma/workflows/json_models.rb:91-99 | Every model gets a block in the loop. |
| MagmaCompile.FirstPassOwner | lib/etna/clients/magma/workflows/json_models.rb:91-99 | With distinct names, what the loop leaves in a model's slot is what that model's own turn left there. |
| MagmaCompile.LinkBlocksFail | lib/etna/clients/magma/workflows/json_models.rb:124-130 | One model's reciprocal links raise exactly when a type cannot be read, or when a link's target cannot be read or names no model. |
| MagmaCompile.LinkBlocksFrom | lib/etna/clients/magma/workflows/json_models.rb:124-130 | Every reciprocal block is for a declared link and is on an existing model. |
| MagmaCompile.LinkBlocksHas | lib/etna/clients/magma/workflows/json_models.rb:124-130 | Every declared link gets its reciprocal block. |
| MagmaCompile.ReciprocalFail | lib/etna/clients/magma/workflows/json_models.rb:124-130 | The reciprocal pass raises exactly when some model's links do. |
| MagmaCompile.ReciprocalSources | lib/etna/clients/magma/workflows/json_models.rb:124-130 | Every reciprocal block comes from a link declared on one of the models. |
| MagmaCompile.ReciprocalHas | lib/etna/clients/magma/workflows/json_models.rb:124-130 | Every link on every model gets its reciprocal block. |
| MagmaCompile.Compile | lib/etna/clients/magma/workflows/json_models.rb:87-103 | `get_magma_models` raises exactly when some model's turn of the loop or some reciprocal link raises. |
| MagmaCompile.CompileBlocksParts | lib/etna/clients/magma/workflows/json_models.rb:87-103 | The loop's blocks come first, then the reciprocal links'. |
| MagmaCompile.ReciprocalsNamed | lib/etna/clients/magma/workflows/json_models.rb:126-127 | Reciprocal links land only on models of the project. |
| MagmaCompile.CompileBlocksNamed | lib/etna/clients/magma/workflows/json_models.rb:87-103 | Every block is on one of the models. |
| MagmaCompile.CompileBlocksTouch | lib/etna/clients/magma/workflows/json_models.rb:87-103 | Every model gets a block. |
| MagmaCompile.CompiledModelName | lib/etna/clients/magma/workflows/json_models.rb:87-103 | A name is a compiled model exactly when it is one of the project's models. |
| MagmaCompile.CompiledModelNames | lib/etna/clients/magma/workflows/json_models.rb:87-103 | The compiled set has one model per model of the project, and no other. |
| MagmaCompile.ReciprocalsOnAttributes | lib/etna/clients/magma/workflows/json_models.rb:235-245 | Reciprocal links never change a template's own fields. |
| MagmaCompile.ModelPassTemplate | lib/etna/clients/magma/workflows/json_models.rb:271-274 | A model's own turn leaves its template's `identifier` and `parent` as it read them. |
| MagmaCompile.CompiledTemplate | lib/etna/clients/magma/workflows/json_models.rb:271-274 | With distinct names, each compiled template holds the model's own stripped `identifier` and `parent_model_name`. |
| MagmaCompile.ReciprocalsMiss | lib/etna/clients/magma/workflows/json_models.rb:124-130 | No reciprocal block sets an attribute named after a model that declares no link to the attribute's model. |
| MagmaCompile.PassChildAttribute | lib/etna/clients/magma/workflows/json_models.rb:105-122 | Within a model's turn, the attribute named after a child ends with exactly what `add_child_attribute` set. |
| MagmaCompile.CompiledChildAttribute | lib/etna/clients/magma/workflows/json_models.rb:105-122 | With distinct names, each child model C of P gives P an attribute named C, typed with C's link type and shown as C's prettified name, unless C links to P, which validation rejects. |
| MagmaCompile.ReciprocalsAgree | lib/etna/clients/magma/workflows/json_models.rb:235-245 | All reciprocal blocks for one slot store the same value. |
| MagmaCompile.CompiledReciprocal | lib/etna/clients/magma/workflows/json_models.rb:124-130 | Every link from A to B leaves on B a `collection` attribute named A, linking back to A and shown as A's prettified name. |
| MagmaCompile.PassParentFields | lib/etna/clients/magma/workflows/json_models.rb:283-295 | In a model's own turn, the attribute named after its parent keeps the names, link target and display fields `add_parent_attribute` gives it. |
| MagmaCompile.PassParentType | lib/etna/clients/magma/workflows/json_models.rb:105-122 | In a model's own turn, the parent attribute ends typed `parent`. The exception is a parent that is also the model's child: then it ends typed with that child's `parent_link_type`. |
| MagmaCompile.CompiledParentAttribute | lib/etna/clients/magma/workflows/json_models.rb:283-295 | With distinct names, every model other than `project` has an attribute named after its parent. Its `attribute_name`, `name` and `link_model_name` are the parent, and its display name and description are the parent's prettified name. |
| MagmaCompile.CompiledParentType | lib/etna/clients/magma/workflows/json_models.rb:124-130 | With distinct names, the parent attribute is typed `collection` iff the parent links to the model. Otherwise it takes the parent's `parent_link_type` when the parent is also the model's child, and `parent` in every other case. |
| CrudWorkflow.NewWorkflow | lib/etna/clients/magma/workflows/crud_workflow.rb:9-11 | `batch_size` defaults to 30 and `cache_policy` to `:update_on_write`. The caller's arguments override both, and members nobody sets are nil. |
| CrudWorkflow.LookupRequestBuilt | lib/etna/clients/magma/workflows/crud_workflow.rb:18 | `lookup_record` asks for one record of one model of the workflow's project, with `attribute_names` at its default. |
| CrudWorkflow.TouchModel | lib/etna/clients/magma/workflows/crud_workflow.rb:22 | `@cache[model] \|\|= {}` makes the model's level present and adds no record. |
| CrudWorkflow.LookupRecord | lib/etna/clients/magma/workflows/crud_workflow.rb:13-26 | A cached record is returned without a call. Otherwise the client is asked once, its answer is returned, and no record is ever stored. |
| CrudWorkflow.MergeExisting | lib/etna/clients/magma/workflows/crud_workflow.rb:42-46 | Each revision is merged into a record already cached, new values winning. A record not cached stays absent. |
| CrudWorkflow.WriteThrough | lib/etna/clients/magma/workflows/crud_workflow.rb:36-48 | Every model of the request gets a level in the cache. Each cached record takes its revision merged over it, and no record is added. |
| CrudWorkflow.WriteThroughCreatesNoRecord | lib/etna/clients/magma/workflows/crud_workflow.rb:43-45 | Write-through never makes a record present. |
| CrudWorkflow.SlicesPartition | lib/etna/clients/magma/workflows/crud_workflow.rb:53 | The batches, put back together, are the request. Each batch holds between one and `batch_size` models, and only the last may be short. |
| CrudWorkflow.SlicesCount | lib/etna/clients/magma/workflows/crud_workflow.rb:53 | There are ceil(#models / `batch_size`) batches. |
| CrudWorkflow.RecordSlicesWhole | lib/etna/clients/magma/workflows/crud_workflow.rb:53-57 | Recording the batches one by one records the whole request. |
| CrudWorkflow.UpdateCalls | lib/etna/clients/magma/workflows/crud_workflow.rb:55 | One update call per batch, in order, for the workflow's project. |
| CrudWorkflow.UpdateRecords | lib/etna/clients/magma/workflows/crud_workflow.rb:30-60 | A batch size below one raises after the cache policy has run, with no call made and the ledger as it was. Only `:update_on_write` touches the cache. |
| CrudWorkflow.UpdateWritesThrough | lib/etna/clients/magma/workflows/crud_workflow.rb:36-48 | Under `:update_on_write`, a cached record takes the revision merged over it, an uncached one stays uncached, and other records are left alone. |
| CrudWorkflow.UpdateRecordsLedger | lib/etna/clients/magma/workflows/crud_workflow.rb:53-56 | The ledger is merged at model level. Each model of the request maps to this call's records for it, and other models keep their earlier entries. |
| CrudWorkflow.UpdateRecordsResponses | lib/etna/clients/magma/workflows/crud_workflow.rb:52-59 | There are ceil(#models / `batch_size`) responses, and each one is the final ledger. |
| CrudWorkflow.LiveRunSends | lib/etna/clients/magma/workflows/crud_workflow.rb:53-55 | A live run appends one update call per batch after the earlier calls. |
| CrudWorkflow.UpdateRecordsCalls | lib/etna/clients/magma/workflows/crud_workflow.rb:53-55 | A live run sends ceil(#models / `batch_size`) updates after the earlier calls. Each is for the workflow's project and holds at most `batch_size` models, and their revisions together are the request. |
| CrudWorkflow.ReadOnlyStillRecords | lib/etna/clients/magma/workflows/crud_workflow.rb:55-56 | With `read_only`, no call is made, but the cache, the ledger and the responses are exactly those of a live run. |
| CrudWorkflow.RunNeverCaches | lib/etna/clients/magma/workflows/crud_workflow.rb:13-48 | No sequence of lookups and updates ever puts a record into an empty cache. |
| CrudWorkflow.LookupAlwaysRetrieves | lib/etna/clients/magma/workflows/crud_workflow.rb:13-26 | Whatever ran before, every `lookup_record` on a fresh workflow asks the client again. |
| JsonModels.JsonModel.Attributes | lib/etna/clients/magma/workflows/json_models.rb:224-227 | A model without an `attributes` key has none. Otherwise it has one attribute per entry, in declaration order, each under its stripped name. It raises unless `attributes` is a hash of hashes or an array of `[name, hash]` pairs. |

## Left out

- Reading the file and parsing JSON (`JsonProject#initialize`). The model starts from the parsed value: `NewProject` takes any JSON value, and the operations below it take the top-level object.
- `project_name_full` beyond its `check_key`, and `JsonModel.from_name`, which no modelled code calls.
- The HTTP transport. `retrieve` and `update` become entries of a call log. A retrieve that fails, or answers something other than a document or nothing, is not modelled: the answer is a parameter.
- The logger, the `JsonSerializableStruct` and multipart serialisation mixins, `QueryRequest` and `QueryResponse`, and the response wrappers beyond the document `lookup_record` reads. They are thin wrappers or not part of the core.
- `DirectedGraph` is not part of this model. The graph is the set of edges `add_connection` would add.
- The builders (`build_model`, `build_template`, `build_attributes`, `build_attribute`) are not part of this model. They are modelled as get-or-create lookups by name whose setters store one field each.
- Field order within one compiled template or attribute is not modelled: a map stands for the hash.
- `ParentLinkType` is not part of this model. Its values are taken to be child, collection and table, the link types a child model may have.
- Which exception is raised, and its message, when several values are malformed. The model only states when something raises.
- Floating-point numbers. JSON numbers are integers here, since the client only asks whether a value is a number.
- The unknown-keyword error of `MagmaCrudWorkflow.new` and a `batch_size` that is not an integer. The arguments are typed and known.
- The block `update_records` yields to is modelled as the revisions it leaves in the request.
- CrudWorkflow.UpdateRecords: a `magma_client.update` that raises is not modelled, because the call is a log entry that always succeeds. In Ruby the cache would already be written through, the ledger would hold only the earlier batches, and no responses would be returned.
- CrudWorkflow.UpdateRecordsResponses: the responses are values. In Ruby every response is the same ledger hash, since `Hash#update` returns its receiver, so a later `update_records` call also changes responses returned earlier. The model returns each call's responses as copies of that call's final ledger.
- Sorting.SortBy: Ruby's sort is not stable. For models with equal names, the order is one of the model's choosing.
- ModelTree.TreeLevels: the loop is given `|models|` turns that find children. `ModelTree.GrowNoneIffEndless` shows this is exactly enough, so a `None` result means the Ruby loop never stops.
- ModelTree.TreeNoRepeats: stated only for distinct model names. With two keys that strip to the same name, a model can be found twice, and the loop may not stop.
- MagmaCompile.CompiledTemplate: stated only for projects whose model names are distinct. Otherwise two models share one builder, and the later one wins.
- MagmaCompile.CompiledChildAttribute: stated only for distinct names, and for a child that does not also declare a link to its parent. Validation rejects such a link (json_models.rb line 159), and its reciprocal would overwrite the child attribute.
- MagmaCompile.CompiledParentAttribute: stated only for distinct model names. With two keys that strip to the same name, both models share one builder, and a later model's declared attribute of the parent's name overwrites the parent attribute.
- MagmaCompile.CompiledParentType: stated only for distinct model names, for the same reason as `CompiledParentAttribute`.
- RubyValues.PrettifyChars: case mapping, in `Prettify` and everywhere else, covers ASCII letters only. Ruby's `capitalize` also maps other Unicode letters, and can change a name's length (`"ß"` becomes `"Ss"`). For a name with non-ASCII letters, such as a `parent_model_name`, which only gets `check_key`, the prettified display name is not modelled.

=== FILE: crud_workflow.dfy ===
/** `MagmaCrudWorkflow` (crud_workflow.rb): a record cache and a ledger of
    submitted revisions kept in front of a Magma client. The client's
    `retrieve` and `update` calls are not performed: they are appended to a
    call log, and what `retrieve` would answer is a parameter. */
module CrudWorkflow {
  import opened Wrappers
  import opened Dicts
  import opened RubyValues
  import opened MagmaModels

  // ---------------------------------------------------------------------------
  // Configuration

  /** The `cache_policy` member: the symbol `:update_on_write`, any other
      truthy value, or `nil`/`false`. */
  datatype CachePolicy = UpdateOnWrite | OtherPolicy | NoPolicy

  /** `if cache_policy`: every policy but nil/false is truthy. */
  predicate Caching(p: CachePolicy) {
    !p.NoPolicy?
  }

  datatype Workflow = Workflow(projectName: Json, readOnly: Json, batchSize: int, cachePolicy: CachePolicy)

  /** The keyword arguments a caller passes to `MagmaCrudWorkflow.new`; `None`
      for one left out. */
  datatype WorkflowArgs = WorkflowArgs(
    projectName: Option<Json>,
    readOnly: Option<Json>,
    batchSize: Option<int>,
    cachePolicy: Option<CachePolicy>)

  const DefaultBatchSize := 30

  /** `initialize`: the defaults `batch_size: 30, cache_policy: :update_on_write`
      updated with the caller's arguments; members nobody sets are nil. */
  function NewWorkflow(args: WorkflowArgs): (w: Workflow)
    ensures w.batchSize == if args.batchSize.Some? then args.batchSize.value else 30
    ensures w.cachePolicy == if args.cachePolicy.Some? then args.cachePolicy.value else UpdateOnWrite
    ensures args.readOnly.None? ==> !Truthy(w.readOnly)
    ensures args.readOnly.Some? ==> w.readOnly == args.readOnly.value
    ensures args.projectName.None? ==> w.projectName == Null
    ensures args.projectName.Some? ==> w.projectName == args.projectName.value
  {
    Workflow(
      args.projectName.GetOr(Null),
      args.readOnly.GetOr(Null),
      args.batchSize.GetOr(DefaultBatchSize),
      args.cachePolicy.GetOr(UpdateOnWrite))
  }

  // ---------------------------------------------------------------------------
  // State

  /** Model name to record name to the cached document. */
  type Cache = Dict<string, Dict<string, Revision>>

  /** A call made to the Magma client. */
  datatype Call = Retrieve(retrieval: RetrievalRequest) | Update(update: UpdateRequest)

  /** `@cache`, `@recorded_updates` (nil until the first `update_records`) and
      the calls made so far. A nil `@cache` behaves as the empty one. */
  datatype State = State(cache: Cache, recorded: Option<UpdateRequest>, calls: seq<Call>)

  const Start: State := State([], None, [])

  /** `h.dig(m, r)` on a two-level hash. */
  function Dig(h: Dict<string, Dict<string, Revision>>, m: string, r: string): Option<Revision> {
    Get(ModelRevisions(h, m), r)
  }

  /** The cache holds no record at all. */
  ghost predicate NoRecords(cache: Cache) {
    forall m, r :: Dig(cache, m, r).None?
  }

  /** The revisions recorded so far; nothing before the first `update_records`. */
  function Ledger(s: State): Revisions {
    if s.recorded.Some? then s.recorded.value.revisions else []
  }

  // ---------------------------------------------------------------------------
  // lookup_record

  /** The request `lookup_record` sends: one record of one model, with
      `attribute_names` left at its default. */
  function LookupRequest(w: Workflow, model: string, record: string): RetrievalRequest {
    RetrievalRequest(Str(model), Str("identifier"), Arr([Str(record)]), w.projectName)
  }

  /** The keyword arguments `lookup_record` passes to `RetrievalRequest.new`. */
  function LookupParams(w: Workflow, model: string, record: string): Hash {
    var p := [("project_name", w.projectName), ("record_names", Arr([Str(record)])), ("model_name", Str(model))];
    DistinctKeysUnique(p);
    p
  }

  /** `LookupRequest` is what the request constructor builds from those arguments. */
  lemma LookupRequestBuilt(w: Workflow, model: string, record: string)
    ensures NewRetrievalRequest(LookupParams(w, model, record)) == Success(LookupRequest(w, model, record))
  {
    var p := LookupParams(w, model, record);
    assert !exists k :: k in Keys(p) && k !in RetrievalMembers by {
      assert Keys(p) == ["project_name", "record_names", "model_name"];
    }
    assert Get(p, "attribute_names") == None by {
      assert Keys(p) == ["project_name", "record_names", "model_name"];
    }
    assert Get(p, "project_name") == Some(w.projectName) by { GetAt(p, 0); }
    assert Get(p, "record_names") == Some(Arr([Str(record)])) by { GetAt(p, 1); }
    assert Get(p, "model_name") == Some(Str(model)) by { GetAt(p, 2); }
  }

  /** `(@cache[model] ||= {})`: makes the model's level present, holding no new record. */
  function TouchModel(cache: Cache, model: string): (c: Cache)
    ensures model in Keys(c)
    ensures forall m :: m in Keys(c) <==> m in Keys(cache) || m == model
    ensures forall m, r :: Dig(c, m, r) == Dig(cache, m, r)
  {
    var none: Dict<string, Revision> := [];
    if model in Keys(cache) then cache else Put(cache, model, none)
  }

  datatype Lookup = Lookup(state: State, result: Option<Revision>)

  /** `lookup_record(model, record)`. `fetched` is the document the client's
      `retrieve` would answer (`None` when it holds no such record). On a miss
      the source indexes the model's hash with `record_id = result` instead of
      storing `result`, so the record is never cached. */
  function LookupRecord(w: Workflow, s: State, model: string, record: string, fetched: Option<Revision>): (l: Lookup)
    ensures Dig(s.cache, model, record).Some? ==> l == Lookup(s, Dig(s.cache, model, record))
    ensures Dig(s.cache, model, record).None? ==>
              && l.result == fetched
              && l.state.calls == s.calls + [Retrieve(LookupRequest(w, model, record))]
              && (Caching(w.cachePolicy) ==> model in Keys(l.state.cache))
              && (!Caching(w.cachePolicy) ==> l.state.cache == s.cache)
    ensures forall m, r :: Dig(l.state.cache, m, r) == Dig(s.cache, m, r)
    ensures l.state.recorded == s.recorded
  {
    var cached := Dig(s.cache, model, record);
    if cached.Some? then
      Lookup(s, cached)
    else
      var cache := if Caching(w.cachePolicy) then TouchModel(s.cache, model) else s.cache;
      Lookup(State(cache, s.recorded, s.calls + [Retrieve(LookupRequest(w, model, record))]), fetched)
  }

  // ---------------------------------------------------------------------------
  // Write-through

  /** What the cache holds for a record after a revision `v` was written through:
      a cached record has `v` merged into it, and an uncached one stays uncached. */
  function Written(c: Option<Revision>, v: Option<Revision>): Option<Revision> {
    if c.Some? && v.Some? then Some(Merge(c.value, v.value)) else c
  }

  /** The inner loop: `revisions.each { |r, rev| records[r].update(rev) if records.include?(r) }`. */
  function MergeExisting(records: Dict<string, Revision>, revs: Dict<string, Revision>): (res: Dict<string, Revision>)
    ensures Keys(res) == Keys(records)
    ensures forall r :: Get(res, r) == Written(Get(records, r), Get(revs, r))
    decreases |revs|
  {
    if |revs| == 0 then records
    else
      var (r, rev) := revs[0];
      var records' := if r in Keys(records) then Put(records, r, Merge(Get(records, r).value, rev)) else records;
      assert r !in Keys(revs[1..]);
      MergeExisting(records', revs[1..])
  }

  /** The `:update_on_write` branch of `update_records`: every model of the
      request gets a (possibly empty) level in the cache, and every revision of
      an already cached record is merged into it. */
  function WriteThrough(cache: Cache, request: Revisions): (res: Cache)
    ensures forall m :: m in Keys(res) <==> m in Keys(cache) || m in Keys(request)
    ensures forall m, r :: Dig(res, m, r) == Written(Dig(cache, m, r), Dig(request, m, r))
    decreases |request|
  {
    if |request| == 0 then cache
    else
      var (m, revs) := request[0];
      var cache' := Put(cache, m, MergeExisting(ModelRevisions(cache, m), revs));
      assert m !in Keys(request[1..]);
      WriteThrough(cache', request[1..])
  }

  /** Write-through never makes a record present. */
  lemma WriteThroughCreatesNoRecord(cache: Cache, request: Revisions, m: string, r: string)
    ensures Dig(WriteThrough(cache, request), m, r).Some? <==> Dig(cache, m, r).Some?
  {
  }

  // ---------------------------------------------------------------------------
  // Batching

  /** `d.to_a.each_slice(n).map(&:to_h)`: consecutive runs of `n` entries, the
      last one possibly shorter. */
  function Slices<K(==), V>(d: Dict<K, V>, n: int): (bs: seq<Dict<K, V>>)
    requires n > 0
    decreases |d|
  {
    if |d| == 0 then []
    else
      var k := if |d| < n then |d| else n;
      DistinctSlice(d, 0, k);
      DistinctSlice(d, k, |d|);
      [d[0..k]] + Slices(d[k..|d|], n)
  }

  function Concat<K, V>(bs: seq<seq<(K, V)>>): seq<(K, V)> {
    if |bs| == 0 then [] else bs[0] + Concat(bs[1..])
  }

  /** The slices put back together are the hash they were cut from, each slice
      holds between one and `n` entries, and only the last may be short. */
  lemma {:induction false} SlicesPartition<K, V>(d: Dict<K, V>, n: int)
    requires n > 0
    ensures Concat(Slices(d, n)) == d
    ensures forall i :: 0 <= i < |Slices(d, n)| ==> 0 < |Slices(d, n)[i]| <= n
    ensures forall i :: 0 <= i < |Slices(d, n)| - 1 ==> |Slices(d, n)[i]| == n
    decreases |d|
  {
    if |d| > 0 {
      var k := if |d| < n then |d| else n;
      DistinctSlice(d, k, |d|);
      var rest: Dict<K, V> := d[k..|d|];
      SlicesPartition(rest, n);
      var bs := Slices(d, n);
      assert bs == [d[0..k]] + Slices(rest, n);
      assert bs[1..] == Slices(rest, n);
      assert d == d[0..k] + rest;
    }
  }

  lemma {:induction false} MulAtLeast(a: int, n: int)
    requires a >= 1 && n > 0
    ensures a * n >= n
    decreases a
  {
    if a > 1 {
      MulAtLeast(a - 1, n);
      assert a * n == (a - 1) * n + n;
    }
  }

  /** Euclidean division has one quotient. */
  lemma DivUnique(y: int, n: int, q: int, r: int)
    requires n > 0 && 0 <= r < n && y == q * n + r
    ensures y / n == q
  {
    var q', r' := y / n, y % n;
    assert y == q' * n + r';
    if q > q' {
      MulAtLeast(q - q', n);
    } else if q < q' {
      MulAtLeast(q' - q, n);
    }
  }

  lemma DivStep(x: int, n: int)
    requires 0 <= x && 0 < n
    ensures (x + n) / n == x / n + 1
  {
    var q, r := x / n, x % n;
    assert x + n == (q + 1) * n + r;
    DivUnique(x + n, n, q + 1, r);
  }

  /** There are `ceil(|d| / n)` slices. */
  lemma {:induction false} SlicesCount<K, V>(d: Dict<K, V>, n: int)
    requires n > 0
    ensures |Slices(d, n)| == (|d| + n - 1) / n
    decreases |d|
  {
    if |d| > 0 {
      if |d| <= n {
        DivUnique(|d| + n - 1, n, 1, |d| - 1);
      } else {
        DistinctSlice(d, n, |d|);
        var rest: Dict<K, V> := d[n..|d|];
        SlicesCount(rest, n);
        DivStep(|rest| + n - 1, n);
        assert |d| + n - 1 == (|rest| + n - 1) + n;
      }
    }
  }

  /** `ledger.update(b)` for each slice `b` in turn. */
  function RecordSlices<K(!new), V>(ledger: Dict<K, V>, bs: seq<Dict<K, V>>): Dict<K, V>
    decreases |bs|
  {
    if |bs| == 0 then ledger else RecordSlices(Merge(ledger, bs[0]), bs[1..])
  }

  /** Recording the request slice by slice records the whole request. */
  lemma {:induction false} RecordSlicesWhole<K(!new), V>(ledger: Dict<K, V>, d: Dict<K, V>, n: int)
    requires n > 0
    ensures RecordSlices(ledger, Slices(d, n)) == Merge(ledger, d)
    decreases |d|
  {
    if |d| > 0 {
      var k := if |d| < n then |d| else n;
      DistinctSlice(d, 0, k);
      DistinctSlice(d, k, |d|);
      var head: Dict<K, V> := d[0..k];
      var rest: Dict<K, V> := d[k..|d|];
      assert head + rest == d;
      MergeConcat(ledger, head, rest);
      RecordSlicesWhole(Merge(ledger, head), rest, n);
    }
  }

  /** One `magma_client.update` per slice, in order. */
  function UpdateCalls(projectName: Json, bs: seq<Revisions>): (cs: seq<Call>)
    ensures |cs| == |bs|
    ensures forall i :: 0 <= i < |bs| ==> cs[i] == Update(UpdateRequest(bs[i], projectName))
  {
    if |bs| == 0 then [] else [Update(UpdateRequest(bs[0], projectName))] + UpdateCalls(projectName, bs[1..])
  }

  /** The revisions carried by a run of update calls. */
  function Sent(cs: seq<Call>): (rs: seq<Revisions>)
    requires forall i :: 0 <= i < |cs| ==> cs[i].Update?
    ensures |rs| == |cs|
    ensures forall i :: 0 <= i < |cs| ==> rs[i] == cs[i].update.revisions
  {
    seq(|cs|, i requires 0 <= i < |cs| => cs[i].update.revisions)
  }

  // ---------------------------------------------------------------------------
  // update_records

  /** The state after a call, and either the responses or the exception. */
  datatype Outcome = Outcome(state: State, responses: Checked<seq<Revisions>>)

  /** The ledger with this request recorded. */
  function Recorded(w: Workflow, s: State, request: Revisions): UpdateRequest
    requires w.batchSize > 0
  {
    var ledger := s.recorded.GetOr(NewUpdateRequest(w.projectName));
    ledger.(revisions := RecordSlices(ledger.revisions, Slices(request, w.batchSize)))
  }

  /** `update_records { |request| ... }`, where `request` holds the revisions the
      block added. The cache policy is applied first; a batch size below one
      then makes `each_slice` raise, leaving the cache and the started ledger
      in place. Each `responses << ledger.update(batch)` appends the ledger hash
      itself, so every response is the final ledger. */
  function UpdateRecords(w: Workflow, s: State, request: Revisions): (o: Outcome)
    ensures o.state.recorded.Some?
    ensures o.responses.Failure? <==> w.batchSize <= 0
    ensures o.responses.Failure? ==> o.state.calls == s.calls && Ledger(o.state) == Ledger(s)
    ensures w.cachePolicy != UpdateOnWrite ==> o.state.cache == s.cache
  {
    var ledger := s.recorded.GetOr(NewUpdateRequest(w.projectName));
    var cache := if w.cachePolicy == UpdateOnWrite then WriteThrough(s.cache, request) else s.cache;
    if w.batchSize <= 0 then
      Outcome(State(cache, Some(ledger), s.calls), Failure(ArgumentError("invalid slice size")))
    else
      var bs := Slices(request, w.batchSize);
      var sent := if Truthy(w.readOnly) then [] else UpdateCalls(w.projectName, bs);
      var ledger' := Recorded(w, s, request);
      Outcome(State(cache, Some(ledger'), s.calls + sent), Success(seq(|bs|, _ => ledger'.revisions)))
  }

  /** Under `:update_on_write` a cached record takes the request's revision
      merged over it, an uncached one stays uncached, and other records are
      left alone. */
  lemma UpdateWritesThrough(w: Workflow, s: State, request: Revisions, m: string, r: string)
    requires w.cachePolicy == UpdateOnWrite
    ensures Dig(UpdateRecords(w, s, request).state.cache, m, r) == Written(Dig(s.cache, m, r), Dig(request, m, r))
    ensures m in Keys(request) ==> m in Keys(UpdateRecords(w, s, request).state.cache)
  {
  }

  /** The ledger is merged at model level: each model of the request maps to the
      request's records for it, replacing what an earlier call recorded, and
      every other model keeps its earlier entry. */
  lemma UpdateRecordsLedger(w: Workflow, s: State, request: Revisions)
    requires w.batchSize > 0
    ensures forall m :: Get(Ledger(UpdateRecords(w, s, request).state), m) ==
                        if m in Keys(request) then Get(request, m) else Get(Ledger(s), m)
  {
    var ledger := s.recorded.GetOr(NewUpdateRequest(w.projectName));
    RecordSlicesWhole(ledger.revisions, request, w.batchSize);
  }

  /** There are `ceil(#models / batch_size)` responses, and each is the final ledger. */
  lemma UpdateRecordsResponses(w: Workflow, s: State, request: Revisions)
    requires w.batchSize > 0
    ensures var o := UpdateRecords(w, s, request);
            && o.responses.Success?
            && |o.responses.value| == (|request| + w.batchSize - 1) / w.batchSize
            && (forall i :: 0 <= i < |o.responses.value| ==> o.responses.value[i] == Ledger(o.state))
  {
    SlicesCount(request, w.batchSize);
  }

  /** A live run appends one update call per batch to the calls made so far. */
  lemma LiveRunSends(w: Workflow, s: State, request: Revisions)
    requires w.batchSize > 0 && !Truthy(w.readOnly)
    ensures UpdateRecords(w, s, request).state.calls == s.calls + UpdateCalls(w.projectName, Slices(request, w.batchSize))
  {
  }

  /** Update calls appended after `earlier`: the earlier calls stay in front,
      and the appended ones carry the batches in order. */
  lemma AppendedCalls(earlier: seq<Call>, projectName: Json, bs: seq<Revisions>)
    ensures var calls := earlier + UpdateCalls(projectName, bs);
            && calls[..|earlier|] == earlier
            && (forall i :: |earlier| <= i < |calls| ==>
                  calls[i] == Update(UpdateRequest(bs[i - |earlier|], projectName)))
            && Sent(calls[|earlier|..]) == bs
  {
    var calls := earlier + UpdateCalls(projectName, bs);
    assert calls[|earlier|..] == UpdateCalls(projectName, bs);
  }

  /** The update calls for the batches of `request`, appended after `earlier`. */
  lemma BatchCalls(earlier: seq<Call>, projectName: Json, request: Revisions, n: int)
    requires n > 0
    ensures var calls := earlier + UpdateCalls(projectName, Slices(request, n));
            && |calls| == |earlier| + (|request| + n - 1) / n
            && calls[..|earlier|] == earlier
            && (forall i :: |earlier| <= i < |calls| ==>
                  && calls[i].Update?
                  && calls[i].update.projectName == projectName
                  && 0 < |calls[i].update.revisions| <= n)
            && Concat(Sent(calls[|earlier|..])) == request
  {
    var bs := Slices(request, n);
    SlicesCount(request, n);
    SlicesPartition(request, n);
    AppendedCalls(earlier, projectName, bs);
  }

  /** A live run sends `ceil(#models / batch_size)` updates after the earlier
      calls, each for the workflow's project and at most `batch_size` models,
      and their revisions put together are the request. */
  lemma UpdateRecordsCalls(w: Workflow, s: State, request: Revisions)
    requires w.batchSize > 0 && !Truthy(w.readOnly)
    ensures var calls := UpdateRecords(w, s, request).state.calls;
            && |calls| == |s.calls| + (|request| + w.batchSize - 1) / w.batchSize
            && calls[..|s.calls|] == s.calls
            && (forall i :: |s.calls| <= i < |calls| ==>
                  && calls[i].Update?
                  && calls[i].update.projectName == w.projectName
                  && 0 < |calls[i].update.revisions| <= w.batchSize)
            && Concat(Sent(calls[|s.calls|..])) == request
  {
    LiveRunSends(w, s, request);
    BatchCalls(s.calls, w.projectName, request, w.batchSize);
  }

  /** `read_only` only suppresses the update calls: the cache, the ledger and the
      responses are exactly those of a live run, and no call is made. */
  lemma ReadOnlyStillRecords(w: Workflow, s: State, request: Revisions)
    requires Truthy(w.readOnly)
    ensures var ro := UpdateRecords(w, s, request);
            var live := UpdateRecords(w.(readOnly := Null), s, request);
            && ro.state.cache == live.state.cache
            && ro.state.recorded == live.state.recorded
            && ro.responses == live.responses
            && ro.state.calls == s.calls
  {
  }

  // ---------------------------------------------------------------------------
  // Runs

  /** One call on the workflow. */
  datatype Step =
    | LookupStep(model: string, record: string, fetched: Option<Revision>)
    | UpdateStep(request: Revisions)

  function Perform(w: Workflow, s: State, step: Step): State {
    match step
    case LookupStep(m, r, fetched) => LookupRecord(w, s, m, r, fetched).state
    case UpdateStep(request) => UpdateRecords(w, s, request).state
  }

  function Run(w: Workflow, s: State, steps: seq<Step>): State
    decreases |steps|
  {
    if |steps| == 0 then s else Run(w, Perform(w, s, steps[0]), steps[1..])
  }

  /** No sequence of calls ever puts a record into an empty cache. */
  lemma {:induction false} RunNeverCaches(w: Workflow, s: State, steps: seq<Step>)
    requires NoRecords(s.cache)
    ensures NoRecords(Run(w, s, steps).cache)
    decreases |steps|
  {
    if |steps| > 0 {
      var s' := Perform(w, s, steps[0]);
      assert NoRecords(s'.cache) by {
        if steps[0].UpdateStep? && w.cachePolicy == UpdateOnWrite {
          forall m, r
            ensures Dig(s'.cache, m, r).None?
          {
            UpdateWritesThrough(w, s, steps[0].request, m, r);
          }
        }
      }
      RunNeverCaches(w, s', steps[1..]);
    }
  }

  /** Hence, whatever ran before, every `lookup_record` on a fresh workflow asks
      the client again, even for a record it has just looked up. */
  lemma LookupAlwaysRetrieves(w: Workflow, steps: seq<Step>, model: string, record: string, fetched: Option<Revision>)
    ensures var s := Run(w, Start, steps);
            var l := LookupRecord(w, s, model, record, fetched);
            l.result == fetched && l.state.calls == s.calls + [Retrieve(LookupRequest(w, model, record))]
  {
    RunNeverCaches(w, Start, steps);
    var s := Run(w, Start, steps);
    assert Dig(s.cache, model, record).None?;
  }
}

=== FILE: dicts.dfy ===
/** Ruby's `Hash` as the model sees it: an association list that remembers
    insertion order and holds each key at most once. */
module Dicts {
  import opened Wrappers

  /** No key occurs twice. */
  predicate DistinctKeys<K(==), V>(d: seq<(K, V)>) {
    |d| == 0 || (d[0].0 !in Keys(d[1..]) && DistinctKeys(d[1..]))
  }

  /** An insertion-ordered hash: the entries in insertion order, each key once. */
  type Dict<K(==), V> = d: seq<(K, V)> | DistinctKeys(d) witness []

  /** The keys in insertion order (Ruby `Hash#keys`). */
  function Keys<K, V>(d: seq<(K, V)>): (ks: seq<K>)
    ensures |ks| == |d|
    ensures forall i :: 0 <= i < |d| ==> ks[i] == d[i].0
  {
    if |d| == 0 then [] else [d[0].0] + Keys(d[1..])
  }

  /** `h[k]`, with `None` standing for Ruby's `nil` on a missing key. */
  function Get<K(==), V>(d: seq<(K, V)>, k: K): (r: Option<V>)
    ensures r.None? <==> k !in Keys(d)
  {
    if |d| == 0 then None
    else if d[0].0 == k then Some(d[0].1)
    else Get(d[1..], k)
  }

  /** Looking up a key in `[x] + s`: the head answers for its own key. */
  lemma Cons<K, V>(x: (K, V), s: seq<(K, V)>)
    ensures Keys([x] + s) == [x.0] + Keys(s)
    ensures Get([x] + s, x.0) == Some(x.1)
    ensures forall k :: k != x.0 ==> Get([x] + s, k) == Get(s, k)
  {
    assert ([x] + s)[1..] == s;
  }

  /** In a hash, the entry at position `i` is what a lookup of its key finds. */
  lemma {:induction false} GetAt<K, V>(d: Dict<K, V>, i: nat)
    requires i < |d|
    ensures Get(d, d[i].0) == Some(d[i].1)
  {
    if i > 0 {
      assert d[i].0 in Keys(d[1..]) by { assert Keys(d[1..])[i - 1] == d[i].0; }
      GetAt(d[1..], i - 1);
    }
  }

  /** Pairwise form of `DistinctKeys`: no two positions hold the same key. */
  predicate UniqueKeys<K(==), V>(d: seq<(K, V)>) {
    forall i, j :: 0 <= i < j < |d| ==> d[i].0 != d[j].0
  }

  lemma {:induction false} DistinctKeysUnique<K, V>(d: seq<(K, V)>)
    ensures DistinctKeys(d) <==> UniqueKeys(d)
    decreases |d|
  {
    if |d| > 0 {
      var t := d[1..];
      DistinctKeysUnique(t);
      if DistinctKeys(d) {
        forall i, j | 0 <= i < j < |d|
          ensures d[i].0 != d[j].0
        {
          if i == 0 {
            assert Keys(t)[j - 1] == d[j].0;
          } else {
            assert t[i - 1] == d[i] && t[j - 1] == d[j];
          }
        }
      }
      if UniqueKeys(d) {
        assert UniqueKeys(t) by {
          forall i, j | 0 <= i < j < |t|
            ensures t[i].0 != t[j].0
          {
            assert t[i] == d[i + 1] && t[j] == d[j + 1];
          }
        }
      }
    }
  }

  /** Any run of consecutive entries of a hash is itself a hash. */
  lemma DistinctSlice<K, V>(d: seq<(K, V)>, i: nat, j: nat)
    requires DistinctKeys(d) && i <= j <= |d|
    ensures DistinctKeys(d[i..j])
  {
    DistinctKeysUnique(d);
    DistinctKeysUnique(d[i..j]);
    var s := d[i..j];
    forall a, b | 0 <= a < b < |s|
      ensures s[a].0 != s[b].0
    {
      assert s[a] == d[i + a] && s[b] == d[i + b];
    }
  }

  /** Where key `k` sits. */
  function IndexOf<K(==), V>(d: seq<(K, V)>, k: K): (i: nat)
    requires k in Keys(d)
    ensures i < |d| && d[i].0 == k
  {
    if d[0].0 == k then 0 else 1 + IndexOf(d[1..], k)
  }

  lemma {:induction false} AppendFacts<K, V>(d: Dict<K, V>, x: (K, V))
    requires x.0 !in Keys(d)
    ensures Keys(d + [x]) == Keys(d) + [x.0]
    ensures DistinctKeys(d + [x])
    ensures Get(d + [x], x.0) == Some(x.1)
    ensures forall k :: k != x.0 ==> Get(d + [x], k) == Get(d, k)
  {
    if |d| > 0 {
      assert (d + [x])[1..] == d[1..] + [x];
      AppendFacts(d[1..], x);
    }
  }

  lemma {:induction false} ReplaceFacts<K, V>(d: Dict<K, V>, i: nat, x: (K, V))
    requires i < |d| && d[i].0 == x.0
    ensures Keys(d[i := x]) == Keys(d)
    ensures DistinctKeys(d[i := x])
    ensures Get(d[i := x], x.0) == Some(x.1)
    ensures forall k :: k != x.0 ==> Get(d[i := x], k) == Get(d, k)
  {
    if i > 0 {
      assert d[i := x][1..] == d[1..][i - 1 := x];
      ReplaceFacts(d[1..], i - 1, x);
    }
  }

  /** `h[k] = v`: replaces the value in place when `k` is present, appends otherwise. */
  function Put<K(==,!new), V>(d: Dict<K, V>, k: K, v: V): (r: Dict<K, V>)
    ensures Get(r, k) == Some(v)
    ensures forall k' :: k' != k ==> Get(r, k') == Get(d, k')
    ensures Keys(r) == if k in Keys(d) then Keys(d) else Keys(d) + [k]
  {
    if k in Keys(d) then
      var i := IndexOf(d, k);
      ReplaceFacts(d, i, (k, v));
      d[i := (k, v)]
    else
      AppendFacts(d, (k, v));
      d + [(k, v)]
  }

  /** `h.update(e)` (Hash#update): every entry of `e` is put into `h` in order,
      so values of `e` win and keys new to `h` are appended. */
  function Merge<K(==,!new), V>(d: Dict<K, V>, e: Dict<K, V>): (r: Dict<K, V>)
    ensures forall k :: Get(r, k) == if k in Keys(e) then Get(e, k) else Get(d, k)
    ensures Keys(d) <= Keys(r)
    decreases |e|
  {
    if |e| == 0 then d
    else
      assert Keys(e) == [e[0].0] + Keys(e[1..]);
      Merge(Put(d, e[0].0, e[0].1), e[1..])
  }

  /** The keys of a merge are those of either side. */
  lemma MergeKeys<K(!new), V>(d: Dict<K, V>, e: Dict<K, V>)
    ensures forall k :: k in Keys(Merge(d, e)) <==> k in Keys(d) || k in Keys(e)
  {
    forall k
      ensures k in Keys(Merge(d, e)) <==> k in Keys(d) || k in Keys(e)
    {
      assert Get(Merge(d, e), k).Some? <==> Get(e, k).Some? || Get(d, k).Some?;
    }
  }

  /** Merging the two halves of a hash one after the other is merging the whole:
      this is what lets a hash be submitted in slices. */
  lemma {:induction false} MergeConcat<K(!new), V>(d: Dict<K, V>, a: Dict<K, V>, b: Dict<K, V>)
    requires DistinctKeys(a + b)
    ensures Merge(d, a + b) == Merge(Merge(d, a), b)
    decreases |a|
  {
    if |a| == 0 {
      assert a + b == b;
    } else {
      assert (a + b)[1..] == a[1..] + b;
      assert (a + b)[0] == a[0];
      MergeConcat(Put(d, a[0].0, a[0].1), a[1..], b);
    }
  }
}

=== FILE: json_models.dfy ===
/** The project description a user writes as JSON (json_models.rb): the
    project, its models and their attributes, each read through Ruby's `strip`
    and checked by `JsonBase`'s rules. Validation collects every problem as a
    `Diagnostic` instead of stopping at the first; a Ruby exception raised while
    reading a malformed description is a `Failure`. */
module JsonModels {
  import opened Wrappers
  import opened Dicts
  import opened RubyValues
  import opened NamePatterns
  import opened MagmaModels

  // ---------------------------------------------------------------------------
  // Diagnostics

  /** Whose key a `check_key`/`check_type` diagnostic is about. */
  datatype Label =
    | RootProject
    | OfModel(model: string)
    | OfAttribute(model: string, attribute: string)
    | OfValidation(model: string, attribute: string)

  function LabelText(l: Label): string {
    match l
    case RootProject => "root project"
    case OfModel(m) => "model " + m
    case OfAttribute(m, a) => "model " + m + ", attribute " + a
    case OfValidation(m, a) => "model " + m + ", attribute " + a + ", validation"
  }

  /** One entry of `errors`. */
  datatype Diagnostic =
    | MissingKey(scope: Label, key: string)
    | EmptyValue(scope: Label, key: string, shown: string)
    | InvalidChoice(scope: Label, key: string, given: string, choices: seq<string>)
    | BadProjectName(project: string)
    | BadModelName(model: string)
    | BadAttributeName(model: string, attribute: string)
    | LinkNameMismatch(model: string, attribute: string, linkModel: string)
    | LinkToParent(model: string, parent: string, attribute: string)
    | MissingLinkTarget(model: string, attribute: string, target: string)

  /** The error string the Ruby code appends for each diagnostic. */
  function Message(d: Diagnostic): string {
    match d
    case MissingKey(l, k) =>
      "Missing required key for " + LabelText(l) + ": \"" + k + "\"."
    case EmptyValue(l, k, v) =>
      "Invalid empty " + k + " for " + LabelText(l) + ": \"" + v + "\"."
    case InvalidChoice(l, k, v, cs) =>
      "Invalid " + k + " for " + LabelText(l) + ": \"" + v + "\".\nShould be one of " + InspectStrings(cs) + "."
    case BadProjectName(p) =>
      "Project name " + p + " must be snake_case and cannot start with a number or \"pg_\"."
    case BadModelName(m) =>
      "Model name " + m + " must be snake_case and can only consist of letters and \"_\"."
    case BadAttributeName(m, a) =>
      "Attribute name " + a + " in model " + m + " must be snake_case and can only consist of letters, numbers, and \"_\"."
    case LinkNameMismatch(m, a, l) =>
      "Attribute name " + a + " in model " + m + " should match the link_model_name, \"" + l + "\"."
    case LinkToParent(m, p, a) =>
      "Model \"" + m + "\" already belongs to parent model \"" + p + "\". Remove attribute \"" + a + "\"."
    case MissingLinkTarget(m, a, t) =>
      "Linked model, \"" + t + "\", on attribute " + a + " of model " + m + " does not exist!"
  }

  /** `d` comes from `check_key` or `check_type` under label `l`. */
  predicate Under(d: Diagnostic, l: Label) {
    (d.MissingKey? || d.EmptyValue? || d.InvalidChoice?) && d.scope == l
  }

  /** `d` comes from `check_key` or `check_type` for key `k` under label `l`. */
  predicate About(d: Diagnostic, l: Label, k: string) {
    Under(d, l) && d.key == k
  }

  /** Some diagnostic in `ds` is about key `k` under label `l`. */
  predicate AnyAbout(ds: seq<Diagnostic>, l: Label, k: string) {
    exists i :: 0 <= i < |ds| && About(ds[i], l, k)
  }

  /** The value stored under `key`, `nil` when absent. */
  function Value(raw: Hash, key: string): Json {
    Get(raw, key).GetOr(Null)
  }

  /** The key is present and its value is nil or empty. */
  predicate PresentButBlank(raw: Hash, key: string) {
    key in Keys(raw) && Blank(Value(raw, key))
  }

  // ---------------------------------------------------------------------------
  // `JsonBase`

  /** `nil_or_empty?` on this key's value raises: booleans and numbers have no `empty?`. */
  predicate EmptinessRaises(raw: Hash, key: string) {
    key in Keys(raw) && (Value(raw, key).Bool? || Value(raw, key).Num?)
  }

  /** `raw[key]&.strip` raises: the value is present, not nil and not a string. */
  predicate StripRaises(raw: Hash, key: string) {
    key in Keys(raw) && !Value(raw, key).Null? && !Value(raw, key).Str?
  }

  /** `check_type` raises: it strips the value of a present key even when that value is nil. */
  predicate ChoiceRaises(raw: Hash, key: string) {
    key in Keys(raw) && !Value(raw, key).Str?
  }

  /** What `raw[key]&.strip` answers when it does not raise. */
  function StrippedValue(raw: Hash, key: string): Option<string> {
    if Value(raw, key).Str? then Some(Strip(Value(raw, key).s)) else None
  }

  /** `raw[key]&.strip` raises exactly on `StripRaises`, and otherwise answers
      `StrippedValue`. */
  lemma StripOrNilValue(raw: Hash, key: string)
    ensures StripOrNil(Get(raw, key)).Failure? <==> StripRaises(raw, key)
    ensures !StripRaises(raw, key) ==> StripOrNil(Get(raw, key)) == Success(StrippedValue(raw, key))
  {
  }

  /** What `check_key` reports: a missing key, or a key whose value is nil or
      empty; nothing otherwise. */
  function KeyDiagnostics(l: Label, raw: Hash, key: string): seq<Diagnostic> {
    if key !in Keys(raw) then [MissingKey(l, key)]
    else if Blank(Value(raw, key)) then [EmptyValue(l, key, Interpolate(Value(raw, key)))]
    else []
  }

  /** `check_key` reports at most one diagnostic, about `key` under `l`, and
      reports one exactly when the key is missing or its value blank. */
  lemma KeyDiagnosticsRule(l: Label, raw: Hash, key: string)
    ensures |KeyDiagnostics(l, raw, key)| <= 1
    ensures forall d :: d in KeyDiagnostics(l, raw, key) ==> About(d, l, key) && !d.InvalidChoice?
    ensures MissingKey(l, key) in KeyDiagnostics(l, raw, key) <==> key !in Keys(raw)
    ensures |KeyDiagnostics(l, raw, key)| == 1 <==> key !in Keys(raw) || PresentButBlank(raw, key)
  {
  }

  /** `check_key` for `key` reports a missing `k` exactly when `k` is `key` and absent. */
  lemma KeyDiagnosticsMissing(l: Label, raw: Hash, key: string, k: string)
    ensures MissingKey(l, k) in KeyDiagnostics(l, raw, key) <==> k == key && key !in Keys(raw)
  {
  }

  /** `check_key`: `empty?` raises on booleans and numbers; otherwise the
      diagnostics are those of `KeyDiagnostics`. */
  function CheckKey(l: Label, raw: Hash, key: string): (r: Checked<seq<Diagnostic>>)
    ensures r.Failure? <==> EmptinessRaises(raw, key)
    ensures r.Success? ==> r.value == KeyDiagnostics(l, raw, key)
  {
    match Get(raw, key)
    case None => Success([MissingKey(l, key)])
    case Some(v) =>
      var empty :- NilOrEmpty(v);
      Success(if empty then [EmptyValue(l, key, Interpolate(v))] else [])
  }

  /** What `check_type` reports: a present string value whose stripped form is
      not among `choices`. */
  function ChoiceDiagnostics(l: Label, raw: Hash, key: string, choices: seq<string>): seq<Diagnostic> {
    if key in Keys(raw) && Value(raw, key).Str? && Strip(Value(raw, key).s) !in choices then
      [InvalidChoice(l, key, Value(raw, key).s, choices)]
    else []
  }

  /** `check_type` reports at most one diagnostic, an `InvalidChoice` about
      `key` under `l`, exactly when the key holds a string whose stripped form is
      not one of `choices`. */
  lemma ChoiceDiagnosticsRule(l: Label, raw: Hash, key: string, choices: seq<string>)
    ensures |ChoiceDiagnostics(l, raw, key, choices)| <= 1
    ensures forall d :: d in ChoiceDiagnostics(l, raw, key, choices) ==> About(d, l, key) && d.InvalidChoice?
    ensures ChoiceDiagnostics(l, raw, key, choices) != [] <==>
      key in Keys(raw) && Value(raw, key).Str? && Strip(Value(raw, key).s) !in choices
  {
    var ds := ChoiceDiagnostics(l, raw, key, choices);
    if key !in Keys(raw) || !Value(raw, key).Str? {
      assert ds == [];
    } else {
      var given := Value(raw, key).s;
      var stripped := Strip(given);
      if stripped in choices {
        assert ds == [];
      } else {
        assert ds == [InvalidChoice(l, key, given, choices)];
      }
    }
  }

  /** `check_type`: a present value that is not a string has no `strip` and
      raises; otherwise the diagnostics are those of `ChoiceDiagnostics`. */
  function CheckType(l: Label, raw: Hash, key: string, choices: seq<string>): (r: Checked<seq<Diagnostic>>)
    ensures r.Failure? <==> ChoiceRaises(raw, key)
    ensures r.Success? ==> r.value == ChoiceDiagnostics(l, raw, key, choices)
  {
    if key !in Keys(raw) then Success([])
    else match Value(raw, key)
      case Str(s) => Success(if Strip(s) in choices then [] else [InvalidChoice(l, key, s, choices)])
      case _ => Failure(NoMethodError("strip"))
  }

  // ---------------------------------------------------------------------------
  // Models and attributes of a description

  /** A `JsonModel`: its `name` (the key it is declared under, stripped once on
      construction) and its definition. */
  datatype JsonModel = JsonModel(name: StrippedString, raw: Hash) {

    function ParentModelName(): Checked<Option<string>> {
      StripOrNil(Get(raw, "parent_model_name"))
    }

    function ParentLinkType(): Checked<Option<string>> {
      StripOrNil(Get(raw, "parent_link_type"))
    }

    function Identifier(): Checked<Option<string>> {
      StripOrNil(Get(raw, "identifier"))
    }

    /** `prettified_name`: `sample_type` is shown as `Sample Type`. */
    function PrettifiedName(): string {
      Prettify(name)
    }

    predicate IsProject() {
      name == "project"
    }

    /** `JsonModel#attributes`: none without an `attributes` key, otherwise one per
        entry, in declaration order. */
    function Attributes(): (r: Checked<seq<JsonAttribute>>)
      ensures "attributes" !in Keys(raw) ==> r == Success([])
      ensures r.Failure? <==> "attributes" in Keys(raw) && !Declares(Value(raw, "attributes"))
      ensures r.Success? && "attributes" in Keys(raw) ==> |r.value| == DeclaredCount(Value(raw, "attributes"))
      ensures r.Success? && "attributes" in Keys(raw) && Value(raw, "attributes").Obj? ==> forall i :: 0 <= i < |r.value| ==>
        r.value[i].name == Strip(Value(raw, "attributes").fields[i].0) && Obj(r.value[i].raw) == Value(raw, "attributes").fields[i].1
      ensures r.Success? && "attributes" in Keys(raw) && Value(raw, "attributes").Arr? ==> forall i :: 0 <= i < |r.value| ==>
        Str(r.value[i].name) == StripPairName(Value(raw, "attributes").items[i]) && Obj(r.value[i].raw) == Value(raw, "attributes").items[i].items[1]
    {
      if "attributes" !in Keys(raw) then Success([])
      else
        var entries :- DeclaredEntries(Value(raw, "attributes"));
        Success(seq(|entries|, i requires 0 <= i < |entries| => JsonAttribute(Strip(entries[i].0), entries[i].1)))
    }
  }

  /** A `JsonAttribute`: its `name` (the declared key, stripped) and its definition. */
  datatype JsonAttribute = JsonAttribute(name: StrippedString, raw: Hash) {

    /** `type`: the stripped `attribute_type`. */
    function Type(): Checked<Option<string>> {
      StripOrNil(Get(raw, "attribute_type"))
    }

    function LinkModelName(): Checked<Option<string>> {
      StripOrNil(Get(raw, "link_model_name"))
    }
  }

  /** Every definition is itself a hash. */
  predicate AllHashes(defs: seq<(string, Json)>) {
    forall i :: 0 <= i < |defs| ==> defs[i].1.Obj?
  }

  /** The entries of a hash of definitions, each of which must itself be a hash:
      any other definition makes the checks that follow call `key?` or `[]` on a
      value without them, which raises. */
  function Definitions(defs: seq<(string, Json)>): (r: Checked<seq<(string, Hash)>>)
    ensures r.Success? <==> AllHashes(defs)
    ensures r.Success? ==> |r.value| == |defs|
    ensures r.Success? ==> forall i :: 0 <= i < |defs| ==> r.value[i].0 == defs[i].0 && Obj(r.value[i].1) == defs[i].1
  {
    if |defs| == 0 then Success([])
    else if !defs[0].1.Obj? then Failure(NoMethodError("key?"))
    else
      var rest :- Definitions(defs[1..]);
      Success([(defs[0].0, defs[0].1.fields)] + rest)
  }

  /** An element of an array of definitions that the two-argument block of
      `map { |name, definition| ... }` reads without raising: an array whose
      first element is a string name and whose second is a hash. Elements
      after the second are ignored; any other element leaves the name or the
      definition without `strip` or `key?`. */
  predicate IsPair(v: Json) {
    v.Arr? && |v.items| >= 2 && v.items[0].Str? && v.items[1].Obj?
  }

  predicate AllPairs(items: seq<Json>) {
    forall i :: 0 <= i < |items| ==> IsPair(items[i])
  }

  /** The name of a pair, stripped as the constructors strip it. */
  function StripPairName(v: Json): Json {
    if v.Arr? && |v.items| > 0 && v.items[0].Str? then Str(Strip(v.items[0].s)) else Null
  }

  /** The entries of an array of `[name, definition]` pairs. */
  function Pairs(items: seq<Json>): (r: Checked<seq<(string, Hash)>>)
    ensures r.Success? <==> AllPairs(items)
    ensures r.Success? ==> |r.value| == |items|
    ensures r.Success? ==> forall i :: 0 <= i < |items| ==>
      Str(r.value[i].0) == items[i].items[0] && Obj(r.value[i].1) == items[i].items[1]
  {
    if |items| == 0 then Success([])
    else if !IsPair(items[0]) then Failure(NoMethodError("strip"))
    else
      var rest :- Pairs(items[1..]);
      Success([(items[0].items[0].s, items[0].items[1].fields)] + rest)
  }

  /** `map { |name, definition| ... }` reads its definitions from `v` without
      raising: a hash of hashes, or an array of pairs. */
  predicate Declares(v: Json) {
    (v.Obj? && AllHashes(v.fields)) || (v.Arr? && AllPairs(v.items))
  }

  /** How many definitions `v` holds. */
  function DeclaredCount(v: Json): nat {
    match v
    case Obj(defs) => |defs|
    case Arr(items) => |items|
    case _ => 0
  }

  /** The `(name, definition)` entries `map` yields from a hash or from an array
      of pairs; anything else has no `map`, or yields a name or a definition
      that raises. */
  function DeclaredEntries(v: Json): (r: Checked<seq<(string, Hash)>>)
    ensures r.Success? <==> Declares(v)
    ensures r.Success? ==> |r.value| == DeclaredCount(v)
  {
    match v
    case Obj(defs) => Definitions(defs)
    case Arr(items) => Pairs(items)
    case _ => Failure(NoMethodError("map"))
  }

  /** An array of pairs declares the same definitions as the hash with those
      entries, in the same order. */
  lemma PairsLikeHash(defs: Dict<string, Json>, items: seq<Json>)
    requires |items| == |defs| && forall i :: 0 <= i < |defs| ==> items[i] == Arr([Str(defs[i].0), defs[i].1])
    ensures DeclaredEntries(Arr(items)).Success? <==> DeclaredEntries(Obj(defs)).Success?
    ensures DeclaredEntries(Arr(items)).Success? ==> DeclaredEntries(Arr(items)).value == DeclaredEntries(Obj(defs)).value
  {
    var a := Pairs(items);
    var h := Definitions(defs);
    assert AllPairs(items) <==> AllHashes(defs) by {
      assert forall i :: 0 <= i < |defs| ==> (IsPair(items[i]) <==> defs[i].1.Obj?);
    }
    if a.Success? {
      forall i | 0 <= i < |defs| ensures a.value[i] == h.value[i] {
        assert Str(a.value[i].0) == Str(defs[i].0);
        assert Obj(a.value[i].1) == Obj(h.value[i].1);
      }
      assert a.value == h.value;
    }
  }

  /** `JsonProject#models`: one model per entry of `models`, in declaration order. */
  function ModelsOf(project: Hash): (r: Checked<seq<JsonModel>>)
    ensures r.Failure? <==> !Declares(Value(project, "models"))
    ensures r.Success? ==> |r.value| == DeclaredCount(Value(project, "models"))
    ensures r.Success? && Value(project, "models").Obj? ==> forall i :: 0 <= i < |r.value| ==>
      r.value[i].name == Strip(Value(project, "models").fields[i].0) && Obj(r.value[i].raw) == Value(project, "models").fields[i].1
    ensures r.Success? && Value(project, "models").Arr? ==> forall i :: 0 <= i < |r.value| ==>
      Str(r.value[i].name) == StripPairName(Value(project, "models").items[i]) && Obj(r.value[i].raw) == Value(project, "models").items[i].items[1]
  {
    var entries :- DeclaredEntries(Value(project, "models"));
    Success(seq(|entries|, i requires 0 <= i < |entries| => JsonModel(Strip(entries[i].0), entries[i].1)))
  }

  function ModelNames(models: seq<JsonModel>): (r: seq<string>)
    ensures |r| == |models|
    ensures forall i :: 0 <= i < |models| ==> r[i] == models[i].name
  {
    if |models| == 0 then [] else [models[0].name] + ModelNames(models[1..])
  }
}

=== FILE: json_validation.dfy ===
/** `JsonProject#validate` and the per-model and per-attribute checks it runs
    (json_models.rb), in their fixed order: the project's names, then each
    model's own keys followed by its attributes, then every link attribute. */
module JsonValidation {
  import opened Wrappers
  import opened Dicts
  import opened RubyValues
  import opened NamePatterns
  import opened MagmaModels
  import opened JsonModels

  // ---------------------------------------------------------------------------
  // Project names

  /** `project_name` holds a string whose stripped form is snake_case with
      digits allowed and does not start with `pg_`. */
  predicate AcceptableProjectName(project: Hash) {
    Value(project, "project_name").Str? &&
    var name := Strip(Value(project, "project_name").s);
    SnakeCaseWithNumbers(name) && !StartsWith(name, "pg_")
  }

  /** `validate_project_names`. */
  function ValidateProjectNames(project: Hash): (r: Checked<seq<Diagnostic>>)
    ensures r.Failure? <==>
      || ("project_name" in Keys(project) && !(Value(project, "project_name").Str? || Value(project, "project_name").Null?))
      || ("project_name_full" in Keys(project) && (Value(project, "project_name_full").Bool? || Value(project, "project_name_full").Num?))
    ensures r.Success? ==> ((exists i :: 0 <= i < |r.value| && r.value[i].BadProjectName?) <==> !AcceptableProjectName(project))
    ensures r.Success? && "project_name" !in Keys(project) ==>
      MissingKey(RootProject, "project_name") in r.value && BadProjectName("") in r.value
    ensures r.Success? ==> forall d :: d in r.value ==> d.BadProjectName? || Under(d, RootProject)
  {
    var nameErrs :- CheckKey(RootProject, project, "project_name");
    var fullNameErrs :- CheckKey(RootProject, project, "project_name_full");
    var name :- StripOrNil(Get(project, "project_name"));
    AnchoredOnStripped(name.GetOr(""));
    var accepted := name.Some? && NameWithNumbers(name.value) && !StartsWith(name.value, "pg_");
    assert accepted <==> AcceptableProjectName(project);
    assert forall i :: 0 <= i < |nameErrs + fullNameErrs| ==> !(nameErrs + fullNameErrs)[i].BadProjectName?;
    if accepted then
      Success(nameErrs + fullNameErrs)
    else
      var r := nameErrs + fullNameErrs + [BadProjectName(InterpolateOpt(name))];
      assert r[|r| - 1].BadProjectName?;
      Success(r)
  }

  // ---------------------------------------------------------------------------
  // Model keys

  /** The keys of a model definition that `validate_add_model_data` checks. */
  const ModelKeys: seq<string> := ["parent_model_name", "parent_link_type", "identifier"]

  /** The diagnostics `validate_add_model_data` reports, rule by rule: the
      model name; the parent keys of every model but `project`; the identifier of
      every model that is not a table. */
  function ModelDataDiagnostics(m: JsonModel): seq<Diagnostic> {
    ModelNameDiagnostics(m) + ParentDiagnostics(m) + IdentifierDiagnostics(m)
  }

  function ModelNameDiagnostics(m: JsonModel): seq<Diagnostic> {
    if NameNoNumbers(m.name) then [] else [BadModelName(m.name)]
  }

  function ParentDiagnostics(m: JsonModel): seq<Diagnostic> {
    var l := OfModel(m.name);
    if m.IsProject() then []
    else KeyDiagnostics(l, m.raw, "parent_model_name") + KeyDiagnostics(l, m.raw, "parent_link_type") +
         ChoiceDiagnostics(l, m.raw, "parent_link_type", ParentLinkTypeNames)
  }

  function IdentifierDiagnostics(m: JsonModel): seq<Diagnostic> {
    if m.ParentLinkType() == Success(Some("table")) then [] else KeyDiagnostics(OfModel(m.name), m.raw, "identifier")
  }

  /** The checks on a non-project model's parent keys. */
  function ParentKeyChecks(l: Label, raw: Hash): (r: Checked<seq<Diagnostic>>)
    ensures r.Failure? <==> EmptinessRaises(raw, "parent_model_name") || ChoiceRaises(raw, "parent_link_type")
    ensures r.Success? ==> r.value ==
                           KeyDiagnostics(l, raw, "parent_model_name") + KeyDiagnostics(l, raw, "parent_link_type") +
                           ChoiceDiagnostics(l, raw, "parent_link_type", ParentLinkTypeNames)
  {
    var nameErrs :- CheckKey(l, raw, "parent_model_name");
    var typeErrs :- CheckKey(l, raw, "parent_link_type");
    var choiceErrs :- CheckType(l, raw, "parent_link_type", ParentLinkTypeNames);
    Success(nameErrs + typeErrs + choiceErrs)
  }

  /** `validate_add_model_data` raises when a value it strips or measures has
      the wrong type: a parent key of a non-project model, the link type (which it
      strips for every model), or an identifier it must check. */
  predicate ModelDataRaises(m: JsonModel) {
    || (!m.IsProject() && (EmptinessRaises(m.raw, "parent_model_name") || ChoiceRaises(m.raw, "parent_link_type")))
    || StripRaises(m.raw, "parent_link_type")
    || (m.ParentLinkType() != Success(Some("table")) && EmptinessRaises(m.raw, "identifier"))
  }

  /** `validate_add_model_data`: raises exactly when `ModelDataRaises`, and
      otherwise reports `ModelDataDiagnostics`. */
  function ValidateModelData(m: JsonModel): (r: Checked<seq<Diagnostic>>)
    ensures r.Failure? <==> ModelDataRaises(m)
    ensures r.Success? ==> r.value == ModelDataDiagnostics(m)
  {
    var l := OfModel(m.name);
    var nameErrs := if NameNoNumbers(m.name) then [] else [BadModelName(m.name)];
    var parentErrs :- if m.IsProject() then Success([]) else ParentKeyChecks(l, m.raw);
    var linkType :- m.ParentLinkType();
    var idErrs :- if linkType != Some("table") then CheckKey(l, m.raw, "identifier") else Success([]);
    Success(nameErrs + parentErrs + idErrs)
  }

  lemma ModelNamePart(m: JsonModel)
    ensures forall d :: d in ModelNameDiagnostics(m) ==> d == BadModelName(m.name)
    ensures BadModelName(m.name) in ModelNameDiagnostics(m) <==> !SnakeCaseNoNumbers(m.name)
  {
    AnchoredOnStripped(m.name);
  }

  lemma ParentPart(m: JsonModel)
    ensures forall d :: d in ParentDiagnostics(m) ==>
              Under(d, OfModel(m.name)) && (d.key == "parent_model_name" || d.key == "parent_link_type")
    ensures MissingKey(OfModel(m.name), "parent_model_name") in ParentDiagnostics(m) <==>
              !m.IsProject() && "parent_model_name" !in Keys(m.raw)
    ensures MissingKey(OfModel(m.name), "parent_link_type") in ParentDiagnostics(m) <==>
              !m.IsProject() && "parent_link_type" !in Keys(m.raw)
    ensures (exists d :: d in ParentDiagnostics(m) && d.InvalidChoice?) <==>
              && !m.IsProject()
              && "parent_link_type" in Keys(m.raw) && Value(m.raw, "parent_link_type").Str?
              && Strip(Value(m.raw, "parent_link_type").s) !in ParentLinkTypeNames
  {
    var l := OfModel(m.name);
    var choice := ChoiceDiagnostics(l, m.raw, "parent_link_type", ParentLinkTypeNames);
    KeyDiagnosticsRule(l, m.raw, "parent_model_name");
    KeyDiagnosticsRule(l, m.raw, "parent_link_type");
    ChoiceDiagnosticsRule(l, m.raw, "parent_link_type", ParentLinkTypeNames);
    if !m.IsProject() && choice != [] {
      assert choice[0] in ParentDiagnostics(m);
    }
  }

  lemma IdentifierPart(m: JsonModel)
    ensures forall d :: d in IdentifierDiagnostics(m) ==> About(d, OfModel(m.name), "identifier")
    ensures IdentifierDiagnostics(m) != [] <==>
              && m.ParentLinkType() != Success(Some("table"))
              && ("identifier" !in Keys(m.raw) || PresentButBlank(m.raw, "identifier"))
  {
    KeyDiagnosticsRule(OfModel(m.name), m.raw, "identifier");
  }

  /** A model name breaks the rule exactly when it is not letters-only
      snake_case; every other diagnostic is about one of the model's own keys. */
  lemma ModelNameRule(m: JsonModel)
    ensures BadModelName(m.name) in ModelDataDiagnostics(m) <==> !SnakeCaseNoNumbers(m.name)
    ensures forall d :: d in ModelDataDiagnostics(m) ==>
              d == BadModelName(m.name) || (Under(d, OfModel(m.name)) && d.key in ModelKeys)
  {
    ModelNamePart(m);
    ParentPart(m);
    IdentifierPart(m);
  }

  /** Every model but `project` must name its parent and the kind of link to
      it; `project` is never asked for either. */
  lemma ParentKeysRule(m: JsonModel)
    ensures MissingKey(OfModel(m.name), "parent_model_name") in ModelDataDiagnostics(m) <==>
              !m.IsProject() && "parent_model_name" !in Keys(m.raw)
    ensures MissingKey(OfModel(m.name), "parent_link_type") in ModelDataDiagnostics(m) <==>
              !m.IsProject() && "parent_link_type" !in Keys(m.raw)
    ensures m.IsProject() ==>
              && !AnyAbout(ModelDataDiagnostics(m), OfModel(m.name), "parent_model_name")
              && !AnyAbout(ModelDataDiagnostics(m), OfModel(m.name), "parent_link_type")
  {
    ModelNamePart(m);
    ParentPart(m);
    IdentifierPart(m);
    var l := OfModel(m.name);
    var ds := ModelDataDiagnostics(m);
    if m.IsProject() {
      assert ParentDiagnostics(m) == [];
      forall i | 0 <= i < |ds|
        ensures !About(ds[i], l, "parent_model_name") && !About(ds[i], l, "parent_link_type")
      {
        assert ds[i] in ModelNameDiagnostics(m) || ds[i] in IdentifierDiagnostics(m);
      }
    }
  }

  /** The link to the parent must be one of the `ParentLinkType` names, once
      stripped. */
  lemma ParentLinkTypeRule(m: JsonModel)
    ensures (exists d :: d in ModelDataDiagnostics(m) && d.InvalidChoice?) <==>
              && !m.IsProject()
              && "parent_link_type" in Keys(m.raw) && Value(m.raw, "parent_link_type").Str?
              && Strip(Value(m.raw, "parent_link_type").s) !in ParentLinkTypeNames
  {
    ModelNamePart(m);
    ParentPart(m);
    IdentifierPart(m);
  }

  /** A model needs an identifier unless it is a table. */
  lemma IdentifierRule(m: JsonModel)
    ensures AnyAbout(ModelDataDiagnostics(m), OfModel(m.name), "identifier") <==>
              && m.ParentLinkType() != Success(Some("table"))
              && ("identifier" !in Keys(m.raw) || PresentButBlank(m.raw, "identifier"))
  {
    ModelNamePart(m);
    ParentPart(m);
    IdentifierPart(m);
    var l := OfModel(m.name);
    var ds := ModelDataDiagnostics(m);
    var front := ModelNameDiagnostics(m) + ParentDiagnostics(m);
    var ids := IdentifierDiagnostics(m);
    assert ds == front + ids;
    if ids != [] {
      assert ds[|front|] == ids[0];
    }
    if AnyAbout(ds, l, "identifier") {
      var i :| 0 <= i < |ds| && About(ds[i], l, "identifier");
      assert ds[i] in front || ds[i] in ids;
    }
  }

  // ---------------------------------------------------------------------------
  // Attribute keys

  /** An attribute other than the model's identifier declares its type and
      how it is shown. */
  predicate Declared(m: JsonModel, a: JsonAttribute) {
    m.Identifier() != Success(Some(a.name))
  }

  /** The diagnostics `validate_add_attribute_data` reports, rule by rule: the
      attribute name; the declaration keys of a non-identifier attribute; the
      validation, when there is one; the link model name, when there is one. */
  function AttributeDiagnostics(m: JsonModel, a: JsonAttribute): seq<Diagnostic> {
    AttributeNameDiagnostics(m, a) + DeclarationDiagnostics(m, a) + TrailingDiagnostics(m, a)
  }

  function TrailingDiagnostics(m: JsonModel, a: JsonAttribute): seq<Diagnostic> {
    ValidationDiagnostics(m, a) + LinkNameDiagnostics(m, a)
  }

  function AttributeNameDiagnostics(m: JsonModel, a: JsonAttribute): seq<Diagnostic> {
    if NameWithNumbers(a.name) then [] else [BadAttributeName(m.name, a.name)]
  }

  function DeclarationDiagnostics(m: JsonModel, a: JsonAttribute): seq<Diagnostic> {
    var l := OfAttribute(m.name, a.name);
    if !Declared(m, a) then []
    else KeyDiagnostics(l, a.raw, "attribute_type") + KeyDiagnostics(l, a.raw, "display_name") +
         KeyDiagnostics(l, a.raw, "desc") + ChoiceDiagnostics(l, a.raw, "attribute_type", DeclarableTypeNames)
  }

  function ValidationDiagnostics(m: JsonModel, a: JsonAttribute): seq<Diagnostic> {
    var l := OfValidation(m.name, a.name);
    match Value(a.raw, "validation")
    case Obj(v) =>
      KeyDiagnostics(l, v, "type") + KeyDiagnostics(l, v, "value") + ChoiceDiagnostics(l, v, "type", ValidationTypeNames)
    case _ => []
  }

  function LinkNameDiagnostics(m: JsonModel, a: JsonAttribute): seq<Diagnostic> {
    match a.LinkModelName()
    case Success(Some(target)) => if target == a.name then [] else [LinkNameMismatch(m.name, a.name, target)]
    case _ => []
  }

  /** The checks on the declaration keys of a non-identifier attribute. */
  function DeclarationChecks(l: Label, raw: Hash): (r: Checked<seq<Diagnostic>>)
    ensures r.Failure? <==>
      || EmptinessRaises(raw, "attribute_type") || EmptinessRaises(raw, "display_name")
      || EmptinessRaises(raw, "desc") || ChoiceRaises(raw, "attribute_type")
    ensures r.Success? ==> r.value ==
                           KeyDiagnostics(l, raw, "attribute_type") + KeyDiagnostics(l, raw, "display_name") +
                           KeyDiagnostics(l, raw, "desc") + ChoiceDiagnostics(l, raw, "attribute_type", DeclarableTypeNames)
  {
    var typeErrs :- CheckKey(l, raw, "attribute_type");
    var displayErrs :- CheckKey(l, raw, "display_name");
    var descErrs :- CheckKey(l, raw, "desc");
    var choiceErrs :- CheckType(l, raw, "attribute_type", DeclarableTypeNames);
    Success(typeErrs + displayErrs + descErrs + choiceErrs)
  }

  /** The checks on a `validation` entry, which must be a hash: anything else
      has no `key?`. */
  function ValidationChecks(l: Label, validation: Json): (r: Checked<seq<Diagnostic>>)
    ensures r.Failure? <==>
      || !validation.Obj?
      || EmptinessRaises(validation.fields, "type") || EmptinessRaises(validation.fields, "value")
      || ChoiceRaises(validation.fields, "type")
    ensures r.Success? ==> r.value ==
                           KeyDiagnostics(l, validation.fields, "type") + KeyDiagnostics(l, validation.fields, "value") +
                           ChoiceDiagnostics(l, validation.fields, "type", ValidationTypeNames)
  {
    match validation
    case Obj(v) =>
      var typeErrs :- CheckKey(l, v, "type");
      var valueErrs :- CheckKey(l, v, "value");
      var choiceErrs :- CheckType(l, v, "type", ValidationTypeNames);
      Success(typeErrs + valueErrs + choiceErrs)
    case _ => Failure(NoMethodError("key?"))
  }

  /** The validation and link-name checks that end `validate_add_attribute_data`. */
  function TrailingChecks(m: JsonModel, a: JsonAttribute): (r: Checked<seq<Diagnostic>>)
    ensures r.Failure? <==> TrailingRaises(a)
    ensures r.Success? ==> r.value == TrailingDiagnostics(m, a)
  {
    var validationErrs :- if "validation" in Keys(a.raw)
                          then ValidationChecks(OfValidation(m.name, a.name), Value(a.raw, "validation"))
                          else Success([]);
    var target :- a.LinkModelName();
    var linkErrs := if target.Some? && target.value != a.name then [LinkNameMismatch(m.name, a.name, target.value)] else [];
    Success(validationErrs + linkErrs)
  }

  predicate TrailingRaises(a: JsonAttribute) {
    || ("validation" in Keys(a.raw) &&
        (|| !Value(a.raw, "validation").Obj?
         || EmptinessRaises(Value(a.raw, "validation").fields, "type")
         || EmptinessRaises(Value(a.raw, "validation").fields, "value")
         || ChoiceRaises(Value(a.raw, "validation").fields, "type")))
    || StripRaises(a.raw, "link_model_name")
  }

  /** `validate_add_attribute_data` raises when the model's identifier, the
      link model name or a value it checks has the wrong type, or when the
      validation is not a hash. */
  predicate AttributeRaises(m: JsonModel, a: JsonAttribute) {
    || StripRaises(m.raw, "identifier")
    || (Declared(m, a) &&
        (|| EmptinessRaises(a.raw, "attribute_type") || EmptinessRaises(a.raw, "display_name")
         || EmptinessRaises(a.raw, "desc") || ChoiceRaises(a.raw, "attribute_type")))
    || TrailingRaises(a)
  }

  /** `validate_add_attribute_data` for attribute `a` of model `m`: raises
      exactly when `AttributeRaises`, and otherwise reports `AttributeDiagnostics`. */
  function ValidateAttribute(m: JsonModel, a: JsonAttribute): (r: Checked<seq<Diagnostic>>)
    ensures r.Failure? <==> AttributeRaises(m, a)
    ensures r.Success? ==> r.value == AttributeDiagnostics(m, a)
  {
    var nameErrs := if NameWithNumbers(a.name) then [] else [BadAttributeName(m.name, a.name)];
    var identifier :- m.Identifier();
    var declErrs :- if identifier != Some(a.name) then DeclarationChecks(OfAttribute(m.name, a.name), a.raw) else Success([]);
    assert declErrs == DeclarationDiagnostics(m, a);
    var rest :- TrailingChecks(m, a);
    Success(nameErrs + declErrs + rest)
  }

  /** A `validation` that is a hash with a missing or blank `type` or `value`,
      or a `type` that is not a validation type. */
  predicate BadValidation(a: JsonAttribute) {
    var v := Value(a.raw, "validation");
    && v.Obj?
    && (|| "type" !in Keys(v.fields) || PresentButBlank(v.fields, "type")
        || "value" !in Keys(v.fields) || PresentButBlank(v.fields, "value")
        || (Value(v.fields, "type").Str? && Strip(Value(v.fields, "type").s) !in ValidationTypeNames))
  }

  /** The stripped `link_model_name` is present and differs from the attribute's name. */
  predicate MismatchedLink(a: JsonAttribute) {
    a.LinkModelName().Success? && a.LinkModelName().value.Some? && a.LinkModelName().value.value != a.name
  }

  lemma AttributeNamePart(m: JsonModel, a: JsonAttribute)
    ensures forall d :: d in AttributeNameDiagnostics(m, a) ==> d == BadAttributeName(m.name, a.name)
    ensures BadAttributeName(m.name, a.name) in AttributeNameDiagnostics(m, a) <==> !SnakeCaseWithNumbers(a.name)
  {
    AnchoredOnStripped(a.name);
  }

  lemma DeclarationPart(m: JsonModel, a: JsonAttribute)
    ensures forall d :: d in DeclarationDiagnostics(m, a) ==>
              Under(d, OfAttribute(m.name, a.name)) && (d.key == "attribute_type" || d.key == "display_name" || d.key == "desc")
    ensures MissingKey(OfAttribute(m.name, a.name), "attribute_type") in DeclarationDiagnostics(m, a) <==>
              Declared(m, a) && "attribute_type" !in Keys(a.raw)
    ensures MissingKey(OfAttribute(m.name, a.name), "display_name") in DeclarationDiagnostics(m, a) <==>
              Declared(m, a) && "display_name" !in Keys(a.raw)
    ensures MissingKey(OfAttribute(m.name, a.name), "desc") in DeclarationDiagnostics(m, a) <==>
              Declared(m, a) && "desc" !in Keys(a.raw)
  {
    var l := OfAttribute(m.name, a.name);
    KeyDiagnosticsRule(l, a.raw, "attribute_type");
    KeyDiagnosticsRule(l, a.raw, "display_name");
    KeyDiagnosticsRule(l, a.raw, "desc");
    ChoiceDiagnosticsRule(l, a.raw, "attribute_type", DeclarableTypeNames);
    DeclarationMissing(m, a, "attribute_type");
    DeclarationMissing(m, a, "display_name");
    DeclarationMissing(m, a, "desc");
  }

  lemma DeclarationMissing(m: JsonModel, a: JsonAttribute, k: string)
    ensures MissingKey(OfAttribute(m.name, a.name), k) in DeclarationDiagnostics(m, a) <==>
              Declared(m, a) && (k == "attribute_type" || k == "display_name" || k == "desc") && k !in Keys(a.raw)
  {
    var l := OfAttribute(m.name, a.name);
    KeyDiagnosticsMissing(l, a.raw, "attribute_type", k);
    KeyDiagnosticsMissing(l, a.raw, "display_name", k);
    KeyDiagnosticsMissing(l, a.raw, "desc", k);
    assert MissingKey(l, k) !in ChoiceDiagnostics(l, a.raw, "attribute_type", DeclarableTypeNames) by {
      ChoiceDiagnosticsRule(l, a.raw, "attribute_type", DeclarableTypeNames);
    }
  }

  lemma DeclarationChoicePart(m: JsonModel, a: JsonAttribute)
    ensures (exists d :: d in DeclarationDiagnostics(m, a) && d.InvalidChoice?) <==>
              && Declared(m, a)
              && "attribute_type" in Keys(a.raw) && Value(a.raw, "attribute_type").Str?
              && Strip(Value(a.raw, "attribute_type").s) !in DeclarableTypeNames
  {
    var l := OfAttribute(m.name, a.name);
    var choice := ChoiceDiagnostics(l, a.raw, "attribute_type", DeclarableTypeNames);
    KeyDiagnosticsRule(l, a.raw, "attribute_type");
    KeyDiagnosticsRule(l, a.raw, "display_name");
    KeyDiagnosticsRule(l, a.raw, "desc");
    ChoiceDiagnosticsRule(l, a.raw, "attribute_type", DeclarableTypeNames);
    if Declared(m, a) && choice != [] {
      assert choice[0] in DeclarationDiagnostics(m, a);
    }
  }

  lemma ValidationPart(m: JsonModel, a: JsonAttribute)
    ensures forall d :: d in ValidationDiagnostics(m, a) ==> Under(d, OfValidation(m.name, a.name))
    ensures ValidationDiagnostics(m, a) != [] <==> BadValidation(a)
  {
    var l := OfValidation(m.name, a.name);
    var v := Value(a.raw, "validation");
    if v.Obj? {
      KeyDiagnosticsRule(l, v.fields, "type");
      KeyDiagnosticsRule(l, v.fields, "value");
      ChoiceDiagnosticsRule(l, v.fields, "type", ValidationTypeNames);
    }
  }

  lemma LinkNamePart(m: JsonModel, a: JsonAttribute)
    ensures forall d :: d in LinkNameDiagnostics(m, a) ==> d.LinkNameMismatch? && d.model == m.name && d.attribute == a.name
    ensures LinkNameDiagnostics(m, a) != [] <==> MismatchedLink(a)
  {
  }

  /** An attribute name breaks the rule exactly when it is not snake_case
      (digits allowed); every diagnostic about an attribute is a name, link-name
      or key diagnostic of that attribute or its validation. */
  lemma AttributeNameRule(m: JsonModel, a: JsonAttribute)
    ensures BadAttributeName(m.name, a.name) in AttributeDiagnostics(m, a) <==> !SnakeCaseWithNumbers(a.name)
    ensures forall d :: d in AttributeDiagnostics(m, a) ==>
              || d == BadAttributeName(m.name, a.name)
              || Under(d, OfAttribute(m.name, a.name))
              || Under(d, OfValidation(m.name, a.name))
              || (d.LinkNameMismatch? && d.model == m.name && d.attribute == a.name)
  {
    AttributeNamePart(m, a);
    DeclarationPart(m, a);
    ValidationPart(m, a);
    LinkNamePart(m, a);
  }

  /** The model's identifier attribute is exempt from the declaration keys. */
  lemma IdentifierExemptRule(m: JsonModel, a: JsonAttribute)
    ensures !Declared(m, a) ==> forall d :: d in AttributeDiagnostics(m, a) ==> !Under(d, OfAttribute(m.name, a.name))
  {
    AttributeNamePart(m, a);
    DeclarationPart(m, a);
    ValidationPart(m, a);
    LinkNamePart(m, a);
  }

  /** Every other attribute must have all three declaration keys. */
  lemma DeclarationRule(m: JsonModel, a: JsonAttribute)
    ensures MissingKey(OfAttribute(m.name, a.name), "attribute_type") in AttributeDiagnostics(m, a) <==>
              Declared(m, a) && "attribute_type" !in Keys(a.raw)
    ensures MissingKey(OfAttribute(m.name, a.name), "display_name") in AttributeDiagnostics(m, a) <==>
              Declared(m, a) && "display_name" !in Keys(a.raw)
    ensures MissingKey(OfAttribute(m.name, a.name), "desc") in AttributeDiagnostics(m, a) <==>
              Declared(m, a) && "desc" !in Keys(a.raw)
  {
    var l := OfAttribute(m.name, a.name);
    var front := AttributeNameDiagnostics(m, a);
    var trail := TrailingDiagnostics(m, a);
    assert MissingKey(l, "attribute_type") !in front && MissingKey(l, "display_name") !in front &&
           MissingKey(l, "desc") !in front by {
      AttributeNamePart(m, a);
    }
    assert MissingKey(l, "attribute_type") !in trail && MissingKey(l, "display_name") !in trail &&
           MissingKey(l, "desc") !in trail by {
      TrailingScope(m, a);
    }
    DeclarationPart(m, a);
  }

  lemma TrailingScope(m: JsonModel, a: JsonAttribute)
    ensures forall d :: d in TrailingDiagnostics(m, a) ==> !Under(d, OfAttribute(m.name, a.name))
  {
    ValidationPart(m, a);
    LinkNamePart(m, a);
  }

  /** A declared attribute's type must be a declarable type, once stripped. */
  lemma AttributeTypeRule(m: JsonModel, a: JsonAttribute)
    ensures (exists d :: d in AttributeDiagnostics(m, a) && d.InvalidChoice? && d.scope == OfAttribute(m.name, a.name)) <==>
              && Declared(m, a)
              && "attribute_type" in Keys(a.raw) && Value(a.raw, "attribute_type").Str?
              && Strip(Value(a.raw, "attribute_type").s) !in DeclarableTypeNames
  {
    AttributeNamePart(m, a);
    DeclarationPart(m, a);
    DeclarationChoicePart(m, a);
    ValidationPart(m, a);
    LinkNamePart(m, a);
  }

  /** A validation is reported on exactly when it is a hash with a missing or
      blank `type` or `value`, or a `type` that is not a validation type. */
  lemma ValidationRule(m: JsonModel, a: JsonAttribute)
    ensures (exists d :: d in AttributeDiagnostics(m, a) && Under(d, OfValidation(m.name, a.name))) <==> BadValidation(a)
  {
    AttributeNamePart(m, a);
    DeclarationPart(m, a);
    ValidationPart(m, a);
    LinkNamePart(m, a);
    var vs := ValidationDiagnostics(m, a);
    if vs != [] {
      assert vs[0] in AttributeDiagnostics(m, a);
    }
  }

  /** A link model name, when given, must be the attribute's own name. */
  lemma LinkNameRule(m: JsonModel, a: JsonAttribute)
    ensures (exists d :: d in AttributeDiagnostics(m, a) && d.LinkNameMismatch?) <==> MismatchedLink(a)
  {
    AttributeNamePart(m, a);
    DeclarationPart(m, a);
    ValidationPart(m, a);
    LinkNamePart(m, a);
    var ls := LinkNameDiagnostics(m, a);
    if ls != [] {
      assert ls[0] in AttributeDiagnostics(m, a);
    }
  }

  // ---------------------------------------------------------------------------
  // Whole models

  /** The model a diagnostic is about; `None` for the project's own. */
  function Owner(d: Diagnostic): Option<string> {
    match d
    case BadProjectName(_) => None
    case BadModelName(m) => Some(m)
    case BadAttributeName(m, _) => Some(m)
    case LinkNameMismatch(m, _, _) => Some(m)
    case LinkToParent(m, _, _) => Some(m)
    case MissingLinkTarget(m, _, _) => Some(m)
    case _ =>
      match d.scope
      case RootProject => None
      case OfModel(m) => Some(m)
      case OfAttribute(m, _) => Some(m)
      case OfValidation(m, _) => Some(m)
  }

  /** Which of `validate`'s three steps reports a diagnostic: the project's
      names, the models, or the links between them. */
  function Phase(d: Diagnostic): nat {
    if Owner(d).None? then 0
    else if d.LinkToParent? || d.MissingLinkTarget? || ((d.MissingKey? || d.EmptyValue? || d.InvalidChoice?) && d.scope.OfAttribute? && d.key == "link_model_name") then 2
    else 1
  }

  /** Every diagnostic of a model's own keys belongs to the model's step. */
  lemma ModelDataPhase(m: JsonModel)
    ensures forall d :: d in ModelDataDiagnostics(m) ==> Owner(d) == Some(m.name) && Phase(d) == 1
  {
    ModelNameRule(m);
  }

  /** Every diagnostic of an attribute belongs to its model's step. */
  lemma AttributePhase(m: JsonModel, a: JsonAttribute)
    ensures forall d :: d in AttributeDiagnostics(m, a) ==> Owner(d) == Some(m.name) && Phase(d) == 1
  {
    AttributeNamePart(m, a);
    DeclarationPhase(m, a);
    TrailingPhase(m, a);
  }

  lemma DeclarationPhase(m: JsonModel, a: JsonAttribute)
    ensures forall d :: d in DeclarationDiagnostics(m, a) ==> Owner(d) == Some(m.name) && Phase(d) == 1
  {
    DeclarationPart(m, a);
  }

  lemma TrailingPhase(m: JsonModel, a: JsonAttribute)
    ensures forall d :: d in TrailingDiagnostics(m, a) ==> Owner(d) == Some(m.name) && Phase(d) == 1
  {
    ValidationPart(m, a);
    LinkNamePart(m, a);
  }

  /** The diagnostics of the attributes, one after the other. */
  function AttributeListDiagnostics(m: JsonModel, attrs: seq<JsonAttribute>): seq<Diagnostic>
    decreases |attrs|
  {
    if |attrs| == 0 then [] else AttributeDiagnostics(m, attrs[0]) + AttributeListDiagnostics(m, attrs[1..])
  }

  lemma {:induction false} AttributeListPhase(m: JsonModel, attrs: seq<JsonAttribute>)
    ensures forall d :: d in AttributeListDiagnostics(m, attrs) ==> Owner(d) == Some(m.name) && Phase(d) == 1
    decreases |attrs|
  {
    if |attrs| > 0 {
      AttributePhase(m, attrs[0]);
      AttributeListPhase(m, attrs[1..]);
    }
  }

  /** `validate_attributes`: every attribute is validated, in order; one that
      raises makes the whole raise. */
  function ValidateAttributes(m: JsonModel, attrs: seq<JsonAttribute>): (r: Checked<seq<Diagnostic>>)
    ensures r.Failure? <==> exists i :: 0 <= i < |attrs| && AttributeRaises(m, attrs[i])
    ensures r.Success? ==> r.value == AttributeListDiagnostics(m, attrs)
    decreases |attrs|
  {
    if |attrs| == 0 then Success([])
    else
      var first :- ValidateAttribute(m, attrs[0]);
      var rest :- ValidateAttributes(m, attrs[1..]);
      assert forall i :: 1 <= i < |attrs| ==> attrs[i] == attrs[1..][i - 1];
      Success(first + rest)
  }

  /** `JsonModel#validate`: the model's own keys, then its attributes. */
  function ValidateModel(m: JsonModel): (r: Checked<seq<Diagnostic>>)
    ensures r.Failure? <==>
      || ModelDataRaises(m) || m.Attributes().Failure?
      || exists i :: 0 <= i < |m.Attributes().value| && AttributeRaises(m, m.Attributes().value[i])
    ensures r.Success? ==> r.value == ModelDataDiagnostics(m) + AttributeListDiagnostics(m, m.Attributes().value)
    ensures r.Success? ==> forall d :: d in r.value ==> Owner(d) == Some(m.name) && Phase(d) == 1
  {
    var dataErrs :- ValidateModelData(m);
    var attrs :- m.Attributes();
    var attrErrs :- ValidateAttributes(m, attrs);
    ModelDataPhase(m);
    AttributeListPhase(m, attrs);
    Success(dataErrs + attrErrs)
  }

  /** What one model reports: its own keys first, then its attributes in order. */
  function ModelDiagnostics(m: JsonModel): seq<Diagnostic> {
    ModelDataDiagnostics(m) + (if m.Attributes().Success? then AttributeListDiagnostics(m, m.Attributes().value) else [])
  }

  /** Reference definition: the models' diagnostics, model after model in
      declaration order. */
  function ModelListDiagnostics(models: seq<JsonModel>): seq<Diagnostic>
    decreases |models|
  {
    if |models| == 0 then [] else ModelDiagnostics(models[0]) + ModelListDiagnostics(models[1..])
  }

  lemma SeqAssoc<T>(a: seq<T>, b: seq<T>, c: seq<T>, d: seq<T>)
    ensures a + (b + c + d) == (a + b) + c + d
  {
  }

  /** `f` applied to every element, the results joined in order. */
  function ConcatMap<T, U>(f: T -> seq<U>, xs: seq<T>): seq<U>
    decreases |xs|
  {
    if |xs| == 0 then [] else f(xs[0]) + ConcatMap(f, xs[1..])
  }

  /** Element `i`'s part sits between the parts of the elements before and after it. */
  lemma {:induction false} ConcatMapAt<T, U>(f: T -> seq<U>, xs: seq<T>, i: nat)
    requires i < |xs|
    ensures ConcatMap(f, xs) == ConcatMap(f, xs[..i]) + f(xs[i]) + ConcatMap(f, xs[i + 1..])
    decreases i
  {
    var tail := xs[1..];
    if i == 0 {
      assert xs[..0] == [] && tail == xs[1..];
    } else {
      ConcatMapAt(f, tail, i - 1);
      assert xs[..i][1..] == tail[..i - 1] && xs[..i][0] == xs[0];
      assert tail[i - 1] == xs[i] && tail[i..] == xs[i + 1..];
      assert ConcatMap(f, xs[..i]) == f(xs[0]) + ConcatMap(f, tail[..i - 1]);
      SeqAssoc(f(xs[0]), ConcatMap(f, tail[..i - 1]), f(tail[i - 1]), ConcatMap(f, tail[i..]));
    }
  }

  lemma {:induction false} ModelListIsConcatMap(models: seq<JsonModel>)
    ensures ModelListDiagnostics(models) == ConcatMap(ModelDiagnostics, models)
    decreases |models|
  {
    if |models| > 0 {
      ModelListIsConcatMap(models[1..]);
    }
  }

  /** Declaration order: model `i`'s diagnostics come after those of the models
      declared before it and before those of the models declared after it. */
  lemma {:induction false} ModelListAt(models: seq<JsonModel>, i: nat)
    requires i < |models|
    ensures ModelListDiagnostics(models) ==
      ModelListDiagnostics(models[..i]) + ModelDiagnostics(models[i]) + ModelListDiagnostics(models[i + 1..])
  {
    ModelListIsConcatMap(models);
    ModelListIsConcatMap(models[..i]);
    ModelListIsConcatMap(models[i + 1..]);
    ConcatMapAt(ModelDiagnostics, models, i);
  }

  /** `validate_models`: every model is validated, in declaration order; one
      that raises makes the whole raise. */
  function ValidateModels(models: seq<JsonModel>): (r: Checked<seq<Diagnostic>>)
    ensures r.Failure? <==> exists i :: 0 <= i < |models| && ValidateModel(models[i]).Failure?
    ensures r.Success? ==> r.value == ModelListDiagnostics(models)
    decreases |models|
  {
    if |models| == 0 then Success([])
    else
      var first :- ValidateModel(models[0]);
      var rest :- ValidateModels(models[1..]);
      assert forall i :: 1 <= i < |models| ==> models[i] == models[1..][i - 1];
      Success(first + rest)
  }

  /** `validate_models` reports exactly what the models report. */
  lemma {:induction false} ValidateModelsContents(models: seq<JsonModel>)
    requires ValidateModels(models).Success?
    ensures forall d :: d in ValidateModels(models).value <==>
              exists i :: 0 <= i < |models| && ValidateModel(models[i]).Success? && d in ValidateModel(models[i]).value
    decreases |models|
  {
    if |models| > 0 {
      var tail := models[1..];
      ValidateModelsContents(tail);
      forall d ensures d in ValidateModels(models).value <==>
              exists i :: 0 <= i < |models| && ValidateModel(models[i]).Success? && d in ValidateModel(models[i]).value
      {
        if exists i :: 0 <= i < |tail| && ValidateModel(tail[i]).Success? && d in ValidateModel(tail[i]).value {
          var i :| 0 <= i < |tail| && ValidateModel(tail[i]).Success? && d in ValidateModel(tail[i]).value;
          assert tail[i] == models[i + 1];
        }
        if exists i :: 0 <= i < |models| && ValidateModel(models[i]).Success? && d in ValidateModel(models[i]).value {
          var i :| 0 <= i < |models| && ValidateModel(models[i]).Success? && d in ValidateModel(models[i]).value;
          if i > 0 {
            assert tail[i - 1] == models[i];
          }
        }
      }
    }
  }

  /** Everything `validate_models` reports belongs to the model step. */
  lemma {:induction false} ValidateModelsPhase(models: seq<JsonModel>)
    requires ValidateModels(models).Success?
    ensures forall d :: d in ValidateModels(models).value ==> Phase(d) == 1
    decreases |models|
  {
    if |models| > 0 {
      ValidateModelsPhase(models[1..]);
    }
  }

  // ---------------------------------------------------------------------------
  // Links

  /** The check of one link attribute raises: its `link_model_name` has no
      `empty?` or no `strip`, or the model's `parent_model_name` has no `strip`. */
  predicate LinkRaises(m: JsonModel, a: JsonAttribute) {
    EmptinessRaises(a.raw, "link_model_name") || StripRaises(a.raw, "link_model_name") || StripRaises(m.raw, "parent_model_name")
  }

  /** "already belongs to parent model": the link target is the parent. */
  function ParentClash(model: string, attribute: string, target: Option<string>, parent: Option<string>): (r: seq<Diagnostic>)
    ensures r != [] <==> target == parent
    ensures forall d :: d in r ==> d.LinkToParent? && Owner(d) == Some(model) && Phase(d) == 2
  {
    if target == parent then [LinkToParent(model, InterpolateOpt(parent), attribute)] else []
  }

  /** "does not exist": the link target is absent or not a model of the project. */
  function UnknownTarget(model: string, attribute: string, target: Option<string>, names: seq<string>): (r: seq<Diagnostic>)
    ensures r != [] <==> target.None? || target.value !in names
    ensures forall d :: d in r ==> d.MissingLinkTarget? && Owner(d) == Some(model) && Phase(d) == 2
  {
    if target.None? || target.value !in names then [MissingLinkTarget(model, attribute, InterpolateOpt(target))] else []
  }

  /** What `validate_model_links` reports for link attribute `a` of model `m`:
      the link model name must be given, must not be the parent (both absent
      counts as equal), and must name a model of the project. */
  function LinkDiagnostics(m: JsonModel, a: JsonAttribute, names: seq<string>): seq<Diagnostic> {
    var target := StrippedValue(a.raw, "link_model_name");
    KeyDiagnostics(OfAttribute(m.name, a.name), a.raw, "link_model_name") +
    ParentClash(m.name, a.name, target, StrippedValue(m.raw, "parent_model_name")) +
    UnknownTarget(m.name, a.name, target, names)
  }

  /** The body of `validate_model_links` for one link attribute: raises exactly
      on `LinkRaises`, and otherwise reports `LinkDiagnostics`. */
  function ValidateLink(m: JsonModel, a: JsonAttribute, names: seq<string>): (r: Checked<seq<Diagnostic>>)
    ensures r.Failure? <==> LinkRaises(m, a)
    ensures r.Success? ==> r.value == LinkDiagnostics(m, a, names)
  {
    var l := OfAttribute(m.name, a.name);
    StripOrNilValue(a.raw, "link_model_name");
    StripOrNilValue(m.raw, "parent_model_name");
    var keyErrs :- CheckKey(l, a.raw, "link_model_name");
    var target :- a.LinkModelName();
    var parent :- m.ParentModelName();
    Success(keyErrs + ParentClash(m.name, a.name, target, parent) + UnknownTarget(m.name, a.name, target, names))
  }

  /** A link attribute must give its link model name. */
  lemma LinkKeyRule(m: JsonModel, a: JsonAttribute, names: seq<string>)
    ensures MissingKey(OfAttribute(m.name, a.name), "link_model_name") in LinkDiagnostics(m, a, names) <==>
              "link_model_name" !in Keys(a.raw)
  {
    KeyDiagnosticsRule(OfAttribute(m.name, a.name), a.raw, "link_model_name");
  }

  /** A link may not point at the model's parent; a link without a target in a
      model without a parent counts as pointing at it. */
  lemma LinkParentRule(m: JsonModel, a: JsonAttribute, names: seq<string>)
    ensures (exists d :: d in LinkDiagnostics(m, a, names) && d.LinkToParent?) <==>
              StrippedValue(a.raw, "link_model_name") == StrippedValue(m.raw, "parent_model_name")
  {
    var l := OfAttribute(m.name, a.name);
    var target := StrippedValue(a.raw, "link_model_name");
    var keyErrs := KeyDiagnostics(l, a.raw, "link_model_name");
    var clash := ParentClash(m.name, a.name, target, StrippedValue(m.raw, "parent_model_name"));
    var unknown := UnknownTarget(m.name, a.name, target, names);
    KeyDiagnosticsRule(l, a.raw, "link_model_name");
    assert clash != [] ==> clash[0] in keyErrs + clash + unknown;
  }

  /** A link must point at a model of the project. */
  lemma LinkTargetRule(m: JsonModel, a: JsonAttribute, names: seq<string>)
    ensures (exists d :: d in LinkDiagnostics(m, a, names) && d.MissingLinkTarget?) <==>
              !(StrippedValue(a.raw, "link_model_name").Some? && StrippedValue(a.raw, "link_model_name").value in names)
  {
    var l := OfAttribute(m.name, a.name);
    var target := StrippedValue(a.raw, "link_model_name");
    var keyErrs := KeyDiagnostics(l, a.raw, "link_model_name");
    var clash := ParentClash(m.name, a.name, target, StrippedValue(m.raw, "parent_model_name"));
    var unknown := UnknownTarget(m.name, a.name, target, names);
    KeyDiagnosticsRule(l, a.raw, "link_model_name");
    assert unknown != [] ==> unknown[0] in keyErrs + clash + unknown;
  }

  /** Every link diagnostic belongs to the link step and names its model. */
  lemma LinkPhase(m: JsonModel, a: JsonAttribute, names: seq<string>)
    ensures forall d :: d in LinkDiagnostics(m, a, names) ==> Owner(d) == Some(m.name) && Phase(d) == 2
  {
    KeyDiagnosticsRule(OfAttribute(m.name, a.name), a.raw, "link_model_name");
  }

  /** `type == "link"` after stripping. */
  function IsLink(a: JsonAttribute): Checked<bool> {
    var t :- a.Type();
    Success(t == Some("link"))
  }

  /** What one attribute contributes to its model's link check: the link
      diagnostics for a link attribute, nothing for any other. */
  function LinkAttributeDiagnostics(m: JsonModel, a: JsonAttribute, names: seq<string>): seq<Diagnostic> {
    if IsLink(a) == Success(true) then LinkDiagnostics(m, a, names) else []
  }

  /** One attribute's turn in `validate_model_links`: nothing unless it is a link. */
  function LinkStep(m: JsonModel, a: JsonAttribute, names: seq<string>): (r: Checked<seq<Diagnostic>>)
    ensures r.Failure? <==> StripRaises(a.raw, "attribute_type") || (IsLink(a) == Success(true) && LinkRaises(m, a))
    ensures r.Success? ==> r.value == LinkAttributeDiagnostics(m, a, names)
    ensures r.Success? && r.value != [] ==> IsLink(a) == Success(true) && ValidateLink(m, a, names) == r
    ensures r.Success? ==> forall d :: d in r.value ==> Owner(d) == Some(m.name) && Phase(d) == 2
  {
    var link :- IsLink(a);
    LinkPhase(m, a, names);
    if link then ValidateLink(m, a, names) else Success([])
  }

  /** Reference definition: a model's link diagnostics, attribute after
      attribute in declaration order. */
  function LinkListDiagnostics(m: JsonModel, attrs: seq<JsonAttribute>, names: seq<string>): seq<Diagnostic>
    decreases |attrs|
  {
    if |attrs| == 0 then [] else LinkAttributeDiagnostics(m, attrs[0], names) + LinkListDiagnostics(m, attrs[1..], names)
  }

  /** `model.link_attributes` fed to `validate_model_links`: every attribute's
      type is read, and each link attribute is checked in order. */
  function ValidateModelLinks(m: JsonModel, attrs: seq<JsonAttribute>, names: seq<string>): (r: Checked<seq<Diagnostic>>)
    ensures r.Failure? <==> exists i :: 0 <= i < |attrs| && LinkStep(m, attrs[i], names).Failure?
    ensures r.Success? ==> r.value == LinkListDiagnostics(m, attrs, names)
    decreases |attrs|
  {
    if |attrs| == 0 then Success([])
    else
      var first :- LinkStep(m, attrs[0], names);
      var rest :- ValidateModelLinks(m, attrs[1..], names);
      assert forall i :: 1 <= i < |attrs| ==> attrs[i] == attrs[1..][i - 1];
      Success(first + rest)
  }

  /** A model's link check reports exactly what its link attributes report. */
  lemma {:induction false} ModelLinksContents(m: JsonModel, attrs: seq<JsonAttribute>, names: seq<string>)
    requires ValidateModelLinks(m, attrs, names).Success?
    ensures forall d :: d in ValidateModelLinks(m, attrs, names).value <==>
              exists i :: 0 <= i < |attrs| && LinkStep(m, attrs[i], names).Success? && d in LinkStep(m, attrs[i], names).value
    decreases |attrs|
  {
    if |attrs| > 0 {
      ModelLinksContents(m, attrs[1..], names);
      assert forall i :: 1 <= i < |attrs| ==> attrs[i] == attrs[1..][i - 1];
    }
  }

  /** Everything a model's link check reports names the model and belongs to the link step. */
  lemma {:induction false} ModelLinksPhase(m: JsonModel, attrs: seq<JsonAttribute>, names: seq<string>)
    requires ValidateModelLinks(m, attrs, names).Success?
    ensures forall d :: d in ValidateModelLinks(m, attrs, names).value ==> Owner(d) == Some(m.name) && Phase(d) == 2
    decreases |attrs|
  {
    if |attrs| > 0 {
      ModelLinksPhase(m, attrs[1..], names);
    }
  }

  /** What one model contributes to the link step. */
  function ModelLinkDiagnostics(m: JsonModel, names: seq<string>): seq<Diagnostic> {
    if m.Attributes().Success? then LinkListDiagnostics(m, m.Attributes().value, names) else []
  }

  /** Reference definition: the link diagnostics, model after model in
      declaration order. */
  function LinksDiagnostics(models: seq<JsonModel>, names: seq<string>): seq<Diagnostic>
    decreases |models|
  {
    if |models| == 0 then [] else ModelLinkDiagnostics(models[0], names) + LinksDiagnostics(models[1..], names)
  }

  /** Declaration order: model `i`'s link diagnostics come after those of the
      models declared before it and before those of the models declared after it. */
  lemma {:induction false} LinksAt(models: seq<JsonModel>, names: seq<string>, i: nat)
    requires i < |models|
    ensures LinksDiagnostics(models, names) ==
      LinksDiagnostics(models[..i], names) + ModelLinkDiagnostics(models[i], names) + LinksDiagnostics(models[i + 1..], names)
    decreases i
  {
    var tail := models[1..];
    if i == 0 {
      assert models[..0] == [] && tail == models[1..];
    } else {
      LinksAt(tail, names, i - 1);
      var front, here, back := LinksDiagnostics(tail[..i - 1], names), ModelLinkDiagnostics(tail[i - 1], names), LinksDiagnostics(tail[i..], names);
      assert models[..i][1..] == tail[..i - 1] && models[..i][0] == models[0];
      assert tail[i - 1] == models[i] && tail[i..] == models[i + 1..];
      assert LinksDiagnostics(models[..i], names) == ModelLinkDiagnostics(models[0], names) + front;
      SeqAssoc(ModelLinkDiagnostics(models[0], names), front, here, back);
    }
  }

  /** One model's turn in `validate_model_links`. */
  function ModelLinkStep(m: JsonModel, names: seq<string>): (r: Checked<seq<Diagnostic>>)
    ensures r.Failure? <==> m.Attributes().Failure? || ValidateModelLinks(m, m.Attributes().value, names).Failure?
    ensures r.Success? ==> r.value == ModelLinkDiagnostics(m, names)
    ensures r.Success? ==> forall d :: d in r.value ==> Owner(d) == Some(m.name) && Phase(d) == 2
  {
    var attrs :- m.Attributes();
    var r := ValidateModelLinks(m, attrs, names);
    if r.Success? then ModelLinksPhase(m, attrs, names); r else r
  }

  /** `validate_model_links` over all models, in declaration order. */
  function ValidateLinks(models: seq<JsonModel>, names: seq<string>): (r: Checked<seq<Diagnostic>>)
    ensures r.Failure? <==> exists i :: 0 <= i < |models| && ModelLinkStep(models[i], names).Failure?
    ensures r.Success? ==> r.value == LinksDiagnostics(models, names)
    decreases |models|
  {
    if |models| == 0 then Success([])
    else
      var first :- ModelLinkStep(models[0], names);
      var rest :- ValidateLinks(models[1..], names);
      assert forall i :: 1 <= i < |models| ==> models[i] == models[1..][i - 1];
      Success(first + rest)
  }

  /** The link step reports exactly what the models' link checks report. */
  lemma {:induction false} ValidateLinksContents(models: seq<JsonModel>, names: seq<string>)
    requires ValidateLinks(models, names).Success?
    ensures forall d :: d in ValidateLinks(models, names).value <==>
              exists i :: 0 <= i < |models| && ModelLinkStep(models[i], names).Success? && d in ModelLinkStep(models[i], names).value
    decreases |models|
  {
    if |models| > 0 {
      ValidateLinksContents(models[1..], names);
      assert forall i :: 1 <= i < |models| ==> models[i] == models[1..][i - 1];
    }
  }

  /** Everything the link step reports belongs to it. */
  lemma {:induction false} ValidateLinksPhase(models: seq<JsonModel>, names: seq<string>)
    requires ValidateLinks(models, names).Success?
    ensures forall d :: d in ValidateLinks(models, names).value ==> Phase(d) == 2
    decreases |models|
  {
    if |models| > 0 {
      ValidateLinksPhase(models[1..], names);
    }
  }

  // ---------------------------------------------------------------------------
  // The project

  /** Diagnostics come step by step: the project's names, then the models, then
      the links. */
  predicate PhaseOrdered(ds: seq<Diagnostic>) {
    forall i, j :: 0 <= i < j < |ds| ==> Phase(ds[i]) <= Phase(ds[j])
  }

  lemma {:induction false} PhasesInOrder(names: seq<Diagnostic>, models: seq<Diagnostic>, links: seq<Diagnostic>)
    requires forall d :: d in names ==> Phase(d) == 0
    requires forall d :: d in models ==> Phase(d) == 1
    requires forall d :: d in links ==> Phase(d) == 2
    ensures PhaseOrdered(names + models + links)
  {
    var ds := names + models + links;
    forall i, j | 0 <= i < j < |ds|
      ensures Phase(ds[i]) <= Phase(ds[j])
    {
      assert ds[i] in names || ds[i] in models || ds[i] in links;
      assert ds[j] in names || ds[j] in models || ds[j] in links;
      if i < |names| {
        assert ds[i] == names[i];
      } else if i < |names| + |models| {
        assert ds[i] == models[i - |names|];
        assert j >= |names|;
        if j < |names| + |models| {
          assert ds[j] == models[j - |names|];
        } else {
          assert ds[j] == links[j - |names| - |models|];
        }
      } else {
        assert ds[i] == links[i - |names| - |models|];
        assert ds[j] == links[j - |names| - |models|];
      }
    }
  }

  /** Only the first step reports on the project's name. */
  lemma ProjectNameFirst(names: seq<Diagnostic>, models: seq<Diagnostic>, links: seq<Diagnostic>)
    requires forall d :: d in models ==> Phase(d) == 1
    requires forall d :: d in links ==> Phase(d) == 2
    ensures (exists d :: d in names + models + links && d.BadProjectName?) <==>
            (exists i :: 0 <= i < |names| && names[i].BadProjectName?)
  {
    if exists i :: 0 <= i < |names| && names[i].BadProjectName? {
      var i :| 0 <= i < |names| && names[i].BadProjectName?;
      assert names[i] in names + models + links;
    }
    if exists d :: d in names + models + links && d.BadProjectName? {
      var d :| d in names + models + links && d.BadProjectName?;
      assert Phase(d) == 0;
      var i :| 0 <= i < |names| && names[i] == d;
    }
  }

  /** The project's names are reported in the first step. */
  lemma ProjectNamesPhase(project: Hash)
    ensures ValidateProjectNames(project).Success? ==> forall d :: d in ValidateProjectNames(project).value ==> Phase(d) == 0
  {
  }

  /** `JsonProject#validate`: the project's names, every model with its
      attributes, then every link attribute; raising anywhere raises. */
  function Validate(project: Hash): (r: Checked<seq<Diagnostic>>)
    ensures r.Failure? <==>
      || ValidateProjectNames(project).Failure?
      || ModelsOf(project).Failure?
      || ValidateModels(ModelsOf(project).value).Failure?
      || ValidateLinks(ModelsOf(project).value, ModelNames(ModelsOf(project).value)).Failure?
    ensures r.Success? ==>
      r.value == ValidateProjectNames(project).value + ValidateModels(ModelsOf(project).value).value +
                 ValidateLinks(ModelsOf(project).value, ModelNames(ModelsOf(project).value)).value
  {
    var nameErrs :- ValidateProjectNames(project);
    var models :- ModelsOf(project);
    var modelErrs :- ValidateModels(models);
    var linkErrs :- ValidateLinks(models, ModelNames(models));
    Success(nameErrs + modelErrs + linkErrs)
  }

  /** `JsonProject.new` on the parsed file: `initialize` validates at once, and
      a top-level value that is not a JSON object has no `key?`, so the first
      `check_key` raises. */
  function NewProject(parsed: Json): (r: Checked<seq<Diagnostic>>)
    ensures !parsed.Obj? ==> r.Failure?
    ensures r.Failure? <==> (!parsed.Obj? || Validate(parsed.fields).Failure?)
    ensures r.Success? ==> parsed.Obj? && r.value == Validate(parsed.fields).value
  {
    match parsed
    case Obj(fields) => Validate(fields)
    case _ => Failure(NoMethodError("key?"))
  }

  /** The whole validation in terms of the reference lists: the project's
      names, then every model's own and attribute diagnostics in declaration
      order, then every model's link diagnostics in declaration order. */
  lemma ValidateInOrder(project: Hash)
    requires Validate(project).Success?
    ensures ModelsOf(project).Success?
    ensures Validate(project).value ==
      ValidateProjectNames(project).value + ModelListDiagnostics(ModelsOf(project).value) +
      LinksDiagnostics(ModelsOf(project).value, ModelNames(ModelsOf(project).value))
  {
  }

  /** Diagnostics come step by step: the project's names, then the models, then the links. */
  lemma ValidateOrdered(project: Hash)
    requires Validate(project).Success?
    ensures PhaseOrdered(Validate(project).value)
  {
    var models := ModelsOf(project).value;
    ProjectNamesPhase(project);
    ValidateModelsPhase(models);
    ValidateLinksPhase(models, ModelNames(models));
    PhasesInOrder(ValidateProjectNames(project).value, ValidateModels(models).value,
                  ValidateLinks(models, ModelNames(models)).value);
  }

  /** The whole validation complains about the project name exactly when the
      name is not acceptable. */
  lemma ValidateProjectName(project: Hash)
    requires Validate(project).Success?
    ensures (exists d :: d in Validate(project).value && d.BadProjectName?) <==> !AcceptableProjectName(project)
  {
    var models := ModelsOf(project).value;
    ValidateModelsPhase(models);
    ValidateLinksPhase(models, ModelNames(models));
    ProjectNameFirst(ValidateProjectNames(project).value, ValidateModels(models).value,
                     ValidateLinks(models, ModelNames(models)).value);
  }

  /** Every model's own diagnostics are among the whole validation's. */
  lemma ValidateIncludesModels(project: Hash, i: nat)
    requires Validate(project).Success? && i < |ModelsOf(project).value|
    ensures ValidateModel(ModelsOf(project).value[i]).Success?
    ensures forall d :: d in ValidateModel(ModelsOf(project).value[i]).value ==> d in Validate(project).value
  {
    var models := ModelsOf(project).value;
    ValidateModelsContents(models);
  }
}

=== FILE: magma_compile.dfy ===
/** `JsonProject#get_magma_models` (json_models.rb): compiling a project
    description into the Magma model set, with the parent, child and reciprocal
    collection attributes the description leaves implicit.

    The builders it drives (`build_model`, `build_template`, `build_attributes`,
    `build_attribute`) are get-or-create lookups by name whose setters store one
    field each. The compilation is modelled as the sequence of setter blocks it
    runs, each block a hash of the fields it sets on one template or attribute,
    and the model set as what those blocks leave behind. An exception raised
    part-way leaves no model set, so a `Failure` discards the blocks before it. */
module MagmaCompile {
  import opened Wrappers
  import opened Dicts
  import opened RubyValues
  import opened JsonModels
  import opened ModelTree

  // ---------------------------------------------------------------------------
  // Setter blocks and the model set they build

  /** The fields the compilation sets, on templates (`Identifier`, `Parent`)
      and on attributes (the others). */
  datatype Field =
    | Identifier | Parent
    | AttributeName | Name | DisplayName | Desc | AttributeType
    | Hidden | ReadOnly | Validation | Restricted | LinkModelName

  /** The field's name, which for the copied settings is also the key they
      are read from. */
  function FieldName(f: Field): string {
    match f
    case Identifier => "identifier"
    case Parent => "parent"
    case AttributeName => "attribute_name"
    case Name => "name"
    case DisplayName => "display_name"
    case Desc => "desc"
    case AttributeType => "attribute_type"
    case Hidden => "hidden"
    case ReadOnly => "read_only"
    case Validation => "validation"
    case Restricted => "restricted"
    case LinkModelName => "link_model_name"
  }

  /** The values stored in one template's or attribute's fields. Their order
      is not observable here, so a map stands for the hash. */
  type Fields = map<Field, Json>

  function Lookup(h: Fields, f: Field): Option<Json> {
    if f in h then Some(h[f]) else None
  }

  /** A template's own fields, or the fields of one of its attributes. */
  datatype Target = TemplateField | AttributeField(attribute: string)

  /** One field of one model's template or attribute. */
  datatype Slot = Slot(model: string, target: Target, field: Field)

  /** Setter calls on one builder object: each field of `fields` is stored, in order. */
  datatype Write = Write(model: string, target: Target, fields: Fields)

  datatype Template = Template(fields: Fields, attributes: Dict<string, Fields>)

  /** The model set: model name to template. */
  type Built = Dict<string, Template>

  /** Block `w` stores a value in slot `at`. */
  predicate Sets(w: Write, at: Slot) {
    w.model == at.model && w.target == at.target && at.field in w.fields
  }

  /** What a template holds in one of its fields or its attributes' fields. */
  function TemplateValue(t: Template, target: Target, field: Field): Option<Json> {
    match target
    case TemplateField => Lookup(t.fields, field)
    case AttributeField(a) =>
      match Get(t.attributes, a)
      case None => None
      case Some(h) => Lookup(h, field)
  }

  /** What the model set holds in a slot; `None` where nothing was stored. */
  function FieldOf(out: Built, at: Slot): Option<Json> {
    match Get(out, at.model)
    case None => None
    case Some(t) => TemplateValue(t, at.target, at.field)
  }

  /** A setter block on a template or on one of its attributes, creating the
      attribute when it is missing. */
  function SetValues(t: Template, target: Target, h: Fields): Template {
    match target
    case TemplateField => t.(fields := t.fields + h)
    case AttributeField(a) =>
      var noFields: Fields := map[];
      t.(attributes := Put(t.attributes, a, Get(t.attributes, a).GetOr(noFields) + h))
  }

  /** Storing the fields `h` over `g`: the stored value wins where `h` sets one. */
  lemma LookupOver(g: Fields, h: Fields, f: Field)
    ensures Lookup(g + h, f) == if f in h then Some(h[f]) else Lookup(g, f)
  {
  }

  /** The attribute `a` after a setter block on attribute `b` of the same template. */
  lemma SetAttributeFields(t: Template, a: string, h: Fields, b: string)
    ensures Get(SetValues(t, AttributeField(a), h).attributes, b) ==
            if a == b then Some(Get(t.attributes, a).GetOr(map[]) + h) else Get(t.attributes, b)
  {
  }

  lemma SetValuesField(t: Template, target: Target, h: Fields, target': Target, field: Field)
    ensures TemplateValue(SetValues(t, target, h), target', field) ==
            if target' == target && field in h then Some(h[field]) else TemplateValue(t, target', field)
  {
    if target.TemplateField? {
      LookupOver(t.fields, h, field);
    } else if target'.AttributeField? {
      SetAttributeFields(t, target.attribute, h, target'.attribute);
      LookupOver(Get(t.attributes, target.attribute).GetOr(map[]), h, field);
    }
  }

  /** A setter block reached through the get-or-create builders: the model is
      created when missing. */
  function Apply(out: Built, w: Write): (r: Built)
    ensures forall m :: m in Keys(r) <==> m in Keys(out) || m == w.model
  {
    var t := Get(out, w.model).GetOr(Template(map[], []));
    Put(out, w.model, SetValues(t, w.target, w.fields))
  }

  /** A block changes the slots it sets and no other. */
  lemma ApplyField(out: Built, w: Write, at: Slot)
    ensures FieldOf(Apply(out, w), at) == if Sets(w, at) then Some(w.fields[at.field]) else FieldOf(out, at)
  {
    var t := Get(out, w.model).GetOr(Template(map[], []));
    var r := Apply(out, w);
    if at.model == w.model {
      assert Get(r, at.model) == Some(SetValues(t, w.target, w.fields));
      SetValuesField(t, w.target, w.fields, at.target, at.field);
      if Get(out, at.model).None? {
        assert TemplateValue(Template(map[], []), at.target, at.field) == None;
      }
    } else {
      assert Get(r, at.model) == Get(out, at.model);
    }
  }

  /** The blocks run one after the other. */
  function ApplyAll(out: Built, ws: seq<Write>): Built
    decreases |ws|
  {
    if |ws| == 0 then out else ApplyAll(Apply(out, ws[0]), ws[1..])
  }

  /** Reference definition: the value the last block setting `at` stores
      there, and `d` when none sets it. */
  function LastValue(ws: seq<Write>, at: Slot, d: Option<Json>): Option<Json>
    decreases |ws|
  {
    if |ws| == 0 then d
    else if Sets(ws[|ws| - 1], at) then Some(ws[|ws| - 1].fields[at.field])
    else LastValue(ws[..|ws| - 1], at, d)
  }

  /** Some block in `ws` sets `at`. */
  predicate WritesTo(ws: seq<Write>, at: Slot) {
    exists i :: 0 <= i < |ws| && Sets(ws[i], at)
  }

  /** Every block in `ws` is on model `m`. */
  predicate OnModel(ws: seq<Write>, m: string) {
    forall i :: 0 <= i < |ws| ==> ws[i].model == m
  }

  /** Some block in `ws` is on model `m`. */
  predicate Touches(ws: seq<Write>, m: string) {
    exists i :: 0 <= i < |ws| && ws[i].model == m
  }

  lemma {:induction false} ApplyAllSnoc(out: Built, ws: seq<Write>, w: Write)
    ensures ApplyAll(out, ws + [w]) == Apply(ApplyAll(out, ws), w)
    decreases |ws|
  {
    if |ws| > 0 {
      assert (ws + [w])[1..] == ws[1..] + [w];
      ApplyAllSnoc(Apply(out, ws[0]), ws[1..], w);
    }
  }

  /** Running the blocks leaves in every slot the value of the last block that
      sets it, and the old value where none does. */
  lemma {:induction false} LastWriteWins(out: Built, ws: seq<Write>, at: Slot)
    ensures FieldOf(ApplyAll(out, ws), at) == LastValue(ws, at, FieldOf(out, at))
    decreases |ws|
  {
    if |ws| > 0 {
      var n := |ws| - 1;
      assert ws == ws[..n] + [ws[n]];
      ApplyAllSnoc(out, ws[..n], ws[n]);
      LastWriteWins(out, ws[..n], at);
      ApplyField(ApplyAll(out, ws[..n]), ws[n], at);
    }
  }

  /** Running the blocks creates exactly the models they touch. */
  lemma {:induction false} ModelsCreated(out: Built, ws: seq<Write>, m: string)
    ensures m in Keys(ApplyAll(out, ws)) <==> m in Keys(out) || Touches(ws, m)
    decreases |ws|
  {
    if |ws| > 0 {
      ModelsCreated(Apply(out, ws[0]), ws[1..], m);
      if Touches(ws, m) && m !in Keys(out) && ws[0].model != m {
        var i :| 0 <= i < |ws| && ws[i].model == m;
        assert ws[1..][i - 1].model == m;
      }
      if Touches(ws[1..], m) {
        var i :| 0 <= i < |ws[1..]| && ws[1..][i].model == m;
        assert ws[i + 1].model == m;
      }
    }
  }

  lemma {:induction false} LastValueConcat(a: seq<Write>, b: seq<Write>, at: Slot, d: Option<Json>)
    ensures LastValue(a + b, at, d) == LastValue(b, at, LastValue(a, at, d))
    decreases |b|
  {
    if |b| == 0 {
      assert a + b == a;
    } else {
      var n := |b| - 1;
      assert (a + b)[..|a + b| - 1] == a + b[..n];
      LastValueConcat(a, b[..n], at, d);
    }
  }

  /** Blocks elsewhere leave a slot alone. */
  lemma {:induction false} LastValueMiss(ws: seq<Write>, at: Slot, d: Option<Json>)
    requires !WritesTo(ws, at)
    ensures LastValue(ws, at, d) == d
    decreases |ws|
  {
    if |ws| > 0 {
      var n := |ws| - 1;
      assert !WritesTo(ws[..n], at) by {
        forall i | 0 <= i < n ensures !Sets(ws[..n][i], at) {
          assert ws[..n][i] == ws[i];
        }
      }
      LastValueMiss(ws[..n], at, d);
    }
  }

  /** When every block setting a slot stores the same value, that value stays. */
  lemma {:induction false} LastValueAgreed(ws: seq<Write>, at: Slot, v: Json, d: Option<Json>)
    requires WritesTo(ws, at)
    requires forall i :: 0 <= i < |ws| && Sets(ws[i], at) ==> ws[i].fields[at.field] == v
    ensures LastValue(ws, at, d) == Some(v)
    decreases |ws|
  {
    var n := |ws| - 1;
    if !Sets(ws[n], at) {
      assert WritesTo(ws[..n], at) by {
        var i :| 0 <= i < |ws| && Sets(ws[i], at);
        assert ws[..n][i] == ws[i];
      }
      forall i | 0 <= i < n && Sets(ws[..n][i], at) ensures ws[..n][i].fields[at.field] == v {
        assert ws[..n][i] == ws[i];
      }
      LastValueAgreed(ws[..n], at, v, d);
    }
  }

  // ---------------------------------------------------------------------------
  // `JsonAttribute#to_magma_model`

  function AttrSlot(model: string, attribute: string, field: Field): Slot {
    Slot(model, AttributeField(attribute), field)
  }

  /** A value read through `&.strip`, as a setter stores it. */
  function OptJson(x: Option<string>): Json {
    match x
    case Some(s) => Str(s)
    case None => Null
  }

  /** `raw[key].strip` without safe navigation: only a string has `strip`. */
  function StripValue(raw: Hash, key: string): (r: Checked<string>)
    ensures r.Success? <==> Value(raw, key).Str?
    ensures r.Success? ==> r.value == Strip(Value(raw, key).s)
  {
    match Value(raw, key)
    case Str(s) => Success(Strip(s))
    case _ => Failure(NoMethodError("strip"))
  }

  /** The settings copied only when their key is present. */
  predicate Copied(f: Field) {
    f.Hidden? || f.ReadOnly? || f.Validation? || f.Restricted?
  }

  /** `attribute.f = @raw[f] if @raw.key?(f)`. */
  function CopyOne(h: Fields, raw: Hash, f: Field): Fields {
    if FieldName(f) in Keys(raw) then h[f := Value(raw, FieldName(f))] else h
  }

  /** The four settings copied in turn. */
  function CopySettings(raw: Hash): (r: Fields)
    ensures forall f :: Lookup(r, f) == if Copied(f) && FieldName(f) in Keys(raw) then Some(Value(raw, FieldName(f))) else None
  {
    CopyOne(CopyOne(CopyOne(CopyOne(map[], raw, Hidden), raw, ReadOnly), raw, Validation), raw, Restricted)
  }

  /** The values `to_magma_model` reads from an attribute's hash, as the
      reads answer: `display_name` and `desc` are stripped without safe
      navigation, `attribute_type` and `link_model_name` with it. */
  datatype AttributeRead = AttributeRead(
    name: string,
    displayName: Checked<string>,
    desc: Checked<string>,
    attributeType: Checked<Option<string>>,
    linkModelName: Checked<Option<string>>,
    settings: Fields)

  function ReadAttribute(a: JsonAttribute): (r: AttributeRead)
    ensures r.name == a.name
    ensures r.displayName.Success? <==> Value(a.raw, "display_name").Str?
    ensures r.desc.Success? <==> Value(a.raw, "desc").Str?
    ensures r.attributeType.Failure? <==> StripRaises(a.raw, "attribute_type")
    ensures r.linkModelName.Failure? <==> StripRaises(a.raw, "link_model_name")
    ensures r.displayName.Success? ==> r.displayName.value == Strip(Value(a.raw, "display_name").s)
    ensures r.desc.Success? ==> r.desc.value == Strip(Value(a.raw, "desc").s)
    ensures r.attributeType.Success? ==> r.attributeType.value == StrippedValue(a.raw, "attribute_type")
    ensures r.linkModelName.Success? ==> r.linkModelName.value == StrippedValue(a.raw, "link_model_name")
    ensures forall f :: f in r.settings ==> Copied(f)
    ensures forall f :: Copied(f) ==> Lookup(r.settings, f) == if FieldName(f) in Keys(a.raw) then Some(Value(a.raw, FieldName(f))) else None
  {
    StripOrNilValue(a.raw, "attribute_type");
    StripOrNilValue(a.raw, "link_model_name");
    AttributeRead(a.name, StripValue(a.raw, "display_name"), StripValue(a.raw, "desc"),
                  StripOrNil(Get(a.raw, "attribute_type")), StripOrNil(Get(a.raw, "link_model_name")), CopySettings(a.raw))
  }

  /** `to_magma_model` on the attribute raises: a declared attribute other than
      the identifier needs string `display_name` and `desc` and a readable
      `attribute_type`, and every attribute a readable `link_model_name`. */
  predicate AttributeCompileRaises(ident: Option<string>, r: AttributeRead) {
    || (ident != Some(r.name) && (r.displayName.Failure? || r.desc.Failure? || r.attributeType.Failure?))
    || r.linkModelName.Failure?
  }

  /** What `to_magma_model` leaves in each field of the attribute, field by
      field: both names are the attribute name; the identifier attribute is
      typed `identifier` and has no display name or description, any other
      attribute has its stripped `attribute_type`, `display_name` and `desc`;
      the four settings are there only when their key is present, and the link
      target only when there is one. */
  function CompiledField(ident: Option<string>, r: AttributeRead, f: Field): Option<Json>
    requires !AttributeCompileRaises(ident, r)
  {
    var declared := ident != Some(r.name);
    match f
    case AttributeName => Some(Str(r.name))
    case Name => Some(Str(r.name))
    case AttributeType => Some(if declared then OptJson(r.attributeType.value) else Str("identifier"))
    case DisplayName => if declared then Some(Str(r.displayName.value)) else None
    case Desc => if declared then Some(Str(r.desc.value)) else None
    case LinkModelName => if r.linkModelName.value.Some? then Some(Str(r.linkModelName.value.value)) else None
    case Identifier => None
    case Parent => None
    case _ => Lookup(r.settings, f)
  }

  /** The fields set before the copied settings: the names, then either the
      stripped display name, description and type, or the `identifier` type. */
  function TypedFields(ident: Option<string>, r: AttributeRead): (h: Checked<Fields>)
    ensures h.Failure? <==> ident != Some(r.name) && (r.displayName.Failure? || r.desc.Failure? || r.attributeType.Failure?)
  {
    var named := map[AttributeName := Str(r.name), Name := Str(r.name)];
    if ident == Some(r.name) then Success(named[AttributeType := Str("identifier")])
    else if r.displayName.Failure? || r.desc.Failure? || r.attributeType.Failure? then
      Failure(NoMethodError("strip"))
    else
      Success(named[DisplayName := Str(r.displayName.value)]
                   [Desc := Str(r.desc.value)]
                   [AttributeType := OptJson(r.attributeType.value)])
  }

  /** `JsonAttribute#to_magma_model`: the block run on the attribute builder
      for an attribute of model `model` whose identifier is `ident`. It raises
      exactly when one of the values it strips is not a string (or nil, where
      safe navigation is used). */
  function AttributeBlock(model: string, ident: Option<string>, r: AttributeRead): (w: Checked<Write>)
    ensures w.Failure? <==> AttributeCompileRaises(ident, r)
    ensures w.Success? ==> w.value.model == model && w.value.target == AttributeField(r.name)
  {
    var typed := TypedFields(ident, r);
    if typed.Failure? then Failure(typed.error)
    else if r.linkModelName.Failure? then Failure(r.linkModelName.error)
    else
      var copied := typed.value + r.settings;
      var link := r.linkModelName.value;
      Success(Write(model, AttributeField(r.name), if link.Some? then copied[LinkModelName := Str(link.value)] else copied))
  }

  /** The names and types set first are the compiled ones. */
  lemma TypedLookup(ident: Option<string>, r: AttributeRead, f: Field)
    requires TypedFields(ident, r).Success? && r.linkModelName.Success? && !Copied(f) && f != LinkModelName
    ensures Lookup(TypedFields(ident, r).value, f) == CompiledField(ident, r, f)
  {
  }

  /** The block's fields other than the link target are the typed fields
      with the copied settings stored over them. */
  lemma BlockFieldsCopied(model: string, ident: Option<string>, r: AttributeRead, f: Field)
    requires AttributeBlock(model, ident, r).Success? && f != LinkModelName
    ensures Lookup(AttributeBlock(model, ident, r).value.fields, f) == Lookup(TypedFields(ident, r).value + r.settings, f)
  {
  }

  /** The link target is stored only when there is one. */
  lemma BlockLinkField(model: string, ident: Option<string>, r: AttributeRead)
    requires AttributeBlock(model, ident, r).Success? && forall g :: g in r.settings ==> Copied(g)
    ensures Lookup(AttributeBlock(model, ident, r).value.fields, LinkModelName) == CompiledField(ident, r, LinkModelName)
  {
    var typed := TypedFields(ident, r).value;
    assert LinkModelName !in typed + r.settings;
  }

  /** The attribute block sets the fields `CompiledField` describes and no others. */
  lemma AttributeBlockFields(model: string, ident: Option<string>, r: AttributeRead, f: Field)
    requires AttributeBlock(model, ident, r).Success? && forall g :: g in r.settings ==> Copied(g)
    ensures Lookup(AttributeBlock(model, ident, r).value.fields, f) == CompiledField(ident, r, f)
  {
    if f == LinkModelName {
      BlockLinkField(model, ident, r);
    } else {
      var typed := TypedFields(ident, r).value;
      BlockFieldsCopied(model, ident, r, f);
      LookupOver(typed, r.settings, f);
      if Copied(f) {
        assert f !in typed;
      } else {
        assert f !in r.settings;
        TypedLookup(ident, r, f);
      }
    }
  }

  /** The attribute blocks of a model's declared attributes, in declaration
      order; the first attribute that raises ends the compilation. */
  function AttributeBlocks(model: string, ident: Option<string>, attrs: seq<AttributeRead>): (r: Checked<seq<Write>>)
    decreases |attrs|
  {
    if |attrs| == 0 then Success([])
    else
      var w := AttributeBlock(model, ident, attrs[0]);
      if w.Failure? then Failure(w.error)
      else
        var rest := AttributeBlocks(model, ident, attrs[1..]);
        if rest.Failure? then rest else Success([w.value] + rest.value)
  }

  /** Some declared attribute cannot be compiled. */
  predicate SomeAttributeRaises(ident: Option<string>, attrs: seq<AttributeRead>) {
    exists i :: 0 <= i < |attrs| && AttributeCompileRaises(ident, attrs[i])
  }

  /** The attribute blocks fail exactly when one of the attributes does. */
  lemma {:induction false} AttributeBlocksFail(model: string, ident: Option<string>, attrs: seq<AttributeRead>)
    ensures AttributeBlocks(model, ident, attrs).Failure? <==> SomeAttributeRaises(ident, attrs)
    decreases |attrs|
  {
    if |attrs| > 0 {
      var tail := attrs[1..];
      AttributeBlocksFail(model, ident, tail);
      if SomeAttributeRaises(ident, tail) {
        var i :| 0 <= i < |tail| && AttributeCompileRaises(ident, tail[i]);
        assert tail[i] == attrs[i + 1];
      }
      if SomeAttributeRaises(ident, attrs) && !AttributeCompileRaises(ident, attrs[0]) {
        var i :| 0 <= i < |attrs| && AttributeCompileRaises(ident, attrs[i]);
        assert tail[i - 1] == attrs[i];
      }
    }
  }

  /** The attribute blocks are those of the declared attributes, one for one. */
  lemma {:induction false} AttributeBlocksOneForOne(model: string, ident: Option<string>, attrs: seq<AttributeRead>)
    requires AttributeBlocks(model, ident, attrs).Success?
    ensures var ws := AttributeBlocks(model, ident, attrs).value;
      |ws| == |attrs| && forall i :: 0 <= i < |attrs| ==> AttributeBlock(model, ident, attrs[i]) == Success(ws[i])
    decreases |attrs|
  {
    if |attrs| > 0 {
      var tail := attrs[1..];
      assert AttributeBlocks(model, ident, tail).Success?;
      AttributeBlocksOneForOne(model, ident, tail);
      var ws := AttributeBlocks(model, ident, attrs).value;
      forall i | 0 <= i < |attrs| ensures AttributeBlock(model, ident, attrs[i]) == Success(ws[i]) {
        if i > 0 {
          assert tail[i - 1] == attrs[i];
        }
      }
    }
  }

  /** The blocks are those of the declared attributes one for one, and they
      fail exactly when one of the attributes does. */
  lemma AttributeBlocksEach(model: string, ident: Option<string>, attrs: seq<AttributeRead>)
    ensures AttributeBlocks(model, ident, attrs).Failure? <==> SomeAttributeRaises(ident, attrs)
    ensures AttributeBlocks(model, ident, attrs).Success? ==>
      var ws := AttributeBlocks(model, ident, attrs).value;
      |ws| == |attrs| && forall i :: 0 <= i < |attrs| ==> AttributeBlock(model, ident, attrs[i]) == Success(ws[i])
  {
    AttributeBlocksFail(model, ident, attrs);
    if AttributeBlocks(model, ident, attrs).Success? {
      AttributeBlocksOneForOne(model, ident, attrs);
    }
  }

  // ---------------------------------------------------------------------------
  // `JsonModel#to_magma_model`

  /** The values the compilation reads from a model: the name, the stripped
      `identifier`, `parent_model_name` and `parent_link_type`, and the
      declared attributes, each as its read answers. */
  datatype ModelRead = ModelRead(
    name: string,
    ident: Checked<Option<string>>,
    parent: Checked<Option<string>>,
    linkType: Checked<Option<string>>,
    attributes: Checked<seq<AttributeRead>>)

  function ReadAttributes(attrs: seq<JsonAttribute>): (rs: seq<AttributeRead>)
    ensures |rs| == |attrs|
    ensures forall i :: 0 <= i < |attrs| ==> rs[i] == ReadAttribute(attrs[i])
  {
    seq(|attrs|, i requires 0 <= i < |attrs| => ReadAttribute(attrs[i]))
  }

  function ReadModel(m: JsonModel): (r: ModelRead)
    ensures r.name == m.name
    ensures r.parent.Failure? <==> StripRaises(m.raw, "parent_model_name")
    ensures r.parent.Success? ==> r.parent.value == ParentName(m)
  {
    StripOrNilValue(m.raw, "parent_model_name");
    var attrs := m.Attributes();
    ModelRead(m.name, m.Identifier(), m.ParentModelName(), m.ParentLinkType(),
              if attrs.Success? then Success(ReadAttributes(attrs.value)) else Failure(attrs.error))
  }

  function ReadModels(models: seq<JsonModel>): (rs: seq<ModelRead>)
    ensures |rs| == |models|
    ensures forall i :: 0 <= i < |models| ==> rs[i] == ReadModel(models[i])
  {
    seq(|models|, i requires 0 <= i < |models| => ReadModel(models[i]))
  }

  predicate IsProject(m: ModelRead) {
    m.name == "project"
  }

  /** The block setting the template's `identifier` and `parent`. */
  function TemplateBlock(model: string, ident: Option<string>, parent: Option<string>): Write {
    Write(model, TemplateField, map[Identifier := OptJson(ident), Parent := OptJson(parent)])
  }

  /** `add_parent_attribute`: a `parent` attribute named after the parent
      model and linking to it. */
  function ParentBlock(model: string, parent: string): Write {
    var shown := Str(Prettify(parent));
    Write(model, AttributeField(parent),
          map[AttributeName := Str(parent), Name := Str(parent), LinkModelName := Str(parent),
              AttributeType := Str("parent"), DisplayName := shown, Desc := shown])
  }

  /** `JsonModel#to_magma_model` raises: the identifier, the parent name or the
      attribute definitions cannot be read, an attribute cannot be compiled, or
      a model other than `project` has no parent to name its parent attribute
      after (`nil.split`). */
  predicate ModelCompileRaises(m: ModelRead) {
    || m.ident.Failure?
    || m.parent.Failure?
    || m.attributes.Failure?
    || SomeAttributeRaises(m.ident.value, m.attributes.value)
    || (!IsProject(m) && m.parent.value.None?)
  }

  /** `JsonModel#to_magma_model`: the template block, the blocks of the
      declared attributes in order, then, for any model but `project`, the
      parent attribute. */
  function ModelBlocks(m: ModelRead): (r: Checked<seq<Write>>)
    ensures r.Failure? <==> ModelCompileRaises(m)
    ensures r.Success? ==> OnModel(r.value, m.name)
  {
    if m.ident.Failure? then Failure(m.ident.error)
    else if m.parent.Failure? then Failure(m.parent.error)
    else if m.attributes.Failure? then Failure(m.attributes.error)
    else
      var declared := AttributeBlocks(m.name, m.ident.value, m.attributes.value);
      AttributeBlocksEach(m.name, m.ident.value, m.attributes.value);
      if declared.Failure? then Failure(declared.error)
      else if IsProject(m) then Success([TemplateBlock(m.name, m.ident.value, m.parent.value)] + declared.value)
      else if m.parent.value.None? then Failure(NoMethodError("split"))
      else Success([TemplateBlock(m.name, m.ident.value, m.parent.value)] + declared.value + [ParentBlock(m.name, m.parent.value.value)])
  }

  /** The three parts of `to_magma_model`'s blocks. */
  lemma ModelBlocksParts(m: ModelRead)
    requires ModelBlocks(m).Success?
    ensures AttributeBlocks(m.name, m.ident.value, m.attributes.value).Success?
    ensures ModelBlocks(m).value ==
      [TemplateBlock(m.name, m.ident.value, m.parent.value)]
      + AttributeBlocks(m.name, m.ident.value, m.attributes.value).value
      + (if IsProject(m) then [] else [ParentBlock(m.name, m.parent.value.value)])
  {
  }

  /** Positions in a list made of a head, a middle and a tail. */
  lemma ThreeParts<T>(ws: seq<T>, head: T, middle: seq<T>, tail: seq<T>)
    requires ws == [head] + middle + tail
    ensures |ws| == 1 + |middle| + |tail| && ws[0] == head
    ensures forall j :: 0 <= j < |middle| ==> ws[1 + j] == middle[j]
    ensures forall j :: 0 <= j < |tail| ==> ws[1 + |middle| + j] == tail[j]
  {
  }

  /** What `to_magma_model` leaves in the list: the template block first and
      only there, the declared attributes one for one, and last, unless the
      model is `project`, the parent attribute. */
  lemma ModelBlocksShape(m: ModelRead)
    requires ModelBlocks(m).Success?
    ensures var ws := ModelBlocks(m).value; var attrs := m.attributes.value;
      && |ws| == 1 + |attrs| + (if IsProject(m) then 0 else 1)
      && ws[0] == TemplateBlock(m.name, m.ident.value, m.parent.value)
      && (forall k :: 0 < k < |ws| ==> ws[k].target.AttributeField?)
      && (forall j :: 0 <= j < |attrs| ==> AttributeBlock(m.name, m.ident.value, attrs[j]) == Success(ws[1 + j]))
      && (!IsProject(m) ==> ws[|ws| - 1] == ParentBlock(m.name, m.parent.value.value))
  {
    ModelBlocksParts(m);
    var ws := ModelBlocks(m).value;
    var attrs := m.attributes.value;
    var declared := AttributeBlocks(m.name, m.ident.value, attrs).value;
    var last := if IsProject(m) then [] else [ParentBlock(m.name, m.parent.value.value)];
    AttributeBlocksOneForOne(m.name, m.ident.value, attrs);
    ThreeParts(ws, TemplateBlock(m.name, m.ident.value, m.parent.value), declared, last);
    forall k | 0 < k < |ws| ensures ws[k].target.AttributeField? {
      if k <= |declared| {
        assert AttributeBlock(m.name, m.ident.value, attrs[k - 1]) == Success(ws[k]);
      } else {
        assert ws[k] == last[0];
      }
    }
  }

  // ---------------------------------------------------------------------------
  // `add_child_attributes`

  /** The fields `add_child_attribute` sets for child model `child`, whose
      `parent_link_type` is `linkType`. */
  function ChildFields(child: string, linkType: Option<string>): Fields {
    var shown := Str(Prettify(child));
    map[AttributeName := Str(child), Name := Str(child), AttributeType := OptJson(linkType), DisplayName := shown, Desc := shown]
  }

  /** `add_child_attribute`: an attribute of the parent named after the child,
      typed with the child's stripped `parent_link_type`. */
  function ChildBlock(model: string, c: ModelRead): (r: Checked<Write>)
    ensures r.Failure? <==> c.linkType.Failure?
  {
    if c.linkType.Failure? then Failure(c.linkType.error)
    else Success(Write(model, AttributeField(c.name), ChildFields(c.name, c.linkType.value)))
  }

  /** `c` is a child of the model named `model`. */
  predicate ChildOf(c: ModelRead, model: string) {
    c.parent == Success(Some(model))
  }

  /** `add_child_attributes`: one child attribute per model whose parent is
      `model` (`models_by_parent[model.name]`), in declaration order. */
  function ChildBlocks(model: string, all: seq<ModelRead>): (r: Checked<seq<Write>>)
    decreases |all|
  {
    if |all| == 0 then Success([])
    else if !ChildOf(all[0], model) then ChildBlocks(model, all[1..])
    else
      var w := ChildBlock(model, all[0]);
      if w.Failure? then Failure(w.error)
      else
        var rest := ChildBlocks(model, all[1..]);
        if rest.Failure? then rest else Success([w.value] + rest.value)
  }

  /** Some child of `model` has an unreadable `parent_link_type`. */
  predicate SomeChildRaises(model: string, all: seq<ModelRead>) {
    exists i :: 0 <= i < |all| && ChildOf(all[i], model) && all[i].linkType.Failure?
  }

  /** Block `w` is the child attribute `model` gets for one of its children. */
  predicate ChildBlockIn(model: string, all: seq<ModelRead>, w: Write) {
    exists i :: 0 <= i < |all| && ChildOf(all[i], model) && ChildBlock(model, all[i]) == Success(w)
  }

  /** Child `c`'s block is among `ws`. */
  predicate HasChildBlock(model: string, c: ModelRead, ws: seq<Write>) {
    exists k :: 0 <= k < |ws| && ChildBlock(model, c) == Success(ws[k])
  }

  /** The child blocks fail exactly when a child's link type cannot be read. */
  lemma {:induction false} ChildBlocksFail(model: string, all: seq<ModelRead>)
    ensures ChildBlocks(model, all).Failure? <==> SomeChildRaises(model, all)
    decreases |all|
  {
    if |all| > 0 {
      var tail := all[1..];
      ChildBlocksFail(model, tail);
      if SomeChildRaises(model, tail) {
        var i :| 0 <= i < |tail| && ChildOf(tail[i], model) && tail[i].linkType.Failure?;
        assert tail[i] == all[i + 1];
      }
      if SomeChildRaises(model, all) && !(ChildOf(all[0], model) && all[0].linkType.Failure?) {
        var i :| 0 <= i < |all| && ChildOf(all[i], model) && all[i].linkType.Failure?;
        assert tail[i - 1] == all[i];
      }
    }
  }

  /** A block one of the later models gets is one the model gets. */
  lemma ChildBlockInTail(model: string, all: seq<ModelRead>, w: Write)
    requires |all| > 0 && ChildBlockIn(model, all[1..], w)
    ensures ChildBlockIn(model, all, w)
  {
    var i :| 0 <= i < |all| - 1 && ChildOf(all[1..][i], model) && ChildBlock(model, all[1..][i]) == Success(w);
    assert all[i + 1] == all[1..][i];
  }

  /** One model's share of the child blocks, in front of the rest's. */
  lemma ChildBlocksStep(model: string, all: seq<ModelRead>)
    requires |all| > 0 && ChildBlocks(model, all).Success?
    ensures ChildBlocks(model, all[1..]).Success?
    ensures ChildOf(all[0], model) ==> ChildBlock(model, all[0]).Success?
    ensures ChildBlocks(model, all).value ==
      (if ChildOf(all[0], model) then [ChildBlock(model, all[0]).value] else []) + ChildBlocks(model, all[1..]).value
  {
  }

  /** Every child block is the block of one of the model's children. */
  lemma {:induction false} ChildBlocksFrom(model: string, all: seq<ModelRead>)
    ensures ChildBlocks(model, all).Success? ==> var ws := ChildBlocks(model, all).value;
      forall k :: 0 <= k < |ws| ==> ChildBlockIn(model, all, ws[k])
    decreases |all|
  {
    if |all| > 0 && ChildBlocks(model, all).Success? {
      ChildBlocksStep(model, all);
      ChildBlocksFrom(model, all[1..]);
      var ws := ChildBlocks(model, all).value;
      var rest := ChildBlocks(model, all[1..]).value;
      var front := |ws| - |rest|;
      forall k | 0 <= k < |ws| ensures ChildBlockIn(model, all, ws[k]) {
        if k < front {
          assert ChildOf(all[0], model) && ChildBlock(model, all[0]) == Success(ws[k]);
        } else {
          assert ws[k] == rest[k - front];
          ChildBlockInTail(model, all, rest[k - front]);
        }
      }
    }
  }

  /** Every child of the model has its block among the child blocks. */
  lemma {:induction false} ChildBlocksCover(model: string, all: seq<ModelRead>)
    ensures ChildBlocks(model, all).Success? ==> var ws := ChildBlocks(model, all).value;
      forall i :: 0 <= i < |all| && ChildOf(all[i], model) ==> HasChildBlock(model, all[i], ws)
    decreases |all|
  {
    if |all| > 0 && ChildBlocks(model, all).Success? {
      var tail := all[1..];
      ChildBlocksStep(model, all);
      ChildBlocksCover(model, tail);
      var ws := ChildBlocks(model, all).value;
      var rest := ChildBlocks(model, tail).value;
      var front := |ws| - |rest|;
      forall i | 0 <= i < |all| && ChildOf(all[i], model) ensures HasChildBlock(model, all[i], ws) {
        if i > 0 {
          assert tail[i - 1] == all[i];
          var k :| 0 <= k < |rest| && ChildBlock(model, tail[i - 1]) == Success(rest[k]);
          assert ws[front + k] == rest[k];
        } else {
          assert ChildBlock(model, all[0]) == Success(ws[0]);
        }
      }
    }
  }

  /** The child blocks fail exactly when a child's link type cannot be read;
      otherwise every block is the block of one of the model's children, and
      every child has its block. */
  lemma ChildBlocksEach(model: string, all: seq<ModelRead>)
    ensures ChildBlocks(model, all).Failure? <==> SomeChildRaises(model, all)
    ensures ChildBlocks(model, all).Success? ==> var ws := ChildBlocks(model, all).value;
      && (forall k :: 0 <= k < |ws| ==> ChildBlockIn(model, all, ws[k]))
      && (forall i :: 0 <= i < |all| && ChildOf(all[i], model) ==> HasChildBlock(model, all[i], ws))
  {
    ChildBlocksFail(model, all);
    ChildBlocksFrom(model, all);
    ChildBlocksCover(model, all);
  }

  // ---------------------------------------------------------------------------
  // The first pass of `get_magma_models`

  /** Every model's `parent_model_name` can be read, so `models_by_parent` does not raise. */
  predicate ParentsRead(all: seq<ModelRead>) {
    forall i :: 0 <= i < |all| ==> all[i].parent.Success?
  }

  /** One model's turn of the loop in `get_magma_models`: `to_magma_model`,
      then `add_child_attributes`, whose `models_by_parent` reads the parent
      of every model. */
  function ModelPass(m: ModelRead, all: seq<ModelRead>): (r: Checked<seq<Write>>)
    ensures r.Failure? <==> ModelCompileRaises(m) || !ParentsRead(all) || SomeChildRaises(m.name, all)
    ensures r.Success? ==> OnModel(r.value, m.name)
  {
    var own := ModelBlocks(m);
    if own.Failure? then own
    else if !ParentsRead(all) then Failure(NoMethodError("strip"))
    else
      var kids := ChildBlocks(m.name, all);
      ChildBlocksEach(m.name, all);
      if kids.Failure? then kids
      else
        assert OnModel(kids.value, m.name) by {
          forall k | 0 <= k < |kids.value| ensures kids.value[k].model == m.name {
            assert ChildBlockIn(m.name, all, kids.value[k]);
          }
        }
        Success(own.value + kids.value)
  }

  /** The loop over `models` in `get_magma_models`. */
  function FirstPass(ms: seq<ModelRead>, all: seq<ModelRead>): (r: Checked<seq<Write>>)
    decreases |ms|
  {
    if |ms| == 0 then Success([])
    else
      var here := ModelPass(ms[0], all);
      if here.Failure? then here
      else
        var rest := FirstPass(ms[1..], all);
        if rest.Failure? then rest else Success(here.value + rest.value)
  }

  /** A model's turn of the loop raises. */
  predicate PassRaises(m: ModelRead, all: seq<ModelRead>) {
    ModelCompileRaises(m) || !ParentsRead(all) || SomeChildRaises(m.name, all)
  }

  /** `ms[i]`'s name is `n`. */
  predicate Named(ms: seq<ModelRead>, n: string) {
    exists i :: 0 <= i < |ms| && ms[i].name == n
  }

  /** No two models share a name. */
  predicate DistinctNames(ms: seq<ModelRead>) {
    forall i, j :: 0 <= i < j < |ms| ==> ms[i].name != ms[j].name
  }

  /** The first pass raises exactly when some model's turn does. */
  lemma {:induction false} FirstPassFails(ms: seq<ModelRead>, all: seq<ModelRead>)
    ensures FirstPass(ms, all).Failure? <==> exists i :: 0 <= i < |ms| && PassRaises(ms[i], all)
    decreases |ms|
  {
    if |ms| > 0 {
      var tail := ms[1..];
      FirstPassFails(tail, all);
      if exists i :: 0 <= i < |tail| && PassRaises(tail[i], all) {
        var i :| 0 <= i < |tail| && PassRaises(tail[i], all);
        assert tail[i] == ms[i + 1];
      }
      if (exists i :: 0 <= i < |ms| && PassRaises(ms[i], all)) && !PassRaises(ms[0], all) {
        var i :| 0 <= i < |ms| && PassRaises(ms[i], all);
        assert tail[i - 1] == ms[i];
      }
    }
  }

  /** Every block of `ws` is on one of the models `ms`. */
  predicate OnModels(ws: seq<Write>, ms: seq<ModelRead>) {
    forall k :: 0 <= k < |ws| ==> Named(ms, ws[k].model)
  }

  lemma OnModelsConcat(a: seq<Write>, b: seq<Write>, ms: seq<ModelRead>)
    requires OnModels(a, ms) && OnModels(b, ms)
    ensures OnModels(a + b, ms)
  {
    assert forall k :: 0 <= k < |a + b| ==> (a + b)[k] == if k < |a| then a[k] else b[k - |a|];
  }

  lemma OnModelsCons(ws: seq<Write>, ms: seq<ModelRead>)
    requires |ms| > 0 && OnModel(ws, ms[0].name)
    ensures OnModels(ws, ms)
  {
    forall k | 0 <= k < |ws| ensures Named(ms, ws[k].model) {
      assert ms[0].name == ws[k].model;
    }
  }

  lemma OnModelsTail(ws: seq<Write>, ms: seq<ModelRead>)
    requires |ms| > 0 && OnModels(ws, ms[1..])
    ensures OnModels(ws, ms)
  {
    forall k | 0 <= k < |ws| ensures Named(ms, ws[k].model) {
      var i :| 0 <= i < |ms[1..]| && ms[1..][i].name == ws[k].model;
      assert ms[i + 1] == ms[1..][i];
    }
  }

  /** Every block of the first pass is on one of the models. */
  lemma {:induction false} FirstPassNamed(ms: seq<ModelRead>, all: seq<ModelRead>)
    requires FirstPass(ms, all).Success?
    ensures OnModels(FirstPass(ms, all).value, ms)
    decreases |ms|
  {
    if |ms| > 0 {
      FirstPassNamed(ms[1..], all);
      var here := ModelPass(ms[0], all).value;
      var rest := FirstPass(ms[1..], all).value;
      OnModelsCons(here, ms);
      OnModelsTail(rest, ms);
      OnModelsConcat(here, rest, ms);
    }
  }

  /** Every model gets blocks in the first pass (its template block at least). */
  lemma {:induction false} FirstPassTouches(ms: seq<ModelRead>, all: seq<ModelRead>)
    requires FirstPass(ms, all).Success?
    ensures forall i :: 0 <= i < |ms| ==> Touches(FirstPass(ms, all).value, ms[i].name)
    decreases |ms|
  {
    if |ms| > 0 {
      var tail := ms[1..];
      FirstPassTouches(tail, all);
      var here := ModelPass(ms[0], all).value;
      var rest := FirstPass(tail, all).value;
      var ws := here + rest;
      ModelBlocksShape(ms[0]);
      forall i | 0 <= i < |ms| ensures Touches(ws, ms[i].name) {
        if i == 0 {
          assert ws[0] == here[0];
        } else {
          assert tail[i - 1] == ms[i];
          var k :| 0 <= k < |rest| && rest[k].model == tail[i - 1].name;
          assert ws[|here| + k] == rest[k];
        }
      }
    }
  }

  /** The first model's turn, in front of the later models' turns. */
  lemma FirstPassStep(ms: seq<ModelRead>, all: seq<ModelRead>)
    requires |ms| > 0 && FirstPass(ms, all).Success?
    ensures ModelPass(ms[0], all).Success? && FirstPass(ms[1..], all).Success?
    ensures FirstPass(ms, all).value == ModelPass(ms[0], all).value + FirstPass(ms[1..], all).value
  {
  }

  lemma DistinctTail(ms: seq<ModelRead>)
    requires |ms| > 0 && DistinctNames(ms)
    ensures DistinctNames(ms[1..])
  {
    var tail := ms[1..];
    forall x, y | 0 <= x < y < |tail| ensures tail[x].name != tail[y].name {
      assert tail[x] == ms[x + 1] && tail[y] == ms[y + 1];
    }
  }

  /** The later models' turns leave the first model's slots alone. */
  lemma LaterPassesMiss(ms: seq<ModelRead>, all: seq<ModelRead>, at: Slot)
    requires |ms| > 0 && DistinctNames(ms) && FirstPass(ms[1..], all).Success? && at.model == ms[0].name
    ensures !WritesTo(FirstPass(ms[1..], all).value, at)
  {
    var tail := ms[1..];
    var rest := FirstPass(tail, all).value;
    FirstPassNamed(tail, all);
    forall k | 0 <= k < |rest| ensures !Sets(rest[k], at) {
      assert Named(tail, rest[k].model);
      var j :| 0 <= j < |tail| && tail[j].name == rest[k].model;
      assert tail[j] == ms[j + 1];
    }
  }

  /** With distinct names, what the first pass leaves in a slot of model
      `ms[i]` is what `ms[i]`'s own turn leaves there: no other turn touches
      that model. */
  lemma {:induction false} FirstPassOwner(ms: seq<ModelRead>, all: seq<ModelRead>, i: nat, at: Slot, d: Option<Json>)
    requires FirstPass(ms, all).Success?
    requires DistinctNames(ms) && i < |ms| && at.model == ms[i].name
    ensures ModelPass(ms[i], all).Success?
    ensures LastValue(FirstPass(ms, all).value, at, d) == LastValue(ModelPass(ms[i], all).value, at, d)
    decreases |ms|
  {
    FirstPassStep(ms, all);
    var here := ModelPass(ms[0], all).value;
    var rest := FirstPass(ms[1..], all).value;
    LastValueConcat(here, rest, at, d);
    if i == 0 {
      LaterPassesMiss(ms, all, at);
      LastValueMiss(rest, at, LastValue(here, at, d));
    } else {
      DistinctTail(ms);
      assert ms[1..][i - 1] == ms[i];
      FirstPassOwner(ms[1..], all, i - 1, at, d);
      assert !WritesTo(here, at) by {
        forall k | 0 <= k < |here| ensures !Sets(here[k], at) {
          assert here[k].model == ms[0].name;
        }
      }
      LastValueMiss(here, at, d);
    }
  }

  // ---------------------------------------------------------------------------
  // `add_reciprocal_link_attributes`

  /** The fields `add_reciprocal_link_attribute` sets for a link declared on
      model `source`: a `collection` named after `source`, linking back to it. */
  function ReciprocalFields(source: string): Fields {
    var shown := Str(Prettify(source));
    map[AttributeName := Str(source), Name := Str(source), AttributeType := Str("collection"),
        DisplayName := shown, Desc := shown, LinkModelName := Str(source)]
  }

  /** The reciprocal attribute the link target `target` gets for model `source`. */
  function ReciprocalBlock(target: string, source: string): Write {
    Write(target, AttributeField(source), ReciprocalFields(source))
  }

  /** Attribute `x` is a link to model `t`. */
  predicate IsLinkTo(x: AttributeRead, t: string) {
    x.attributeType == Success(Some("link")) && x.linkModelName == Success(Some(t))
  }

  /** One of the attributes `xs` is a link to `t`. */
  predicate LinksIn(xs: seq<AttributeRead>, t: string) {
    exists j :: 0 <= j < |xs| && IsLinkTo(xs[j], t)
  }

  /** Model `m` declares a link to `t`. */
  predicate LinksTo(m: ModelRead, t: string) {
    m.attributes.Success? && LinksIn(m.attributes.value, t)
  }

  /** Attribute `x` raises in `add_reciprocal_link_attributes`: its type cannot
      be read, or it is a link whose target cannot be read or names no model
      (`fetch_model` answers nil, and `nil.name` raises). */
  predicate LinkRaises(x: AttributeRead, all: seq<ModelRead>) {
    || x.attributeType.Failure?
    || (x.attributeType.value == Some("link") &&
         (x.linkModelName.Failure? || x.linkModelName.value.None? || !Named(all, x.linkModelName.value.value)))
  }

  /** The reciprocal blocks for the link attributes among `xs`, declared on
      model `source`, in declaration order. */
  function LinkBlocks(source: string, xs: seq<AttributeRead>, all: seq<ModelRead>): (r: Checked<seq<Write>>)
    decreases |xs|
  {
    if |xs| == 0 then Success([])
    else
      var x := xs[0];
      if x.attributeType.Failure? then Failure(x.attributeType.error)
      else if x.attributeType.value != Some("link") then LinkBlocks(source, xs[1..], all)
      else if x.linkModelName.Failure? then Failure(x.linkModelName.error)
      else if x.linkModelName.value.None? || !Named(all, x.linkModelName.value.value) then Failure(NoMethodError("name"))
      else
        var rest := LinkBlocks(source, xs[1..], all);
        if rest.Failure? then rest else Success([ReciprocalBlock(x.linkModelName.value.value, source)] + rest.value)
  }

  lemma {:induction false} LinkBlocksFail(source: string, xs: seq<AttributeRead>, all: seq<ModelRead>)
    ensures LinkBlocks(source, xs, all).Failure? <==> exists j :: 0 <= j < |xs| && LinkRaises(xs[j], all)
    decreases |xs|
  {
    if |xs| > 0 {
      var tail := xs[1..];
      LinkBlocksFail(source, tail, all);
      if exists j :: 0 <= j < |tail| && LinkRaises(tail[j], all) {
        var j :| 0 <= j < |tail| && LinkRaises(tail[j], all);
        assert tail[j] == xs[j + 1];
      }
      if (exists j :: 0 <= j < |xs| && LinkRaises(xs[j], all)) && !LinkRaises(xs[0], all) {
        var j :| 0 <= j < |xs| && LinkRaises(xs[j], all);
        assert tail[j - 1] == xs[j];
      }
    }
  }

  /** Block `w` is the reciprocal, on an existing model, of one of the links among `xs`. */
  predicate ReciprocalFrom(w: Write, source: string, xs: seq<AttributeRead>, all: seq<ModelRead>) {
    w == ReciprocalBlock(w.model, source) && LinksIn(xs, w.model) && Named(all, w.model)
  }

  lemma {:induction false} LinkBlocksFrom(source: string, xs: seq<AttributeRead>, all: seq<ModelRead>)
    requires LinkBlocks(source, xs, all).Success?
    ensures forall k :: 0 <= k < |LinkBlocks(source, xs, all).value| ==>
      ReciprocalFrom(LinkBlocks(source, xs, all).value[k], source, xs, all)
    decreases |xs|
  {
    if |xs| > 0 {
      var tail := xs[1..];
      LinkBlocksFrom(source, tail, all);
      var ws := LinkBlocks(source, xs, all).value;
      var rest := LinkBlocks(source, tail, all).value;
      var link := xs[0].attributeType.value == Some("link");
      assert ws == if link then [ReciprocalBlock(xs[0].linkModelName.value.value, source)] + rest else rest;
      forall k | 0 <= k < |ws| ensures ReciprocalFrom(ws[k], source, xs, all) {
        if link && k == 0 {
          assert IsLinkTo(xs[0], ws[0].model);
        } else {
          var k' := if link then k - 1 else k;
          assert ws[k] == rest[k'];
          assert LinksIn(tail, rest[k'].model);
          var j :| 0 <= j < |tail| && IsLinkTo(tail[j], rest[k'].model);
          assert tail[j] == xs[j + 1];
        }
      }
    }
  }

  /** A link among the later attributes is a link among all of them. */
  lemma LinksInTail(xs: seq<AttributeRead>, t: string)
    requires |xs| > 0 && LinksIn(xs, t) && !IsLinkTo(xs[0], t)
    ensures LinksIn(xs[1..], t)
  {
    var j :| 0 <= j < |xs| && IsLinkTo(xs[j], t);
    assert xs[1..][j - 1] == xs[j];
  }

  /** One attribute's share of the reciprocal blocks, in front of the rest's. */
  lemma LinkBlocksStep(source: string, xs: seq<AttributeRead>, all: seq<ModelRead>)
    requires |xs| > 0 && LinkBlocks(source, xs, all).Success?
    ensures LinkBlocks(source, xs[1..], all).Success?
    ensures LinkBlocks(source, xs, all).value ==
      (if xs[0].attributeType.value == Some("link") then [ReciprocalBlock(xs[0].linkModelName.value.value, source)] else [])
      + LinkBlocks(source, xs[1..], all).value
  {
  }

  lemma {:induction false} LinkBlocksHas(source: string, xs: seq<AttributeRead>, all: seq<ModelRead>, t: string)
    requires LinkBlocks(source, xs, all).Success? && LinksIn(xs, t)
    ensures ReciprocalBlock(t, source) in LinkBlocks(source, xs, all).value
    decreases |xs|
  {
    LinkBlocksStep(source, xs, all);
    if !IsLinkTo(xs[0], t) {
      LinksInTail(xs, t);
      LinkBlocksHas(source, xs[1..], all, t);
    }
  }

  /** `add_reciprocal_link_attributes`: for every model in turn and every
      attribute of type `link` on it, the reciprocal attribute on the target. */
  function ReciprocalBlocks(ms: seq<ModelRead>, all: seq<ModelRead>): (r: Checked<seq<Write>>)
    decreases |ms|
  {
    if |ms| == 0 then Success([])
    else if ms[0].attributes.Failure? then Failure(ms[0].attributes.error)
    else
      var here := LinkBlocks(ms[0].name, ms[0].attributes.value, all);
      if here.Failure? then here
      else
        var rest := ReciprocalBlocks(ms[1..], all);
        if rest.Failure? then rest else Success(here.value + rest.value)
  }

  /** Model `m`'s part of the reciprocal pass raises. */
  predicate LinksRaise(m: ModelRead, all: seq<ModelRead>) {
    m.attributes.Failure? || exists j :: 0 <= j < |m.attributes.value| && LinkRaises(m.attributes.value[j], all)
  }

  lemma {:induction false} ReciprocalFail(ms: seq<ModelRead>, all: seq<ModelRead>)
    ensures ReciprocalBlocks(ms, all).Failure? <==> exists i :: 0 <= i < |ms| && LinksRaise(ms[i], all)
    decreases |ms|
  {
    if |ms| > 0 {
      var tail := ms[1..];
      ReciprocalFail(tail, all);
      if ms[0].attributes.Success? {
        LinkBlocksFail(ms[0].name, ms[0].attributes.value, all);
      }
      if exists i :: 0 <= i < |tail| && LinksRaise(tail[i], all) {
        var i :| 0 <= i < |tail| && LinksRaise(tail[i], all);
        assert tail[i] == ms[i + 1];
      }
      if (exists i :: 0 <= i < |ms| && LinksRaise(ms[i], all)) && !LinksRaise(ms[0], all) {
        var i :| 0 <= i < |ms| && LinksRaise(ms[i], all);
        assert tail[i - 1] == ms[i];
      }
    }
  }

  /** Block `w` is the reciprocal of a link declared on one of the models `ms`. */
  predicate ReciprocalOf(w: Write, ms: seq<ModelRead>, all: seq<ModelRead>) {
    exists i :: 0 <= i < |ms| && w == ReciprocalBlock(w.model, ms[i].name) && LinksTo(ms[i], w.model) && Named(all, w.model)
  }

  /** Every block of `ws` is the reciprocal of a link declared on one of `ms`. */
  predicate ReciprocalsOf(ws: seq<Write>, ms: seq<ModelRead>, all: seq<ModelRead>) {
    forall k :: 0 <= k < |ws| ==> ReciprocalOf(ws[k], ms, all)
  }

  lemma ReciprocalsConcat(a: seq<Write>, b: seq<Write>, ms: seq<ModelRead>, all: seq<ModelRead>)
    requires ReciprocalsOf(a, ms, all) && ReciprocalsOf(b, ms, all)
    ensures ReciprocalsOf(a + b, ms, all)
  {
    assert forall k :: 0 <= k < |a + b| ==> (a + b)[k] == if k < |a| then a[k] else b[k - |a|];
  }

  lemma ReciprocalsHead(ws: seq<Write>, ms: seq<ModelRead>, all: seq<ModelRead>)
    requires |ms| > 0 && ms[0].attributes.Success?
    requires forall k :: 0 <= k < |ws| ==> ReciprocalFrom(ws[k], ms[0].name, ms[0].attributes.value, all)
    ensures ReciprocalsOf(ws, ms, all)
  {
    forall k | 0 <= k < |ws| ensures ReciprocalOf(ws[k], ms, all) {
      assert ReciprocalFrom(ws[k], ms[0].name, ms[0].attributes.value, all);
    }
  }

  lemma ReciprocalsTail(ws: seq<Write>, ms: seq<ModelRead>, all: seq<ModelRead>)
    requires |ms| > 0 && ReciprocalsOf(ws, ms[1..], all)
    ensures ReciprocalsOf(ws, ms, all)
  {
    forall k | 0 <= k < |ws| ensures ReciprocalOf(ws[k], ms, all) {
      var w := ws[k];
      var i :| 0 <= i < |ms[1..]| && w == ReciprocalBlock(w.model, ms[1..][i].name) && LinksTo(ms[1..][i], w.model) && Named(all, w.model);
      assert ms[i + 1] == ms[1..][i];
    }
  }

  /** Every reciprocal block comes from a link declared on one of the models. */
  lemma {:induction false} ReciprocalSources(ms: seq<ModelRead>, all: seq<ModelRead>)
    requires ReciprocalBlocks(ms, all).Success?
    ensures ReciprocalsOf(ReciprocalBlocks(ms, all).value, ms, all)
    decreases |ms|
  {
    if |ms| > 0 {
      ReciprocalSources(ms[1..], all);
      LinkBlocksFrom(ms[0].name, ms[0].attributes.value, all);
      var here := LinkBlocks(ms[0].name, ms[0].attributes.value, all).value;
      var rest := ReciprocalBlocks(ms[1..], all).value;
      ReciprocalsHead(here, ms, all);
      ReciprocalsTail(rest, ms, all);
      ReciprocalsConcat(here, rest, ms, all);
    }
  }

  lemma {:induction false} ReciprocalHas(ms: seq<ModelRead>, all: seq<ModelRead>, i: nat, t: string)
    requires ReciprocalBlocks(ms, all).Success? && i < |ms| && LinksTo(ms[i], t)
    ensures ReciprocalBlock(t, ms[i].name) in ReciprocalBlocks(ms, all).value
    decreases |ms|
  {
    var here := LinkBlocks(ms[0].name, ms[0].attributes.value, all).value;
    var rest := ReciprocalBlocks(ms[1..], all).value;
    assert ReciprocalBlocks(ms, all).value == here + rest;
    if i == 0 {
      LinkBlocksHas(ms[0].name, ms[0].attributes.value, all, t);
    } else {
      assert ms[1..][i - 1] == ms[i];
      ReciprocalHas(ms[1..], all, i - 1, t);
    }
  }

  // ---------------------------------------------------------------------------
  // `JsonProject#get_magma_models`

  /** Every setter block `get_magma_models` runs, in order: the loop over the
      models, then the reciprocal links. */
  function CompileBlocks(ms: seq<ModelRead>): Checked<seq<Write>> {
    var first := FirstPass(ms, ms);
    if first.Failure? then first
    else
      var links := ReciprocalBlocks(ms, ms);
      if links.Failure? then links else Success(first.value + links.value)
  }

  /** `get_magma_models` on the models as read: it raises exactly when some
      model's turn of the loop raises or some attribute's reciprocal link does,
      and otherwise answers the model set the blocks build. */
  function Compile(ms: seq<ModelRead>): (r: Checked<Built>)
    ensures r.Failure? <==>
      (exists i :: 0 <= i < |ms| && PassRaises(ms[i], ms)) || (exists i :: 0 <= i < |ms| && LinksRaise(ms[i], ms))
  {
    FirstPassFails(ms, ms);
    ReciprocalFail(ms, ms);
    var ws := CompileBlocks(ms);
    if ws.Failure? then Failure(ws.error) else Success(ApplyAll([], ws.value))
  }

  /** `JsonProject#get_magma_models`. */
  function GetMagmaModels(models: seq<JsonModel>): Checked<Built> {
    Compile(ReadModels(models))
  }

  /** The blocks of a compilation that does not raise: the first pass, then the links. */
  lemma CompileBlocksParts(ms: seq<ModelRead>)
    requires CompileBlocks(ms).Success?
    ensures FirstPass(ms, ms).Success? && ReciprocalBlocks(ms, ms).Success?
    ensures CompileBlocks(ms).value == FirstPass(ms, ms).value + ReciprocalBlocks(ms, ms).value
  {
  }

  /** Every reciprocal block is on one of the models: links name existing models. */
  lemma ReciprocalsNamed(ms: seq<ModelRead>)
    requires ReciprocalBlocks(ms, ms).Success?
    ensures OnModels(ReciprocalBlocks(ms, ms).value, ms)
  {
    var links := ReciprocalBlocks(ms, ms).value;
    ReciprocalSources(ms, ms);
    forall k | 0 <= k < |links| ensures Named(ms, links[k].model) {
      assert ReciprocalOf(links[k], ms, ms);
    }
  }

  /** Every block `get_magma_models` runs is on one of the models. */
  lemma CompileBlocksNamed(ms: seq<ModelRead>, k: nat)
    requires CompileBlocks(ms).Success? && k < |CompileBlocks(ms).value|
    ensures Named(ms, CompileBlocks(ms).value[k].model)
  {
    CompileBlocksParts(ms);
    var first := FirstPass(ms, ms).value;
    var links := ReciprocalBlocks(ms, ms).value;
    FirstPassNamed(ms, ms);
    ReciprocalsNamed(ms);
    OnModelsConcat(first, links, ms);
  }

  /** Every model gets a block. */
  lemma CompileBlocksTouch(ms: seq<ModelRead>, i: nat)
    requires CompileBlocks(ms).Success? && i < |ms|
    ensures Touches(CompileBlocks(ms).value, ms[i].name)
  {
    CompileBlocksParts(ms);
    var first := FirstPass(ms, ms).value;
    FirstPassTouches(ms, ms);
    var k :| 0 <= k < |first| && first[k].model == ms[i].name;
    assert CompileBlocks(ms).value[k] == first[k];
  }

  /** A name is a model of the compiled set exactly when it is one of the models. */
  lemma CompiledModelName(ms: seq<ModelRead>, n: string)
    requires Compile(ms).Success?
    ensures n in Keys(Compile(ms).value) <==> Named(ms, n)
  {
    var ws := CompileBlocks(ms).value;
    ModelsCreated([], ws, n);
    if Named(ms, n) {
      var i :| 0 <= i < |ms| && ms[i].name == n;
      CompileBlocksTouch(ms, i);
    }
    if Touches(ws, n) {
      var k :| 0 <= k < |ws| && ws[k].model == n;
      CompileBlocksNamed(ms, k);
    }
  }

  /** The compiled model set has a model for each model of the project and no other. */
  lemma CompiledModelNames(ms: seq<ModelRead>)
    requires Compile(ms).Success?
    ensures forall n :: n in Keys(Compile(ms).value) <==> Named(ms, n)
  {
    forall n ensures n in Keys(Compile(ms).value) <==> Named(ms, n) {
      CompiledModelName(ms, n);
    }
  }

  /** No reciprocal block is on a template's own fields. */
  lemma ReciprocalsOnAttributes(ms: seq<ModelRead>, at: Slot, d: Option<Json>)
    requires ReciprocalBlocks(ms, ms).Success? && at.target == TemplateField
    ensures LastValue(ReciprocalBlocks(ms, ms).value, at, d) == d
  {
    var links := ReciprocalBlocks(ms, ms).value;
    ReciprocalSources(ms, ms);
    assert !WritesTo(links, at) by {
      forall k | 0 <= k < |links| ensures !Sets(links[k], at) {
        assert ReciprocalOf(links[k], ms, ms);
      }
    }
    LastValueMiss(links, at, d);
  }

  /** A model's own turn leaves its template's `identifier` and `parent` as it read them. */
  lemma ModelPassTemplate(m: ModelRead, all: seq<ModelRead>, f: Field, d: Option<Json>)
    requires ModelPass(m, all).Success? && (f == Identifier || f == Parent)
    ensures LastValue(ModelPass(m, all).value, Slot(m.name, TemplateField, f), d) ==
            Some(TemplateBlock(m.name, m.ident.value, m.parent.value).fields[f])
  {
    var at := Slot(m.name, TemplateField, f);
    var own := ModelBlocks(m).value;
    var kids := ChildBlocks(m.name, all).value;
    var v := TemplateBlock(m.name, m.ident.value, m.parent.value).fields[f];
    ModelBlocksShape(m);
    ChildBlocksEach(m.name, all);
    LastValueConcat(own, kids, at, d);
    assert Sets(own[0], at);
    LastValueAgreed(own, at, v, d);
    assert !WritesTo(kids, at) by {
      forall k | 0 <= k < |kids| ensures !Sets(kids[k], at) {
        assert ChildBlockIn(m.name, all, kids[k]);
      }
    }
    LastValueMiss(kids, at, Some(v));
  }

  /** With distinct model names, each compiled template holds the model's own
      stripped `identifier` and `parent_model_name`. */
  lemma CompiledTemplate(ms: seq<ModelRead>, i: nat, f: Field)
    requires Compile(ms).Success? && DistinctNames(ms) && i < |ms| && (f == Identifier || f == Parent)
    requires ms[i].ident.Success? && ms[i].parent.Success?
    ensures FieldOf(Compile(ms).value, Slot(ms[i].name, TemplateField, f)) ==
            Some(if f == Identifier then OptJson(ms[i].ident.value) else OptJson(ms[i].parent.value))
  {
    var at := Slot(ms[i].name, TemplateField, f);
    var first := FirstPass(ms, ms).value;
    var links := ReciprocalBlocks(ms, ms).value;
    LastWriteWins([], first + links, at);
    LastValueConcat(first, links, at, None);
    ReciprocalsOnAttributes(ms, at, LastValue(first, at, None));
    FirstPassOwner(ms, ms, i, at, None);
    ModelPassTemplate(ms[i], ms, f, None);
  }

  /** No reciprocal block sets an attribute named after a model that declares
      no link to the attribute's model. */
  lemma ReciprocalsMiss(ms: seq<ModelRead>, c: nat, at: Slot, d: Option<Json>)
    requires ReciprocalBlocks(ms, ms).Success? && DistinctNames(ms) && c < |ms|
    requires at.target == AttributeField(ms[c].name) && !LinksTo(ms[c], at.model)
    ensures LastValue(ReciprocalBlocks(ms, ms).value, at, d) == d
  {
    var links := ReciprocalBlocks(ms, ms).value;
    ReciprocalSources(ms, ms);
    assert !WritesTo(links, at) by {
      forall k | 0 <= k < |links| ensures !Sets(links[k], at) {
        assert ReciprocalOf(links[k], ms, ms);
      }
    }
    LastValueMiss(links, at, d);
  }

  /** In a model's own turn, the attribute named after child `all[c]` ends with
      the value `add_child_attribute` sets: no other block of the turn sets it. */
  lemma PassChildAttribute(m: ModelRead, all: seq<ModelRead>, c: nat, f: Field, d: Option<Json>)
    requires ModelPass(m, all).Success? && DistinctNames(all) && c < |all|
    requires ChildOf(all[c], m.name) && all[c].linkType.Success?
    requires f in ChildFields(all[c].name, all[c].linkType.value)
    ensures LastValue(ModelPass(m, all).value, Slot(m.name, AttributeField(all[c].name), f), d) ==
            Some(ChildFields(all[c].name, all[c].linkType.value)[f])
  {
    var at := Slot(m.name, AttributeField(all[c].name), f);
    var v := ChildFields(all[c].name, all[c].linkType.value)[f];
    var own := ModelBlocks(m).value;
    var kids := ChildBlocks(m.name, all).value;
    assert ModelPass(m, all).value == own + kids;
    LastValueConcat(own, kids, at, d);
    ChildBlocksCover(m.name, all);
    ChildBlocksFrom(m.name, all);
    assert HasChildBlock(m.name, all[c], kids);
    forall k | 0 <= k < |kids| && Sets(kids[k], at) ensures kids[k].fields[at.field] == v {
      assert ChildBlockIn(m.name, all, kids[k]);
      var j :| 0 <= j < |all| && ChildOf(all[j], m.name) && ChildBlock(m.name, all[j]) == Success(kids[k]);
      assert all[j].name == all[c].name;
    }
    LastValueAgreed(kids, at, v, LastValue(own, at, d));
  }

  /** With distinct model names, a model's child attribute holds what
      `add_child_attribute` set, unless the child declares a link to that
      parent, which the validation rejects (json_models.rb:159) and whose
      reciprocal replaces it. */
  lemma CompiledChildAttribute(ms: seq<ModelRead>, p: nat, c: nat, f: Field)
    requires Compile(ms).Success? && DistinctNames(ms) && p < |ms| && c < |ms|
    requires ChildOf(ms[c], ms[p].name) && ms[c].linkType.Success? && !LinksTo(ms[c], ms[p].name)
    requires f in ChildFields(ms[c].name, ms[c].linkType.value)
    ensures FieldOf(Compile(ms).value, Slot(ms[p].name, AttributeField(ms[c].name), f)) ==
            Some(ChildFields(ms[c].name, ms[c].linkType.value)[f])
  {
    var at := Slot(ms[p].name, AttributeField(ms[c].name), f);
    var first := FirstPass(ms, ms).value;
    var links := ReciprocalBlocks(ms, ms).value;
    LastWriteWins([], first + links, at);
    LastValueConcat(first, links, at, None);
    ReciprocalsMiss(ms, c, at, LastValue(first, at, None));
    FirstPassOwner(ms, ms, p, at, None);
    PassChildAttribute(ms[p], ms, c, f, None);
  }

  /** Every reciprocal block for the attribute named after `ms[i]` on model
      `t` stores the same fields, so the last of them leaves those. */
  lemma ReciprocalsAgree(ms: seq<ModelRead>, i: nat, t: string, f: Field, d: Option<Json>)
    requires ReciprocalBlocks(ms, ms).Success? && i < |ms| && LinksTo(ms[i], t) && f in ReciprocalFields(ms[i].name)
    ensures LastValue(ReciprocalBlocks(ms, ms).value, Slot(t, AttributeField(ms[i].name), f), d) ==
            Some(ReciprocalFields(ms[i].name)[f])
  {
    var at := Slot(t, AttributeField(ms[i].name), f);
    var v := ReciprocalFields(ms[i].name)[f];
    var links := ReciprocalBlocks(ms, ms).value;
    ReciprocalHas(ms, ms, i, t);
    assert WritesTo(links, at) by {
      var k :| 0 <= k < |links| && links[k] == ReciprocalBlock(t, ms[i].name);
      assert Sets(links[k], at);
    }
    ReciprocalSources(ms, ms);
    forall k | 0 <= k < |links| && Sets(links[k], at) ensures links[k].fields[at.field] == v {
      assert ReciprocalOf(links[k], ms, ms);
    }
    LastValueAgreed(links, at, v, d);
  }

  /** A link always leaves its reciprocal `collection` attribute on the target
      model: every block for that slot stores the same fields, so whatever ran
      before, the last of them wins. */
  lemma CompiledReciprocal(ms: seq<ModelRead>, i: nat, t: string, f: Field)
    requires Compile(ms).Success? && i < |ms| && LinksTo(ms[i], t) && f in ReciprocalFields(ms[i].name)
    ensures FieldOf(Compile(ms).value, Slot(t, AttributeField(ms[i].name), f)) == Some(ReciprocalFields(ms[i].name)[f])
  {
    var at := Slot(t, AttributeField(ms[i].name), f);
    CompileBlocksParts(ms);
    var first := FirstPass(ms, ms).value;
    var links := ReciprocalBlocks(ms, ms).value;
    LastWriteWins([], first + links, at);
    LastValueConcat(first, links, at, None);
    ReciprocalsAgree(ms, i, t, f, LastValue(first, at, None));
  }

  // ---------------------------------------------------------------------------
  // The parent attribute

  /** When every block setting a slot stores `v` and the slot already holds
      `v`, it still holds `v` afterwards. */
  lemma LastValueKept(ws: seq<Write>, at: Slot, v: Json)
    requires forall i :: 0 <= i < |ws| && Sets(ws[i], at) ==> ws[i].fields[at.field] == v
    ensures LastValue(ws, at, Some(v)) == Some(v)
  {
    if WritesTo(ws, at) {
      LastValueAgreed(ws, at, v, Some(v));
    } else {
      LastValueMiss(ws, at, Some(v));
    }
  }

  /** The fields `add_parent_attribute` sets that no later block of the
      compilation stores differently: both names, the link target and the
      display fields. */
  predicate ParentNamingField(f: Field) {
    f == AttributeName || f == Name || f == LinkModelName || f == DisplayName || f == Desc
  }

  /** The naming fields of the parent attribute for parent `p`. */
  lemma ParentBlockValues(model: string, p: string, f: Field)
    requires ParentNamingField(f)
    ensures f == AttributeName || f == Name || f == LinkModelName ==> ParentBlock(model, p).fields[f] == Str(p)
    ensures f == DisplayName || f == Desc ==> ParentBlock(model, p).fields[f] == Str(Prettify(p))
  {
  }

  /** A child attribute or a reciprocal link for a model named `p` stores in
      a naming field what the parent attribute for `p` stores there. */
  lemma ParentFieldsAgree(model: string, p: string, linkType: Option<string>, f: Field)
    requires ParentNamingField(f)
    ensures f in ParentBlock(model, p).fields && f in ReciprocalFields(p)
    ensures ReciprocalFields(p)[f] == ParentBlock(model, p).fields[f]
    ensures f in ChildFields(p, linkType) ==> ChildFields(p, linkType)[f] == ParentBlock(model, p).fields[f]
  {
  }

  /** In a model's own turn, the attribute named after its parent keeps the
      names, link target and display fields `add_parent_attribute` sets: the
      only later blocks on it are child attributes for a child of the same
      name, which store the same names and display fields. */
  lemma PassParentFields(m: ModelRead, all: seq<ModelRead>, f: Field, d: Option<Json>)
    requires ModelPass(m, all).Success? && !IsProject(m) && ParentNamingField(f)
    ensures m.parent.Success? && m.parent.value.Some?
    ensures LastValue(ModelPass(m, all).value, Slot(m.name, AttributeField(m.parent.value.value), f), d) ==
            Some(ParentBlock(m.name, m.parent.value.value).fields[f])
  {
    var p := m.parent.value.value;
    var at := Slot(m.name, AttributeField(p), f);
    var v := ParentBlock(m.name, p).fields[f];
    var own := ModelBlocks(m).value;
    var kids := ChildBlocks(m.name, all).value;
    assert ModelPass(m, all).value == own + kids;
    ModelBlocksShape(m);
    assert own[|own| - 1] == ParentBlock(m.name, p) && Sets(own[|own| - 1], at);
    assert LastValue(own, at, d) == Some(v);
    LastValueConcat(own, kids, at, d);
    ChildBlocksFail(m.name, all);
    ChildBlocksFrom(m.name, all);
    forall k | 0 <= k < |kids| && Sets(kids[k], at) ensures kids[k].fields[at.field] == v {
      assert ChildBlockIn(m.name, all, kids[k]);
      var j :| 0 <= j < |all| && ChildOf(all[j], m.name) && ChildBlock(m.name, all[j]) == Success(kids[k]);
      assert all[j].name == p;
      ParentFieldsAgree(m.name, p, all[j].linkType.value, f);
    }
    LastValueKept(kids, at, v);
  }

  /** In a model's own turn, the attribute named after its parent ends typed
      `parent`, unless a model of that name is also a child of the model: its
      child attribute comes later and types it with that child's
      `parent_link_type`. */
  lemma PassParentType(m: ModelRead, all: seq<ModelRead>, d: Option<Json>)
    requires ModelPass(m, all).Success? && !IsProject(m) && DistinctNames(all)
    ensures m.parent.Success? && m.parent.value.Some?
    ensures var v := LastValue(ModelPass(m, all).value, Slot(m.name, AttributeField(m.parent.value.value), AttributeType), d);
      && ((forall k :: 0 <= k < |all| && all[k].name == m.parent.value.value ==> !ChildOf(all[k], m.name)) ==>
            v == Some(Str("parent")))
      && (forall k :: 0 <= k < |all| && all[k].name == m.parent.value.value && ChildOf(all[k], m.name) ==>
            all[k].linkType.Success? && v == Some(OptJson(all[k].linkType.value)))
  {
    var p := m.parent.value.value;
    var at := Slot(m.name, AttributeField(p), AttributeType);
    var own := ModelBlocks(m).value;
    var kids := ChildBlocks(m.name, all).value;
    assert ModelPass(m, all).value == own + kids;
    ModelBlocksShape(m);
    assert own[|own| - 1] == ParentBlock(m.name, p) && Sets(own[|own| - 1], at);
    assert LastValue(own, at, d) == Some(Str("parent"));
    LastValueConcat(own, kids, at, d);
    ChildBlocksEach(m.name, all);
    if k :| 0 <= k < |all| && all[k].name == p && ChildOf(all[k], m.name) {
      assert all[k].linkType.Success?;
      var v := OptJson(all[k].linkType.value);
      assert HasChildBlock(m.name, all[k], kids);
      assert WritesTo(kids, at) by {
        var x :| 0 <= x < |kids| && ChildBlock(m.name, all[k]) == Success(kids[x]);
        assert Sets(kids[x], at);
      }
      forall x | 0 <= x < |kids| && Sets(kids[x], at) ensures kids[x].fields[at.field] == v {
        assert ChildBlockIn(m.name, all, kids[x]);
        var j :| 0 <= j < |all| && ChildOf(all[j], m.name) && ChildBlock(m.name, all[j]) == Success(kids[x]);
        assert all[j].name == p;
        assert j == k;
      }
      LastValueAgreed(kids, at, v, LastValue(own, at, d));
    } else {
      assert !WritesTo(kids, at) by {
        forall x | 0 <= x < |kids| ensures !Sets(kids[x], at) {
          assert ChildBlockIn(m.name, all, kids[x]);
        }
      }
      LastValueMiss(kids, at, LastValue(own, at, d));
    }
  }

  /** With distinct model names, a naming field of the parent attribute holds
      what `add_parent_attribute` stored. */
  lemma CompiledParentField(ms: seq<ModelRead>, c: nat, f: Field)
    requires Compile(ms).Success? && DistinctNames(ms) && c < |ms| && !IsProject(ms[c]) && ParentNamingField(f)
    ensures ms[c].parent.Success? && ms[c].parent.value.Some?
    ensures FieldOf(Compile(ms).value, Slot(ms[c].name, AttributeField(ms[c].parent.value.value), f)) ==
            Some(ParentBlock(ms[c].name, ms[c].parent.value.value).fields[f])
  {
    CompileBlocksParts(ms);
    FirstPassOwner(ms, ms, c, Slot(ms[c].name, TemplateField, Identifier), None);
    var p := ms[c].parent.value.value;
    var at := Slot(ms[c].name, AttributeField(p), f);
    var v := ParentBlock(ms[c].name, p).fields[f];
    var first := FirstPass(ms, ms).value;
    var links := ReciprocalBlocks(ms, ms).value;
    LastWriteWins([], first + links, at);
    LastValueConcat(first, links, at, None);
    FirstPassOwner(ms, ms, c, at, None);
    PassParentFields(ms[c], ms, f, None);
    ReciprocalSources(ms, ms);
    ParentFieldsAgree(ms[c].name, p, None, f);
    forall k | 0 <= k < |links| && Sets(links[k], at) ensures links[k].fields[at.field] == v {
      assert ReciprocalOf(links[k], ms, ms);
    }
    LastValueKept(links, at, v);
  }

  /** With distinct model names, every model other than `project` gets the
      attribute `add_parent_attribute` adds: named after its parent, linking to
      it, and shown as the parent's prettified name. Neither child attributes
      nor reciprocal links store anything else in these fields. */
  lemma CompiledParentAttribute(ms: seq<ModelRead>, c: nat, f: Field)
    requires Compile(ms).Success? && DistinctNames(ms) && c < |ms| && !IsProject(ms[c])
    ensures ms[c].parent.Success? && ms[c].parent.value.Some?
    ensures var p := ms[c].parent.value.value;
      var v := FieldOf(Compile(ms).value, Slot(ms[c].name, AttributeField(p), f));
      && (f == AttributeName || f == Name || f == LinkModelName ==> v == Some(Str(p)))
      && (f == DisplayName || f == Desc ==> v == Some(Str(Prettify(p))))
  {
    assert !PassRaises(ms[c], ms);
    if ParentNamingField(f) {
      CompiledParentField(ms, c, f);
      ParentBlockValues(ms[c].name, ms[c].parent.value.value, f);
    }
  }

  /** The model named `n` declares a link to `t`. */
  predicate LinkedFrom(ms: seq<ModelRead>, n: string, t: string) {
    exists k :: 0 <= k < |ms| && ms[k].name == n && LinksTo(ms[k], t)
  }

  /** With distinct model names, the type of the attribute named after a
      model's parent: `collection` when the parent declares a link to the
      model, whose reciprocal comes last; otherwise the parent's own
      `parent_link_type` when the parent is also the model's child; otherwise
      `parent`. Validation rejects a link from a child to its parent but not
      one from a parent to its child. */
  lemma CompiledParentType(ms: seq<ModelRead>, c: nat)
    requires Compile(ms).Success? && DistinctNames(ms) && c < |ms| && !IsProject(ms[c])
    ensures ms[c].parent.Success? && ms[c].parent.value.Some?
    ensures var p := ms[c].parent.value.value;
      var v := FieldOf(Compile(ms).value, Slot(ms[c].name, AttributeField(p), AttributeType));
      && (LinkedFrom(ms, p, ms[c].name) ==> v == Some(Str("collection")))
      && (!LinkedFrom(ms, p, ms[c].name) && (forall k :: 0 <= k < |ms| && ms[k].name == p ==> !ChildOf(ms[k], ms[c].name)) ==>
            v == Some(Str("parent")))
      && (forall k :: 0 <= k < |ms| && ms[k].name == p && ChildOf(ms[k], ms[c].name) && !LinkedFrom(ms, p, ms[c].name) ==>
            ms[k].linkType.Success? && v == Some(OptJson(ms[k].linkType.value)))
  {
    CompileBlocksParts(ms);
    var at0 := Slot(ms[c].name, TemplateField, Identifier);
    FirstPassOwner(ms, ms, c, at0, None);
    var p := ms[c].parent.value.value;
    var at := Slot(ms[c].name, AttributeField(p), AttributeType);
    var first := FirstPass(ms, ms).value;
    var links := ReciprocalBlocks(ms, ms).value;
    LastWriteWins([], first + links, at);
    LastValueConcat(first, links, at, None);
    FirstPassOwner(ms, ms, c, at, None);
    PassParentType(ms[c], ms, None);
    if LinkedFrom(ms, p, ms[c].name) {
      var k :| 0 <= k < |ms| && ms[k].name == p && LinksTo(ms[k], ms[c].name);
      ReciprocalsAgree(ms, k, ms[c].name, AttributeType, LastValue(first, at, None));
    } else {
      ReciprocalSources(ms, ms);
      assert !WritesTo(links, at) by {
        forall x | 0 <= x < |links| ensures !Sets(links[x], at) {
          assert ReciprocalOf(links[x], ms, ms);
        }
      }
      LastValueMiss(links, at, LastValue(first, at, None));
    }
  }
}

=== FILE: magma_models.dfy ===
/** The value types of the Magma client (models.rb): the request structs with
    their defaults, the revision ledger an update request carries, the read-side
    accessors over a retrieved model description, the model graph, and the
    closed name enumerations. */
module MagmaModels {
  import opened Wrappers
  import opened Dicts
  import opened RubyValues
  
  // ---------------------------------------------------------------------------
  // Enumerations

  /** The constants of `AttributeType`, in declaration order. */
  datatype AttributeType =
    | String | DateTime | Boolean | Child | Collection | File | Float | Identifier
    | Image | Integer | Link | Match | Matrix | Parent | Table

  function TypeName(t: AttributeType): string {
    match t
    case String => "string"
    case DateTime => "date_time"
    case Boolean => "boolean"
    case Child => "child"
    case Collection => "collection"
    case File => "file"
    case Float => "float"
    case Identifier => "identifier"
    case Image => "image"
    case Integer => "integer"
    case Link => "link"
    case Match => "match"
    case Matrix => "matrix"
    case Parent => "parent"
    case Table => "table"
  }

  /** `AttributeType.entries`. */
  const AttributeTypes: seq<AttributeType> :=
    [String, DateTime, Boolean, Child, Collection, File, Float, Identifier,
     Image, Integer, Link, Match, Matrix, Parent, Table]

  /** The position of `t` in `AttributeTypes`. */
  function Ordinal(t: AttributeType): (i: nat)
    ensures i < |AttributeTypes| && AttributeTypes[i] == t
  {
    match t
    case String => 0
    case DateTime => 1
    case Boolean => 2
    case Child => 3
    case Collection => 4
    case File => 5
    case Float => 6
    case Identifier => 7
    case Image => 8
    case Integer => 9
    case Link => 10
    case Match => 11
    case Matrix => 12
    case Parent => 13
    case Table => 14
  }

  /** The type a string names, if any: the constant it compares equal to. */
  function ParseType(s: string): (r: Option<AttributeType>)
    ensures r.Some? ==> TypeName(r.value) == s
    ensures r.None? ==> forall t: AttributeType :: TypeName(t) != s
  {
    if s == "string" then Some(String)
    else if s == "date_time" then Some(DateTime)
    else if s == "boolean" then Some(Boolean)
    else if s == "child" then Some(Child)
    else if s == "collection" then Some(Collection)
    else if s == "file" then Some(File)
    else if s == "float" then Some(Float)
    else if s == "identifier" then Some(Identifier)
    else if s == "image" then Some(Image)
    else if s == "integer" then Some(Integer)
    else if s == "link" then Some(Link)
    else if s == "match" then Some(Match)
    else if s == "matrix" then Some(Matrix)
    else if s == "parent" then Some(Parent)
    else if s == "table" then Some(Table)
    else None
  }

  /** The enumeration is closed: 15 constants, and each name parses back to
      its constant. */
  lemma AttributeTypesClosed()
    ensures |AttributeTypes| == 15
    ensures forall t: AttributeType :: t in AttributeTypes
    ensures forall t: AttributeType :: ParseType(TypeName(t)) == Some(t)
  {
    forall t: AttributeType
      ensures t in AttributeTypes
    {
      assert AttributeTypes[Ordinal(t)] == t;
    }
  }

  /** No constant is listed twice. */
  lemma AttributeTypesDistinct()
    ensures forall i, j :: 0 <= i < j < |AttributeTypes| ==> AttributeTypes[i] != AttributeTypes[j]
  {
    assert forall i :: 0 <= i < |AttributeTypes| ==> Ordinal(AttributeTypes[i]) == i;
  }

  /** The link types the client computes itself, which a project description may not declare. */
  predicate Structural(t: AttributeType) {
    t == Child || t == Collection || t == Identifier || t == Parent
  }

  /** Each string is strictly smaller than the next: sorted, and no string twice. */
  predicate StrictlySorted(xs: seq<string>) {
    forall i :: 0 <= i < |xs| - 1 ==> StrLt(xs[i], xs[i + 1])
  }

  /** The attribute types a project description may declare, sorted by name
      (`AttributeType.entries` without the structural ones, sorted). */
  const DeclarableTypeNames: seq<string> :=
    ["boolean", "date_time", "file", "float", "image", "integer", "link", "match", "matrix", "string", "table"]

  /** `DeclarableTypeNames` is sorted and names exactly the non-structural types. */
  lemma DeclarableTypeNamesSpec()
    ensures StrictlySorted(DeclarableTypeNames)
    ensures forall s :: s in DeclarableTypeNames <==> ParseType(s).Some? && !Structural(ParseType(s).value)
  {
    assert StrLt("boolean", "date_time");
    assert StrLt("date_time", "file");
    assert StrLt("file", "float");
    assert StrLt("float", "image");
    assert StrLt("image", "integer");
    assert StrLt("integer", "link");
    assert StrLt("link", "match");
    assert StrLt("match", "matrix");
    assert StrLt("matrix", "string");
    assert StrLt("string", "table");
    forall s
      ensures s in DeclarableTypeNames <==> ParseType(s).Some? && !Structural(ParseType(s).value)
    {
      DeclarableMember(DeclarableTypeNames, s);
    }
  }

  lemma DeclarableMember(r: seq<string>, s: string)
    requires r == ["boolean", "date_time", "file", "float", "image", "integer", "link", "match", "matrix", "string", "table"]
    ensures s in r <==> ParseType(s).Some? && !Structural(ParseType(s).value)
  {
    if ParseType(s).Some? && !Structural(ParseType(s).value) {
      var t := ParseType(s).value;
      match t
      case Boolean => assert r[0] == s;
      case DateTime => assert r[1] == s;
      case File => assert r[2] == s;
      case Float => assert r[3] == s;
      case Image => assert r[4] == s;
      case Integer => assert r[5] == s;
      case Link => assert r[6] == s;
      case Match => assert r[7] == s;
      case Matrix => assert r[8] == s;
      case String => assert r[9] == s;
      case Table => assert r[10] == s;
    }
  }

  /** `AttributeValidationType`. */
  datatype ValidationType = Regexp | Array | Range

  function ValidationTypeName(v: ValidationType): string {
    match v
    case Regexp => "Regexp"
    case Array => "Array"
    case Range => "Range"
  }

  /** `AttributeValidationType.entries.sort`. */
  const ValidationTypeNames: seq<string> := ["Array", "Range", "Regexp"]

  /** `ValidationTypeNames` is sorted and names exactly the validation types. */
  lemma ValidationTypeNamesSpec()
    ensures StrictlySorted(ValidationTypeNames)
    ensures forall s :: s in ValidationTypeNames <==> exists v: ValidationType :: ValidationTypeName(v) == s
  {
    assert ValidationTypeNames == [ValidationTypeName(Array), ValidationTypeName(Range), ValidationTypeName(Regexp)];
  }

  /** The values the client expects of `ParentLinkType`, sorted. The enumeration
      itself is not part of this model; its values are those of the link types a
      child model may have. */
  const ParentLinkTypeNames: seq<string> := ["child", "collection", "table"]

  // ---------------------------------------------------------------------------
  // Requests

  /** `RetrievalRequest`: a keyword-initialised struct. */
  datatype RetrievalRequest = RetrievalRequest(modelName: Json, attributeNames: Json, recordNames: Json, projectName: Json)

  const RetrievalMembers: seq<string> := ["model_name", "attribute_names", "record_names", "project_name"]

  const RetrievalDefaults: Hash :=
    [("model_name", Str("all")), ("attribute_names", Str("identifier")), ("record_names", Arr([]))]

  /** What the defaults hold, and that they name members only. */
  lemma RetrievalDefaultsKnown()
    ensures Get(RetrievalDefaults, "model_name") == Some(Str("all"))
    ensures Get(RetrievalDefaults, "attribute_names") == Some(Str("identifier"))
    ensures Get(RetrievalDefaults, "record_names") == Some(Arr([]))
    ensures Get(RetrievalDefaults, "project_name") == None
    ensures forall k :: k in Keys(RetrievalDefaults) ==> k in RetrievalMembers
  {
    GetAt(RetrievalDefaults, 0);
    GetAt(RetrievalDefaults, 1);
    GetAt(RetrievalDefaults, 2);
    assert Keys(RetrievalDefaults) == ["model_name", "attribute_names", "record_names"];
  }

  /** The keyword struct built from the hash `h`: unknown keywords are refused
      and unnamed members are nil. */
  function StructFrom(h: Hash): (r: Checked<RetrievalRequest>)
    ensures r.Failure? <==> exists k :: k in Keys(h) && k !in RetrievalMembers
    ensures r.Success? ==> r.value.modelName == Get(h, "model_name").GetOr(Null)
    ensures r.Success? ==> r.value.attributeNames == Get(h, "attribute_names").GetOr(Null)
    ensures r.Success? ==> r.value.recordNames == Get(h, "record_names").GetOr(Null)
    ensures r.Success? ==> r.value.projectName == Get(h, "project_name").GetOr(Null)
  {
    if exists k :: k in Keys(h) && k !in RetrievalMembers then
      Failure(ArgumentError("unknown keywords"))
    else
      Success(RetrievalRequest(
        Get(h, "model_name").GetOr(Null),
        Get(h, "attribute_names").GetOr(Null),
        Get(h, "record_names").GetOr(Null),
        Get(h, "project_name").GetOr(Null)))
  }

  /** `RetrievalRequest.new(**params)`: the defaults updated with `params`, then
      handed to the struct. */
  function NewRetrievalRequest(params: Hash): (r: Checked<RetrievalRequest>)
    ensures r.Failure? <==> exists k :: k in Keys(params) && k !in RetrievalMembers
  {
    var h := Merge(RetrievalDefaults, params);
    assert forall k :: k in Keys(h) <==> k in Keys(RetrievalDefaults) || k in Keys(params) by {
      MergeKeys(RetrievalDefaults, params);
    }
    assert forall k :: k in Keys(RetrievalDefaults) ==> k in RetrievalMembers by {
      RetrievalDefaultsKnown();
    }
    StructFrom(h)
  }

  /** `defaults.update(params)` at one member: the caller's value when given,
      the default otherwise. */
  lemma MemberOrDefault(defaults: Hash, params: Hash, k: string, v: Json)
    requires Get(defaults, k) == Some(v) || (Get(defaults, k) == None && v == Null)
    ensures Get(Merge(defaults, params), k).GetOr(Null) == Get(params, k).GetOr(v)
  {
  }

  /** Each member the caller passes is taken as given; the others fall back to
      `model_name: "all"`, `attribute_names: "identifier"`, `record_names: []`,
      and nil for `project_name`. */
  lemma RetrievalRequestDefaults(params: Hash)
    requires NewRetrievalRequest(params).Success?
    ensures NewRetrievalRequest(params).value.modelName == Get(params, "model_name").GetOr(Str("all"))
    ensures NewRetrievalRequest(params).value.attributeNames == Get(params, "attribute_names").GetOr(Str("identifier"))
    ensures NewRetrievalRequest(params).value.recordNames == Get(params, "record_names").GetOr(Arr([]))
    ensures NewRetrievalRequest(params).value.projectName == Get(params, "project_name").GetOr(Null)
  {
    RetrievalDefaultsKnown();
    MemberOrDefault(RetrievalDefaults, params, "model_name", Str("all"));
    MemberOrDefault(RetrievalDefaults, params, "attribute_names", Str("identifier"));
    MemberOrDefault(RetrievalDefaults, params, "record_names", Arr([]));
    MemberOrDefault(RetrievalDefaults, params, "project_name", Null);
  }

  /** One record's revision: attribute name to new value. */
  type Revision = Dict<string, Json>

  /** `UpdateRequest#revisions`: model name to record name to revision. */
  type Revisions = Dict<string, Dict<string, Revision>>

  datatype UpdateRequest = UpdateRequest(revisions: Revisions, projectName: Json)

  /** `UpdateRequest.new(project_name: p)`: no revisions yet. */
  function NewUpdateRequest(projectName: Json): (r: UpdateRequest)
    ensures Keys(r.revisions) == []
    ensures r.projectName == projectName
  {
    UpdateRequest([], projectName)
  }

  /** `revisions[m]`, or the empty hash when it is missing. */
  function ModelRevisions(revs: Revisions, m: string): Dict<string, Revision> {
    var noRecords: Dict<string, Revision> := [];
    Get(revs, m).GetOr(noRecords)
  }

  /** `revisions[m][r]`, or the empty hash when either level is missing. */
  function RecordRevision(revs: Revisions, m: string, r: string): Revision {
    var noAttrs: Revision := [];
    Get(ModelRevisions(revs, m), r).GetOr(noAttrs)
  }

  /** `update_revision(m, r, **attrs)`: creates the missing levels and merges
      `attrs` into the record, leaving everything else alone. */
  function UpdateRevision(req: UpdateRequest, m: string, r: string, attrs: Revision): (res: UpdateRequest)
    ensures res.projectName == req.projectName
    ensures m in Keys(res.revisions) && r in Keys(Get(res.revisions, m).value)
    ensures forall a :: Get(RecordRevision(res.revisions, m, r), a) ==
                        if a in Keys(attrs) then Get(attrs, a) else Get(RecordRevision(req.revisions, m, r), a)
    ensures forall r' :: r' != r ==> Get(ModelRevisions(res.revisions, m), r') == Get(ModelRevisions(req.revisions, m), r')
    ensures forall m' :: m' != m ==> Get(res.revisions, m') == Get(req.revisions, m')
  {
    var records := ModelRevisions(req.revisions, m);
    var record := Merge(RecordRevision(req.revisions, m, r), attrs);
    var records' := Put(records, r, record);
    var revisions' := Put(req.revisions, m, records');
    assert ModelRevisions(revisions', m) == records';
    assert RecordRevision(revisions', m, r) == record;
    req.(revisions := revisions')
  }

  /** `UpdateModelRequest`: the actions in the order they were added. */
  datatype UpdateModelRequest = UpdateModelRequest(projectName: Json, actions: seq<Json>)

  function NewUpdateModelRequest(projectName: Json): (r: UpdateModelRequest)
    ensures r.actions == [] && r.projectName == projectName
  {
    UpdateModelRequest(projectName, [])
  }

  /** `add_action`: appends at the end. */
  function AddAction(req: UpdateModelRequest, action: Json): (r: UpdateModelRequest)
    ensures |r.actions| == |req.actions| + 1
    ensures r.actions[..|req.actions|] == req.actions && r.actions[|req.actions|] == action
    ensures r.projectName == req.projectName
  {
    req.(actions := req.actions + [action])
  }

  /** Adding actions one by one. */
  function AddActions(req: UpdateModelRequest, actions: seq<Json>): UpdateModelRequest
    decreases |actions|
  {
    if |actions| == 0 then req else AddActions(AddAction(req, actions[0]), actions[1..])
  }

  /** Actions come out in exactly the order they were added. */
  lemma {:induction false} AddActionsInOrder(req: UpdateModelRequest, actions: seq<Json>)
    ensures AddActions(req, actions).actions == req.actions + actions
    ensures AddActions(req, actions).projectName == req.projectName
    decreases |actions|
  {
    if |actions| > 0 {
      AddActionsInOrder(AddAction(req, actions[0]), actions[1..]);
      assert req.actions + [actions[0]] + actions[1..] == req.actions + actions;
    }
  }

  // ---------------------------------------------------------------------------
  // Read-side accessors over a retrieved model description

  /** `raw[key] || ""`, as `Template#name`, `Template#identifier`,
      `Attribute#name` and `Attribute#attribute_name` read it. */
  function OrEmpty(raw: Json, key: string): (r: Checked<Json>)
    ensures r.Failure? <==> Index(raw, key).Failure?
    ensures r.Success? ==> Truthy(r.value)
    ensures r.Success? && Truthy(Index(raw, key).value) ==> r.value == Index(raw, key).value
    ensures r.Success? && !Truthy(Index(raw, key).value) ==> r.value == Str("")
    ensures raw.Obj? && key !in Keys(raw.fields) ==> r == Success(Str(""))
  {
    var v :- Index(raw, key);
    Success(if Truthy(v) then v else Str(""))
  }

  function TemplateName(template: Json): Checked<Json> {
    OrEmpty(template, "name")
  }

  function TemplateIdentifier(template: Json): Checked<Json> {
    OrEmpty(template, "identifier")
  }

  function AttributeName(attribute: Json): Checked<Json> {
    OrEmpty(attribute, "name")
  }

  function AttributeAttributeName(attribute: Json): Checked<Json> {
    OrEmpty(attribute, "attribute_name")
  }

  /** `Attribute#type`: `raw['type'] && AttributeType.new(raw['type'])`; a falsy
      value passes through, a string is kept, anything else cannot become a
      string and raises. */
  function AttributeTypeOf(attribute: Json): (r: Checked<Json>)
    ensures attribute.Obj? ==> (r == Success(Null) <==> Get(attribute.fields, "type").GetOr(Null) == Null)
    ensures r.Success? ==> !Truthy(r.value) || r.value.Str?
    ensures r.Success? && r.value.Str? ==> Index(attribute, "type") == Success(r.value)
    ensures Index(attribute, "type").Success? ==>
              (r.Success? <==> (!Truthy(Index(attribute, "type").value) || Index(attribute, "type").value.Str?))
    ensures r.Success? ==> Index(attribute, "type").Success? && r.value == Index(attribute, "type").value
  {
    var v :- Index(attribute, "type");
    if !Truthy(v) || v.Str? then Success(v) else Failure(TypeError("no implicit conversion into String"))
  }

  // ---------------------------------------------------------------------------
  // `Models#to_directed_graph`

  type Edge = (Json, Json)

  /** `model(k).template`. */
  function TemplateOf(models: Hash, k: string): Checked<Json> {
    Index(Get(models, k).GetOr(Null), "template")
  }

  /** `model(k).template.parent`. */
  function ParentOf(models: Hash, k: string): Checked<Json> {
    var t :- TemplateOf(models, k);
    Index(t, "parent")
  }

  /** `model(k).template.attributes.raw`, which must answer `keys`. */
  function AttributesOf(models: Hash, k: string): Checked<Hash> {
    var t :- TemplateOf(models, k);
    var a :- Index(t, "attributes");
    if a.Obj? then Success(a.fields) else Failure(NoMethodError("keys"))
  }

  /** `attributes.attribute(ak).link_model_name`. */
  function LinkOf(attrs: Hash, ak: string): Checked<Json> {
    Index(Get(attrs, ak).GetOr(Null), "link_model_name")
  }

  /** Every accessor the graph walk applies to model `k` succeeds. */
  predicate Readable(models: Hash, k: string, casual: bool) {
    && ParentOf(models, k).Success?
    && (casual ==>
          && AttributesOf(models, k).Success?
          && forall ak :: ak in Keys(AttributesOf(models, k).value) ==> LinkOf(AttributesOf(models, k).value, ak).Success?)
  }

  /** `e` is an edge model `k` contributes: its parent edge, or with casual links
      one of its truthy link targets. */
  predicate EdgeOf(models: Hash, k: string, casual: bool, e: Edge)
    requires Readable(models, k, casual)
  {
    || (e.0 == ParentOf(models, k).value && e.1 == Str(k))
    || (casual && e.0 == Str(k) && Truthy(e.1) &&
        exists ak :: ak in Keys(AttributesOf(models, k).value) && LinkOf(AttributesOf(models, k).value, ak) == Success(e.1))
  }

  function LinkEdges(k: string, attrs: Hash, aks: seq<string>): (r: Checked<set<Edge>>)
    ensures r.Success? <==> forall ak :: ak in aks ==> LinkOf(attrs, ak).Success?
    ensures r.Success? ==> forall e :: e in r.value <==>
      e.0 == Str(k) && Truthy(e.1) && exists ak :: ak in aks && LinkOf(attrs, ak) == Success(e.1)
    decreases |aks|
  {
    if |aks| == 0 then Success({})
    else
      var target :- LinkOf(attrs, aks[0]);
      var rest :- LinkEdges(k, attrs, aks[1..]);
      assert forall ak :: ak in aks <==> ak == aks[0] || ak in aks[1..];
      Success(if Truthy(target) then {(Str(k), target)} + rest else rest)
  }

  function ModelEdges(models: Hash, k: string, casual: bool): (r: Checked<set<Edge>>)
    ensures r.Success? <==> Readable(models, k, casual)
    ensures r.Success? ==> forall e :: e in r.value <==> EdgeOf(models, k, casual, e)
  {
    var parent :- ParentOf(models, k);
    if !casual then Success({(parent, Str(k))})
    else
      var attrs :- AttributesOf(models, k);
      var links :- LinkEdges(k, attrs, Keys(attrs));
      Success({(parent, Str(k))} + links)
  }

  function EdgesOver(models: Hash, ks: seq<string>, casual: bool): (r: Checked<set<Edge>>)
    ensures r.Success? <==> forall k :: k in ks ==> Readable(models, k, casual)
    ensures r.Success? ==> forall e :: e in r.value <==> exists k :: k in ks && Readable(models, k, casual) && EdgeOf(models, k, casual, e)
    decreases |ks|
  {
    if |ks| == 0 then Success({})
    else
      var mine :- ModelEdges(models, ks[0], casual);
      var rest :- EdgesOver(models, ks[1..], casual);
      assert forall k :: k in ks <==> k == ks[0] || k in ks[1..];
      Success(mine + rest)
  }

  /** `to_directed_graph(include_casual_links)`: the parent edge of every model,
      plus, only when asked, an edge to every truthy link target; nothing else. */
  function ToDirectedGraph(models: Hash, casual: bool): (r: Checked<set<Edge>>)
    ensures r.Success? <==> forall k :: k in Keys(models) ==> Readable(models, k, casual)
    ensures r.Success? ==> forall k :: k in Keys(models) ==> (ParentOf(models, k).value, Str(k)) in r.value
    ensures r.Success? ==> forall e :: e in r.value <==> exists k :: k in Keys(models) && Readable(models, k, casual) && EdgeOf(models, k, casual, e)
  {
    EdgesOver(models, Keys(models), casual)
  }

  /** Without casual links every edge ends at a model and starts at its parent. */
  lemma ParentEdgesOnly(models: Hash, e: Edge)
    requires ToDirectedGraph(models, false).Success?
    requires e in ToDirectedGraph(models, false).value
    ensures e.1.Str? && e.1.s in Keys(models) && ParentOf(models, e.1.s) == Success(e.0)
  {
  }
}

=== FILE: model_tree.dfy ===
/** `JsonProject#models_by_parent` and `JsonProject#model_tree`
    (json_models.rb): the project's models listed shallow to deep, starting at
    the models without a parent, each depth sorted by name. Models are referred
    to by their position in the project's `models`. */
module ModelTree {
  import opened Wrappers
  import opened RubyValues
  import opened Sorting
  import opened JsonModels

  /** What `model_tree` reads of a model: its name and its stripped
      `parent_model_name` (`None` when it has none). */
  datatype Entry = Entry(name: string, parent: Option<string>)

  /** `model.parent_model_name`, the key `models_by_parent` groups by. */
  function ParentName(m: JsonModel): Option<string> {
    StrippedValue(m.raw, "parent_model_name")
  }

  function EntryOf(m: JsonModel): Entry {
    Entry(m.name, ParentName(m))
  }

  function Entries(models: seq<JsonModel>): (es: seq<Entry>)
    ensures |es| == |models|
    ensures forall i :: 0 <= i < |models| ==> es[i] == EntryOf(models[i])
  {
    seq(|models|, i requires 0 <= i < |models| => EntryOf(models[i]))
  }

  /** Positions of `es`. */
  predicate Within(es: seq<Entry>, ix: seq<nat>) {
    forall t :: 0 <= t < |ix| ==> ix[t] < |es|
  }

  /** `models_by_parent[p]` restricted to the first `n` models: the positions of
      the models whose parent is `p`, in declaration order (`group_by` keeps the
      order in which the models come). */
  function ChildrenOf(es: seq<Entry>, p: Option<string>, n: nat): (r: seq<nat>)
    requires n <= |es|
    decreases n
  {
    if n == 0 then []
    else ChildrenOf(es, p, n - 1) + (if es[n - 1].parent == p then [n - 1] else [])
  }

  /** `models_by_parent[p]` holds exactly the models whose parent is `p`. */
  lemma {:induction false} ChildrenOfMembers(es: seq<Entry>, p: Option<string>, n: nat)
    requires n <= |es|
    ensures forall i: nat :: i in ChildrenOf(es, p, n) <==> i < n && es[i].parent == p
    decreases n
  {
    if n > 0 {
      ChildrenOfMembers(es, p, n - 1);
    }
  }

  /** `models_by_parent.values_at(*parents).flatten.compact`: the children of each
      parent in turn. */
  function NextLevel(es: seq<Entry>, parents: seq<Option<string>>): (r: seq<nat>)
  {
    if |parents| == 0 then []
    else ChildrenOf(es, parents[0], |es|) + NextLevel(es, parents[1..])
  }

  /** The next depth holds exactly the models whose parent is one of `parents`. */
  lemma {:induction false} NextLevelMembers(es: seq<Entry>, parents: seq<Option<string>>)
    ensures forall i: nat :: i in NextLevel(es, parents) <==> i < |es| && es[i].parent in parents
    decreases |parents|
  {
    if |parents| > 0 {
      ChildrenOfMembers(es, parents[0], |es|);
      NextLevelMembers(es, parents[1..]);
      assert forall x :: x in parents <==> x == parents[0] || x in parents[1..];
    }
  }

  /** The name of the model at position `i`; positions outside `es` never occur
      (`NextLevelMembers`). */
  function NameAt(es: seq<Entry>, i: nat): Option<string> {
    if i < |es| then Some(es[i].name) else None
  }

  /** `child_models.map { |model| model.name }`, as the keys of the next lookup. */
  function NamesOf(es: seq<Entry>, level: seq<nat>): (r: seq<Option<string>>)
    ensures |r| == |level|
    ensures forall t :: 0 <= t < |level| ==> r[t] == NameAt(es, level[t])
  {
    if |level| == 0 then [] else [NameAt(es, level[0])] + NamesOf(es, level[1..])
  }

  /** The models the loop finds `t` turns after looking up `parents`: first
      their children, then the children of those, and so on (unsorted). */
  function Depth(es: seq<Entry>, parents: seq<Option<string>>, t: nat): seq<nat>
    decreases t
  {
    var children := NextLevel(es, parents);
    if t == 0 then children else Depth(es, NamesOf(es, children), t - 1)
  }

  /** One more turn looks up the names of what the previous turn found. */
  lemma {:induction false} DepthNext(es: seq<Entry>, parents: seq<Option<string>>, t: nat)
    ensures Depth(es, parents, t + 1) == NextLevel(es, NamesOf(es, Depth(es, parents, t)))
    decreases t
  {
    if t > 0 {
      DepthNext(es, NamesOf(es, NextLevel(es, parents)), t - 1);
    }
  }

  /** The models `model_tree` finds on its `k`-th turn (depth `k`), unsorted:
      the loop starts by looking up `[nil]`. */
  function Level(es: seq<Entry>, k: nat): seq<nat> {
    Depth(es, [None], k)
  }

  /** The parent names the loop looks up on its `k`-th turn: `[nil]` first, then
      the names of the previous turn's children. */
  function ParentsAt(es: seq<Entry>, k: nat): (r: seq<Option<string>>)
    ensures Level(es, k) == NextLevel(es, r)
  {
    if k == 0 then [None]
    else
      DepthNext(es, [None], k - 1);
      NamesOf(es, Level(es, k - 1))
  }

  /** The name `<=>` compares; positions outside `es` never occur. */
  function NameKey(es: seq<Entry>): nat -> string {
    (i: nat) => if i < |es| then es[i].name else ""
  }

  /** The loop of `model_tree`, one turn per call, collecting each turn's
      `child_models` as found (the next turn looks up their names in that order;
      only the collected copy is sorted). The loop stops at the first turn that
      finds no children; `fuel` bounds the turns that do, and running out of it
      is `None`. */
  function Grow(es: seq<Entry>, parents: seq<Option<string>>, fuel: nat): Option<seq<seq<nat>>>
    decreases fuel
  {
    var children := NextLevel(es, parents);
    if children == [] then Some([])
    else if fuel == 0 then None
    else
      var deeper := Grow(es, NamesOf(es, children), fuel - 1);
      if deeper.None? then None else Some([children] + deeper.value)
  }

  /** `child_models.sort { |m1, m2| m1.name <=> m2.name }` for every depth. */
  function SortDepths(es: seq<Entry>, ls: seq<seq<nat>>): (r: seq<seq<nat>>)
    ensures |r| == |ls|
    ensures forall t :: 0 <= t < |ls| ==> SortedBy(r[t], NameKey(es)) && multiset(r[t]) == multiset(ls[t])
  {
    seq(|ls|, t requires 0 <= t < |ls| => SortBy(ls[t], NameKey(es)))
  }

  /** Every model's `parent_model_name` can be stripped, so `group_by` does not raise. */
  predicate ParentsReadable(models: seq<JsonModel>) {
    forall i :: 0 <= i < |models| ==> !StripRaises(models[i].raw, "parent_model_name")
  }

  /** The depths of `model_tree`, each sorted by name, as positions in `models`:
      `None` when the loop would not stop. `|models|` turns that find children are
      enough for any loop that stops (`TreeNoneIffEndless`). */
  function TreeLevels(models: seq<JsonModel>): (r: Checked<Option<seq<seq<nat>>>>)
    ensures r.Failure? <==> !ParentsReadable(models)
  {
    if !ParentsReadable(models) then Failure(NoMethodError("strip"))
    else
      var es := Entries(models);
      var ls := Grow(es, [None], |models|);
      Success(if ls.None? then None else Some(SortDepths(es, ls.value)))
  }

  function Flatten(xss: seq<seq<nat>>): (r: seq<nat>)
    ensures forall i :: i in r <==> exists t :: 0 <= t < |xss| && i in xss[t]
  {
    if |xss| == 0 then []
    else
      assert forall t :: 1 <= t < |xss| ==> xss[t] == xss[1..][t - 1];
      xss[0] + Flatten(xss[1..])
  }

  // ---------------------------------------------------------------------------
  // Depths

  /** Once a turn finds no children, so does every later turn. */
  lemma {:induction false} DepthStaysEmpty(es: seq<Entry>, parents: seq<Option<string>>, t: nat, u: nat)
    requires Depth(es, parents, t) == [] && t <= u
    ensures Depth(es, parents, u) == []
    decreases u - t
  {
    if t < u {
      DepthNext(es, parents, t);
      assert NamesOf(es, []) == [];
      DepthStaysEmpty(es, parents, t + 1, u);
    }
  }

  lemma EmptyStays(es: seq<Entry>, k: nat, j: nat)
    requires Level(es, k) == [] && k <= j
    ensures Level(es, j) == []
  {
    DepthStaysEmpty(es, [None], k, j);
  }

  /** When one turn of the loop runs out of fuel. */
  lemma GrowNoneStep(es: seq<Entry>, parents: seq<Option<string>>, fuel: nat)
    ensures var children := NextLevel(es, parents);
            Grow(es, parents, fuel).None? <==>
              children != [] && (fuel == 0 || Grow(es, NamesOf(es, children), fuel - 1).None?)
  {
  }

  /** What one turn of the loop returns when it does not run out of fuel. */
  lemma GrowSomeStep(es: seq<Entry>, parents: seq<Option<string>>, fuel: nat)
    requires Grow(es, parents, fuel).Some?
    ensures var children := NextLevel(es, parents);
            var ls := Grow(es, parents, fuel).value;
            && (children == [] ==> ls == [])
            && (children != [] ==>
                  && fuel > 0
                  && Grow(es, NamesOf(es, children), fuel - 1).Some?
                  && ls == [children] + Grow(es, NamesOf(es, children), fuel - 1).value)
  {
  }

  /** The loop runs out of fuel exactly when the turn after its last one still
      finds children. */
  lemma {:induction false} GrowNone(es: seq<Entry>, parents: seq<Option<string>>, fuel: nat)
    ensures Grow(es, parents, fuel).None? <==> Depth(es, parents, fuel) != []
    decreases fuel
  {
    var children := NextLevel(es, parents);
    GrowNoneStep(es, parents, fuel);
    if children == [] {
      DepthStaysEmpty(es, parents, 0, fuel);
    } else if fuel > 0 {
      GrowNone(es, NamesOf(es, children), fuel - 1);
    }
  }

  /** Otherwise the turn after the last one it returns finds nothing ... */
  lemma {:induction false} GrowEnd(es: seq<Entry>, parents: seq<Option<string>>, fuel: nat)
    requires Grow(es, parents, fuel).Some?
    ensures Depth(es, parents, |Grow(es, parents, fuel).value|) == []
    decreases fuel
  {
    var children := NextLevel(es, parents);
    GrowSomeStep(es, parents, fuel);
    if children != [] {
      var next := NamesOf(es, children);
      GrowEnd(es, next, fuel - 1);
      var deeper := Grow(es, next, fuel - 1).value;
      assert |[children] + deeper| - 1 == |deeper|;
    }
  }

  /** ... no depth it returns is empty ... */
  lemma {:induction false} GrowNonEmpty(es: seq<Entry>, parents: seq<Option<string>>, fuel: nat, t: nat)
    requires Grow(es, parents, fuel).Some?
    requires t < |Grow(es, parents, fuel).value|
    ensures Grow(es, parents, fuel).value[t] != []
    decreases fuel
  {
    GrowSomeStep(es, parents, fuel);
    if t > 0 {
      GrowNonEmpty(es, NamesOf(es, NextLevel(es, parents)), fuel - 1, t - 1);
    }
  }

  /** ... and its `t`-th entry is what the loop finds on turn `t`. */
  lemma {:induction false} GrowAt(es: seq<Entry>, parents: seq<Option<string>>, fuel: nat, t: nat)
    requires Grow(es, parents, fuel).Some?
    requires t < |Grow(es, parents, fuel).value|
    ensures Grow(es, parents, fuel).value[t] == Depth(es, parents, t)
    decreases fuel
  {
    var children := NextLevel(es, parents);
    GrowSomeStep(es, parents, fuel);
    if t > 0 {
      var next := NamesOf(es, children);
      GrowAt(es, next, fuel - 1, t - 1);
    }
  }

  /** Together: `model_tree`'s loop returns what each turn found, up to the
      first turn that finds nothing. */
  lemma GrowLevels(es: seq<Entry>, fuel: nat)
    requires Grow(es, [None], fuel).Some?
    ensures var ls := Grow(es, [None], fuel).value;
              && Level(es, |ls|) == []
              && forall t {:trigger ls[t]} :: 0 <= t < |ls| ==> ls[t] == Level(es, t) && ls[t] != []
  {
    GrowEnd(es, [None], fuel);
    var ls := Grow(es, [None], fuel).value;
    forall t | 0 <= t < |ls|
      ensures ls[t] == Level(es, t) && ls[t] != []
    {
      GrowAt(es, [None], fuel, t);
      GrowNonEmpty(es, [None], fuel, t);
    }
  }

  // ---------------------------------------------------------------------------
  // Chains of parents

  /** `c[0]` has no parent and each later model's parent is the one before it:
      a path from the top of the tree down to `c[|c| - 1]`. */
  predicate Chain(es: seq<Entry>, c: seq<nat>) {
    && |c| > 0
    && Within(es, c)
    && es[c[0]].parent == None
    && (forall t :: 0 <= t < |c| - 1 ==> es[c[t + 1]].parent == Some(es[c[t]].name))
  }

  /** The model at position `i` is reached from a model without a parent. */
  ghost predicate Rooted(es: seq<Entry>, i: nat) {
    exists c :: Chain(es, c) && c[|c| - 1] == i
  }

  /** The end of a chain of `k + 1` models is found on turn `k`. */
  lemma {:induction false} ChainInLevel(es: seq<Entry>, c: seq<nat>)
    requires Chain(es, c)
    ensures c[|c| - 1] in Level(es, |c| - 1)
    decreases |c|
  {
    var k := |c| - 1;
    if k == 0 {
      NextLevelMembers(es, ParentsAt(es, 0));
    } else {
      var prefix := c[..k];
      assert Chain(es, prefix);
      ChainInLevel(es, prefix);
      assert prefix[k - 1] == c[k - 1];
      ChildInNext(es, k - 1, c[k - 1], c[k]);
    }
  }

  /** A chain extends by a child of its last model. */
  lemma ChainExtend(es: seq<Entry>, c: seq<nat>, i: nat)
    requires Chain(es, c) && i < |es| && es[i].parent == Some(es[c[|c| - 1]].name)
    ensures Chain(es, c + [i])
  {
    var d := c + [i];
    assert forall u :: 0 <= u < |c| ==> d[u] == c[u];
  }

  /** A model found on a later turn is the child of a model found on the turn before. */
  lemma LevelParent(es: seq<Entry>, k: nat, i: nat)
    requires k > 0 && i in Level(es, k)
    ensures i < |es| && exists p :: p in Level(es, k - 1) && p < |es| && es[i].parent == Some(es[p].name)
  {
    var parents := ParentsAt(es, k);
    NextLevelMembers(es, parents);
    var level := Level(es, k - 1);
    var t :| 0 <= t < |parents| && parents[t] == es[i].parent;
    var p := level[t];
    assert p in level;
    NextLevelMembers(es, ParentsAt(es, k - 1));
  }

  /** Every model found on turn `k` ends a chain of `k + 1` models. */
  lemma {:induction false} LevelHasChain(es: seq<Entry>, k: nat, i: nat)
    requires i in Level(es, k)
    ensures exists c :: Chain(es, c) && |c| == k + 1 && c[k] == i
  {
    if k == 0 {
      assert i < |es| && es[i].parent == None by {
        NextLevelMembers(es, ParentsAt(es, k));
      }
      assert Chain(es, [i]);
    } else {
      LevelParent(es, k, i);
      var p :| p in Level(es, k - 1) && p < |es| && es[i].parent == Some(es[p].name);
      LevelHasChain(es, k - 1, p);
      var c :| Chain(es, c) && |c| == k && c[k - 1] == p;
      ChainExtend(es, c, i);
      assert (c + [i])[k] == i;
    }
  }

  /** The models found on some turn are exactly the rooted ones. */
  lemma LevelsAreRooted(es: seq<Entry>, i: nat)
    ensures (exists k: nat :: i in Level(es, k)) <==> Rooted(es, i)
  {
    if exists k: nat :: i in Level(es, k) {
      var k: nat :| i in Level(es, k);
      LevelHasChain(es, k, i);
    }
    if Rooted(es, i) {
      var c :| Chain(es, c) && c[|c| - 1] == i;
      ChainInLevel(es, c);
    }
  }

  /** A model found on turn `k` has a child found on turn `k + 1`'s lookup. */
  lemma ChildInNext(es: seq<Entry>, k: nat, x: nat, y: nat)
    requires x in Level(es, k) && x < |es|
    requires y < |es| && es[y].parent == Some(es[x].name)
    ensures y in Level(es, k + 1)
  {
    NextLevelMembers(es, ParentsAt(es, k));
    NextLevelMembers(es, ParentsAt(es, k + 1));
    var level := Level(es, k);
    var t :| 0 <= t < |level| && level[t] == x;
    assert NamesOf(es, level)[t] == es[y].parent;
  }

  /** Following a chain from a model found on turn `k`: the model `s` links
      further down is found on turn `k + s`. */
  lemma {:induction false} WalkChain(es: seq<Entry>, c: seq<nat>, a: nat, k: nat, s: nat)
    requires Chain(es, c) && a + s < |c|
    requires c[a] in Level(es, k)
    ensures c[a + s] in Level(es, k + s)
    decreases s
  {
    if s > 0 {
      WalkChain(es, c, a, k, s - 1);
      ChildInNext(es, k + s - 1, c[a + s - 1], c[a + s]);
    }
  }

  /** A chain that passes the same model twice keeps coming back to it: some
      turn at or after `k + n` finds it again. */
  lemma {:induction false} Revisit(es: seq<Entry>, c: seq<nat>, a: nat, b: nat, k: nat, n: nat)
    requires Chain(es, c) && a < b < |c| && c[a] == c[b]
    requires c[a] in Level(es, k)
    ensures exists j: nat :: j >= k + n && c[a] in Level(es, j)
    decreases n
  {
    if n > 0 {
      WalkChain(es, c, a, k, b - a);
      assert a + (b - a) == b;
      Revisit(es, c, a, b, k + (b - a), n - 1);
    } else {
      assert c[a] in Level(es, k + n);
    }
  }

  // ---------------------------------------------------------------------------
  // Pigeonhole

  predicate NoDups<T(==)>(s: seq<T>) {
    forall a, b :: 0 <= a < b < |s| ==> s[a] != s[b]
  }

  function Elems(c: seq<nat>): set<nat> {
    set x | x in c
  }

  lemma {:induction false} NoDupsCard(c: seq<nat>)
    requires NoDups(c)
    ensures |Elems(c)| == |c|
    decreases |c|
  {
    if |c| > 0 {
      var rest := c[1..];
      assert NoDups(rest) by {
        forall a, b | 0 <= a < b < |rest| ensures rest[a] != rest[b] {
          assert rest[a] == c[a + 1] && rest[b] == c[b + 1];
        }
      }
      NoDupsCard(rest);
      assert Elems(c) == {c[0]} + Elems(rest) by {
        assert forall x :: x in c <==> x == c[0] || x in rest;
      }
      assert c[0] !in Elems(rest) by {
        assert c[0] !in rest;
      }
    }
  }

  /** The numbers below `n`. */
  function Below(n: nat): (r: set<nat>)
    ensures forall x: nat :: x in r <==> x < n
  {
    if n == 0 then {} else Below(n - 1) + {n - 1}
  }

  lemma {:induction false} BelowCard(n: nat)
    ensures |Below(n)| == n
  {
    if n > 0 {
      BelowCard(n - 1);
    }
  }

  lemma SubsetCard(a: set<nat>, b: set<nat>)
    requires a <= b
    ensures |a| <= |b|
  {
    assert b == a + (b - a);
  }

  /** More than `n` positions below `n` repeat one. */
  lemma Pigeonhole(c: seq<nat>, n: nat)
    requires |c| > n
    requires forall t :: 0 <= t < |c| ==> c[t] < n
    ensures exists a, b :: 0 <= a < b < |c| && c[a] == c[b]
  {
    if NoDups(c) {
      NoDupsCard(c);
      BelowCard(n);
      SubsetCard(Elems(c), Below(n));
    }
  }

  // ---------------------------------------------------------------------------
  // Distinct names

  /** No two models share a (stripped) name. */
  predicate DistinctNames(es: seq<Entry>) {
    forall i, j :: 0 <= i < j < |es| ==> es[i].name != es[j].name
  }

  /** With distinct names a model has one chain: stepping back from the same
      model, two chains pass the same models. */
  lemma {:induction false} ChainsAgree(es: seq<Entry>, c: seq<nat>, d: seq<nat>, s: nat)
    requires DistinctNames(es) && Chain(es, c) && Chain(es, d)
    requires c[|c| - 1] == d[|d| - 1]
    requires s < |c| && s < |d|
    ensures c[|c| - 1 - s] == d[|d| - 1 - s]
    decreases s
  {
    if s > 0 {
      ChainsAgree(es, c, d, s - 1);
      var x, y := c[|c| - 1 - s], d[|d| - 1 - s];
      assert es[c[|c| - s]].parent == Some(es[x].name);
      assert es[d[|d| - s]].parent == Some(es[y].name);
      assert es[x].name == es[y].name;
    }
  }

  /** With distinct names, a chain is no shorter than another to the same model ... */
  lemma NotShorter(es: seq<Entry>, c: seq<nat>, d: seq<nat>)
    requires DistinctNames(es) && Chain(es, c) && Chain(es, d)
    requires c[|c| - 1] == d[|d| - 1]
    ensures |c| >= |d|
  {
    if |c| < |d| {
      var t := |d| - |c| - 1;
      assert es[d[t + 1]].parent == Some(es[d[t]].name);
      ChainsAgree(es, c, d, |c| - 1);
    }
  }

  /** ... so all chains to a model are equally long. */
  lemma ChainLength(es: seq<Entry>, c: seq<nat>, d: seq<nat>)
    requires DistinctNames(es) && Chain(es, c) && Chain(es, d)
    requires c[|c| - 1] == d[|d| - 1]
    ensures |c| == |d|
  {
    NotShorter(es, c, d);
    NotShorter(es, d, c);
  }

  /** With distinct names, no chain passes a model twice. */
  lemma ChainNoRepeat(es: seq<Entry>, c: seq<nat>, a: nat, b: nat)
    requires DistinctNames(es) && Chain(es, c) && a < b < |c|
    ensures c[a] != c[b]
  {
    if c[a] == c[b] {
      var p, q := c[..a + 1], c[..b + 1];
      assert Chain(es, p) && Chain(es, q);
      ChainLength(es, p, q);
    }
  }

  /** Every model a turn finds is one of the project's. */
  lemma LevelWithin(es: seq<Entry>, k: nat)
    ensures forall x: nat :: x in Level(es, k) ==> x < |es|
  {
    NextLevelMembers(es, ParentsAt(es, k));
  }

  /** With distinct names, no model is found on two different turns. */
  lemma LevelsDisjoint(es: seq<Entry>, p: nat, q: nat, x: nat)
    requires DistinctNames(es)
    requires x in Level(es, p) && x in Level(es, q)
    ensures p == q
  {
    LevelHasChain(es, p, x);
    LevelHasChain(es, q, x);
    var c :| Chain(es, c) && |c| == p + 1 && c[p] == x;
    var d :| Chain(es, d) && |d| == q + 1 && d[q] == x;
    ChainLength(es, c, d);
  }

  lemma NoDupsConcat<T>(a: seq<T>, b: seq<T>)
    requires NoDups(a) && NoDups(b)
    requires forall x :: x in a ==> x !in b
    ensures NoDups(a + b)
  {
    var ab := a + b;
    forall i, j | 0 <= i < j < |ab| ensures ab[i] != ab[j] {
      if i < |a| && j >= |a| {
        assert ab[i] in a && ab[j] == b[j - |a|];
      } else if i >= |a| {
        assert ab[i] == b[i - |a|] && ab[j] == b[j - |a|];
      }
    }
  }

  lemma {:induction false} ChildrenOfNoDups(es: seq<Entry>, p: Option<string>, n: nat)
    requires n <= |es|
    ensures NoDups(ChildrenOf(es, p, n))
    decreases n
  {
    if n > 0 {
      ChildrenOfNoDups(es, p, n - 1);
      ChildrenOfMembers(es, p, n - 1);
      NoDupsConcat(ChildrenOf(es, p, n - 1), if es[n - 1].parent == p then [n - 1] else []);
    }
  }

  /** Looking up distinct parent names finds no model twice. */
  lemma {:induction false} NextLevelNoDups(es: seq<Entry>, parents: seq<Option<string>>)
    requires NoDups(parents)
    ensures NoDups(NextLevel(es, parents))
    decreases |parents|
  {
    if |parents| > 0 {
      var rest := parents[1..];
      assert NoDups(rest) by {
        forall a, b | 0 <= a < b < |rest| ensures rest[a] != rest[b] {
          assert rest[a] == parents[a + 1] && rest[b] == parents[b + 1];
        }
      }
      NextLevelNoDups(es, rest);
      ChildrenOfNoDups(es, parents[0], |es|);
      ChildrenOfMembers(es, parents[0], |es|);
      NextLevelMembers(es, rest);
      assert parents[0] !in rest;
      NoDupsConcat(ChildrenOf(es, parents[0], |es|), NextLevel(es, rest));
    }
  }

  /** With distinct names, the names of distinct models are distinct. */
  lemma NamesNoDups(es: seq<Entry>, level: seq<nat>)
    requires DistinctNames(es) && NoDups(level)
    requires forall x: nat :: x in level ==> x < |es|
    ensures NoDups(NamesOf(es, level))
  {
    var names := NamesOf(es, level);
    forall a, b | 0 <= a < b < |names| ensures names[a] != names[b] {
      var x, y := level[a], level[b];
      assert x in level && y in level;
      assert x != y;
      if x < y {
        assert es[x].name != es[y].name;
      } else {
        assert es[y].name != es[x].name;
      }
    }
  }

  /** With distinct names, no turn finds a model twice. */
  lemma {:induction false} LevelNoDups(es: seq<Entry>, k: nat)
    requires DistinctNames(es)
    ensures NoDups(Level(es, k))
  {
    if k == 0 {
      NextLevelNoDups(es, [None]);
    } else {
      LevelNoDups(es, k - 1);
      LevelWithin(es, k - 1);
      NamesNoDups(es, Level(es, k - 1));
      NextLevelNoDups(es, ParentsAt(es, k));
    }
  }

  /** A sequence without repeats holds each value at most once ... */
  lemma {:induction false} NoDupsCount<T>(s: seq<T>)
    requires NoDups(s)
    ensures forall x :: multiset(s)[x] <= 1
    decreases |s|
  {
    if |s| > 0 {
      var rest := s[1..];
      assert s == [s[0]] + rest;
      assert NoDups(rest) by {
        forall a, b | 0 <= a < b < |rest| ensures rest[a] != rest[b] {
          assert rest[a] == s[a + 1] && rest[b] == s[b + 1];
        }
      }
      NoDupsCount(rest);
      assert s[0] !in rest;
    }
  }

  lemma TwiceCounted<T>(r: seq<T>, i: nat, j: nat)
    requires i < j < |r| && r[i] == r[j]
    ensures multiset(r)[r[i]] >= 2
  {
    assert r == r[..j] + r[j..];
    assert r[i] in r[..j] && r[j] in r[j..];
  }

  /** ... and so does any rearrangement of it. */
  lemma PermutationNoDups<T>(s: seq<T>, r: seq<T>)
    requires NoDups(s) && multiset(r) == multiset(s)
    ensures NoDups(r)
  {
    NoDupsCount(s);
    forall i, j | 0 <= i < j < |r| ensures r[i] != r[j] {
      if r[i] == r[j] {
        TwiceCounted(r, i, j);
      }
    }
  }

  // ---------------------------------------------------------------------------
  // When the loop stops

  /** Some chain from a model without a parent passes a model twice: the
      parent links run into a cycle that the loop reaches. */
  ghost predicate RootedCycle(es: seq<Entry>) {
    exists c, a, b :: Chain(es, c) && 0 <= a < b < |c| && c[a] == c[b]
  }

  /** Turn `k` of the loop finds children, so the loop goes on. */
  predicate Continues(es: seq<Entry>, k: nat) {
    Level(es, k) != []
  }

  /** The loop runs out of its `|es|` turns exactly when it would never stop:
      every turn finds children. */
  lemma GrowNoneIffEndless(es: seq<Entry>)
    ensures Grow(es, [None], |es|).None? <==> forall k: nat :: Continues(es, k)
  {
    GrowNoneAtEnd(es);
    assert Continues(es, |es|) <==> Level(es, |es|) != [];
    if Continues(es, |es|) {
      ContinuesForever(es);
    }
  }

  lemma GrowNoneAtEnd(es: seq<Entry>)
    ensures Grow(es, [None], |es|).None? <==> Level(es, |es|) != []
  {
    GrowNone(es, [None], |es|);
  }

  /** A loop that still finds children after `|es|` turns never stops. */
  lemma ContinuesForever(es: seq<Entry>)
    requires Continues(es, |es|)
    ensures forall k: nat :: Continues(es, k)
  {
    var c := CycleFromLevel(es);
    EndlessFromCycle(es, c);
  }

  /** A turn after `|es|` turns that still finds children has followed a cycle. */
  lemma CycleFromLevel(es: seq<Entry>) returns (c: seq<nat>)
    requires Level(es, |es|) != []
    ensures Chain(es, c) && exists a, b :: 0 <= a < b < |c| && c[a] == c[b]
  {
    var i := Level(es, |es|)[0];
    LevelHasChain(es, |es|, i);
    c :| Chain(es, c) && |c| == |es| + 1 && c[|es|] == i;
    Pigeonhole(c, |es|);
  }

  /** A chain that passes a model twice makes every turn find children. */
  lemma EndlessFromCycle(es: seq<Entry>, c: seq<nat>)
    requires Chain(es, c) && exists a, b :: 0 <= a < b < |c| && c[a] == c[b]
    ensures forall k: nat :: Continues(es, k)
  {
    var a, b :| 0 <= a < b < |c| && c[a] == c[b];
    var prefix := c[..a + 1];
    assert Chain(es, prefix);
    ChainInLevel(es, prefix);
    forall k: nat
      ensures Continues(es, k)
    {
      Revisit(es, c, a, b, a, k);
      var j: nat :| j >= a + k && c[a] in Level(es, j);
      if Level(es, k) == [] {
        EmptyStays(es, k, j);
      }
    }
  }

  /** The loop never stops exactly when the parent links reachable from the
      models without a parent run into a cycle. */
  lemma GrowNoneIffCycle(es: seq<Entry>)
    ensures Grow(es, [None], |es|).None? <==> RootedCycle(es)
  {
    GrowNoneIffEndless(es);
    if Grow(es, [None], |es|).None? {
      assert Continues(es, |es|);
      var c := CycleFromLevel(es);
      var a, b :| 0 <= a < b < |c| && c[a] == c[b];
      assert Chain(es, c) && 0 <= a < b < |c| && c[a] == c[b];
    }
    if RootedCycle(es) {
      var c, a, b :| Chain(es, c) && 0 <= a < b < |c| && c[a] == c[b];
      EndlessFromCycle(es, c);
    }
  }

  /** With distinct names the parent links have no reachable cycle, so the loop stops. */
  lemma GrowStopsOnDistinctNames(es: seq<Entry>)
    requires DistinctNames(es)
    ensures Grow(es, [None], |es|).Some?
  {
    GrowNoneIffCycle(es);
    if RootedCycle(es) {
      var c, a, b :| Chain(es, c) && 0 <= a < b < |c| && c[a] == c[b];
      ChainNoRepeat(es, c, a, b);
    }
  }

  // ---------------------------------------------------------------------------
  // Positions in the flattened list

  /** Where depth `t` starts once the depths are concatenated. */
  function Offset(xss: seq<seq<nat>>, t: nat): nat
    requires t <= |xss|
  {
    if t == 0 then 0 else |xss[0]| + Offset(xss[1..], t - 1)
  }

  lemma {:induction false} OffsetNext(xss: seq<seq<nat>>, t: nat)
    requires t < |xss|
    ensures Offset(xss, t + 1) == Offset(xss, t) + |xss[t]|
    ensures Offset(xss, t + 1) <= |Flatten(xss)|
  {
    if t > 0 {
      OffsetNext(xss[1..], t - 1);
    }
  }

  /** Entry `v` of depth `t` sits at `Offset(xss, t) + v`. */
  lemma {:induction false} FlattenAt(xss: seq<seq<nat>>, t: nat, v: nat)
    requires t < |xss| && v < |xss[t]|
    ensures Offset(xss, t) + v < |Flatten(xss)|
    ensures Flatten(xss)[Offset(xss, t) + v] == xss[t][v]
  {
    if t > 0 {
      FlattenAt(xss[1..], t - 1, v);
    }
  }

  /** Every position lies in some depth. */
  lemma {:induction false} FlattenBlock(xss: seq<seq<nat>>, p: nat) returns (t: nat, v: nat)
    requires p < |Flatten(xss)|
    ensures t < |xss| && v < |xss[t]| && p == Offset(xss, t) + v
  {
    if p < |xss[0]| {
      t, v := 0, p;
    } else {
      var t', v' := FlattenBlock(xss[1..], p - |xss[0]|);
      t, v := t' + 1, v';
      assert xss[1..][t'] == xss[t];
    }
  }

  /** Without repeats inside a depth or across depths, the list has none. */
  lemma {:induction false} FlattenNoDups(xss: seq<seq<nat>>)
    requires forall t :: 0 <= t < |xss| ==> NoDups(xss[t])
    requires forall s, t, x :: 0 <= s < t < |xss| && x in xss[s] ==> x !in xss[t]
    ensures NoDups(Flatten(xss))
  {
    if |xss| > 0 {
      var rest := xss[1..];
      assert forall t :: 0 <= t < |rest| ==> rest[t] == xss[t + 1];
      FlattenNoDups(rest);
      NoDupsConcat(xss[0], Flatten(rest));
    }
  }

  // ---------------------------------------------------------------------------
  // `model_tree` on a project's models

  /** No two models share a name. */
  predicate DistinctModelNames(models: seq<JsonModel>) {
    forall i, j :: 0 <= i < j < |models| ==> models[i].name != models[j].name
  }

  /** `ls` lists, turn by turn, the models each turn of the loop finds, and
      the loop stops after the last of them. */
  ghost predicate Depths(es: seq<Entry>, ls: seq<seq<nat>>) {
    && Level(es, |ls|) == []
    && forall t {:trigger ls[t]} :: 0 <= t < |ls| ==>
         ls[t] != [] && multiset(ls[t]) == multiset(Level(es, t))
  }

  lemma TreeDepths(models: seq<JsonModel>)
    requires ParentsReadable(models) && TreeLevels(models).value.Some?
    ensures var es, ls := Entries(models), TreeLevels(models).value.value;
            && Depths(es, ls)
            && forall t {:trigger ls[t]} :: 0 <= t < |ls| ==> SortedBy(ls[t], NameKey(es))
  {
    var es := Entries(models);
    var unsorted := Grow(es, [None], |models|);
    GrowLevels(es, |models|);
  }

  /** Turn 0 finds exactly the models without a parent. */
  lemma FirstLevel(es: seq<Entry>, i: nat)
    ensures i in Level(es, 0) <==> i < |es| && es[i].parent == None
  {
    NextLevelMembers(es, [None]);
  }

  /** A model found on a later turn has its parent found on the turn before. */
  lemma ParentInPrevious(es: seq<Entry>, t: nat, i: nat) returns (y: nat)
    requires t > 0 && i in Level(es, t)
    ensures i < |es| && y < |es| && y in Level(es, t - 1)
    ensures es[i].parent == Some(es[y].name)
  {
    var parents := ParentsAt(es, t);
    NextLevelMembers(es, parents);
    var level := Level(es, t - 1);
    var idx :| 0 <= idx < |parents| && parents[idx] == es[i].parent;
    y := level[idx];
    LevelWithin(es, t - 1);
    assert y in level;
  }

  lemma DepthsMember(es: seq<Entry>, ls: seq<seq<nat>>, t: nat, i: nat)
    requires Depths(es, ls) && t < |ls|
    ensures i in ls[t] <==> i in Level(es, t)
  {
    assert multiset(ls[t]) == multiset(Level(es, t));
    assert i in ls[t] <==> i in multiset(ls[t]);
  }

  /** Past the last depth the loop finds nothing. */
  lemma DepthsBeyond(es: seq<Entry>, ls: seq<seq<nat>>, k: nat, i: nat)
    requires Depths(es, ls) && k >= |ls|
    ensures i !in Level(es, k)
  {
    EmptyStays(es, |ls|, k);
  }

  lemma DepthsRoots(es: seq<Entry>, ls: seq<seq<nat>>, i: nat)
    requires Depths(es, ls)
    ensures (|ls| > 0 && i in ls[0]) <==> i < |es| && es[i].parent == None
  {
    FirstLevel(es, i);
    if |ls| > 0 {
      DepthsMember(es, ls, 0, i);
    } else {
      DepthsBeyond(es, ls, 0, i);
    }
  }

  lemma DepthsParentAbove(es: seq<Entry>, ls: seq<seq<nat>>, t: nat, i: nat) returns (j: nat)
    requires Depths(es, ls) && 0 < t < |ls| && i in ls[t]
    ensures i < |es| && j < |es| && j in ls[t - 1] && es[i].parent == Some(es[j].name)
  {
    DepthsMember(es, ls, t, i);
    j := ParentInPrevious(es, t, i);
    DepthsMember(es, ls, t - 1, j);
  }

  lemma DepthsWithin(es: seq<Entry>, ls: seq<seq<nat>>, t: nat, i: nat)
    requires Depths(es, ls) && t < |ls| && i in ls[t]
    ensures i < |es|
  {
    DepthsMember(es, ls, t, i);
    LevelWithin(es, t);
  }

  /** A model at depth `t` sits in the flattened list before every model of depth `t + 1`. */
  lemma DepthsPosition(es: seq<Entry>, ls: seq<seq<nat>>, t: nat, y: nat) returns (q: nat)
    requires t + 1 < |ls| && y in ls[t]
    ensures q < Offset(ls, t + 1) && q < |Flatten(ls)| && Flatten(ls)[q] == y
  {
    var v :| 0 <= v < |ls[t]| && ls[t][v] == y;
    FlattenAt(ls, t, v);
    OffsetNext(ls, t);
    q := Offset(ls, t) + v;
  }

  lemma DepthsParentBefore(es: seq<Entry>, ls: seq<seq<nat>>, p: nat)
    requires Depths(es, ls) && p < |Flatten(ls)|
    ensures var out := Flatten(ls);
            && out[p] < |es|
            && (es[out[p]].parent.Some? ==>
                  exists q :: 0 <= q < p && out[q] < |es| && es[out[p]].parent == Some(es[out[q]].name))
  {
    var out := Flatten(ls);
    var t, v := FlattenBlock(ls, p);
    FlattenAt(ls, t, v);
    var x := ls[t][v];
    DepthsWithin(es, ls, t, x);
    if t == 0 {
      DepthsRoots(es, ls, x);
    } else {
      var y := DepthsParentAbove(es, ls, t, x);
      var q := DepthsPosition(es, ls, t - 1, y);
      assert out[q] == y;
    }
  }

  lemma DepthsAllWithin(es: seq<Entry>, ls: seq<seq<nat>>)
    requires Depths(es, ls)
    ensures forall p :: 0 <= p < |Flatten(ls)| ==> Flatten(ls)[p] < |es|
  {
    var out := Flatten(ls);
    forall p | 0 <= p < |out| ensures out[p] < |es| {
      assert out[p] in out;
      var t :| 0 <= t < |ls| && out[p] in ls[t];
      DepthsWithin(es, ls, t, out[p]);
    }
  }

  lemma DepthsMembers(es: seq<Entry>, ls: seq<seq<nat>>, i: nat)
    requires Depths(es, ls)
    ensures i in Flatten(ls) <==> i < |es| && Rooted(es, i)
  {
    LevelsAreRooted(es, i);
    if i in Flatten(ls) {
      var t :| 0 <= t < |ls| && i in ls[t];
      DepthsMember(es, ls, t, i);
      LevelWithin(es, t);
    }
    if Rooted(es, i) {
      var k: nat :| i in Level(es, k);
      if k >= |ls| {
        DepthsBeyond(es, ls, k, i);
      } else {
        DepthsMember(es, ls, k, i);
      }
    }
  }

  lemma DepthsNoRepeats(es: seq<Entry>, ls: seq<seq<nat>>)
    requires Depths(es, ls) && DistinctNames(es)
    ensures NoDups(Flatten(ls))
  {
    forall t | 0 <= t < |ls| ensures NoDups(ls[t]) {
      LevelNoDups(es, t);
      PermutationNoDups(Level(es, t), ls[t]);
    }
    forall s, t, x | 0 <= s < t < |ls| && x in ls[s] ensures x !in ls[t] {
      DepthsMember(es, ls, s, x);
      DepthsMember(es, ls, t, x);
      if x in Level(es, t) {
        LevelsDisjoint(es, s, t, x);
      }
    }
    FlattenNoDups(ls);
  }

  /** The models at depth 0 are exactly those without a `parent_model_name`. */
  lemma TreeRoots(models: seq<JsonModel>)
    requires ParentsReadable(models) && TreeLevels(models).value.Some?
    ensures var ls := TreeLevels(models).value.value;
            forall i: nat :: (|ls| > 0 && i in ls[0]) <==> i < |models| && ParentName(models[i]).None?
  {
    var es, ls := Entries(models), TreeLevels(models).value.value;
    TreeDepths(models);
    forall i: nat
      ensures (|ls| > 0 && i in ls[0]) <==> i < |models| && ParentName(models[i]).None?
    {
      DepthsRoots(es, ls, i);
    }
  }

  /** Every model at depth `t > 0` has its parent at depth `t - 1`. */
  lemma TreeParentAbove(models: seq<JsonModel>)
    requires ParentsReadable(models) && TreeLevels(models).value.Some?
    ensures var ls := TreeLevels(models).value.value;
            forall t, v :: 0 < t < |ls| && 0 <= v < |ls[t]| ==>
              && ls[t][v] < |models|
              && exists j :: j in ls[t - 1] && j < |models| && ParentName(models[ls[t][v]]) == Some(models[j].name)
  {
    var es, ls := Entries(models), TreeLevels(models).value.value;
    TreeDepths(models);
    forall t, v | 0 < t < |ls| && 0 <= v < |ls[t]|
      ensures && ls[t][v] < |models|
              && exists j :: j in ls[t - 1] && j < |models| && ParentName(models[ls[t][v]]) == Some(models[j].name)
    {
      var j := DepthsParentAbove(es, ls, t, ls[t][v]);
    }
  }

  /** In `ix`, a position's model has the model its `parent_model_name` names
      at an earlier position. */
  predicate ParentsEarlier(models: seq<JsonModel>, ix: seq<nat>)
    requires IndicesBelow(ix, |models|)
  {
    forall p :: 0 <= p < |ix| && ParentName(models[ix[p]]).Some? ==>
      exists q :: 0 <= q < p && ParentName(models[ix[p]]) == Some(models[ix[q]].name)
  }

  /** In the list `model_tree` returns, a model's parent comes before it. */
  lemma TreeParentBefore(models: seq<JsonModel>)
    requires ParentsReadable(models) && TreeLevels(models).value.Some?
    ensures var out := Flatten(TreeLevels(models).value.value);
            IndicesBelow(out, |models|) && ParentsEarlier(models, out)
  {
    var es, ls := Entries(models), TreeLevels(models).value.value;
    TreeDepths(models);
    forall p | 0 <= p < |Flatten(ls)|
      ensures var out := Flatten(ls);
              && out[p] < |models|
              && (ParentName(models[out[p]]).Some? ==>
                    exists q :: 0 <= q < p && out[q] < |models| && ParentName(models[out[p]]) == Some(models[out[q]].name))
    {
      DepthsParentBefore(es, ls, p);
    }
  }

  /** `model_tree` lists exactly the models whose chain of parents reaches a
      model without one; the others are left out. */
  lemma TreeMembers(models: seq<JsonModel>)
    requires ParentsReadable(models) && TreeLevels(models).value.Some?
    ensures var out := Flatten(TreeLevels(models).value.value);
            forall i: nat :: i in out <==> i < |models| && Rooted(Entries(models), i)
  {
    var es, ls := Entries(models), TreeLevels(models).value.value;
    TreeDepths(models);
    forall i: nat
      ensures i in Flatten(ls) <==> i < |models| && Rooted(es, i)
    {
      DepthsMembers(es, ls, i);
    }
  }

  /** With distinct model names `model_tree` lists no model twice. */
  lemma TreeNoRepeats(models: seq<JsonModel>)
    requires ParentsReadable(models) && TreeLevels(models).value.Some?
    requires DistinctModelNames(models)
    ensures NoDups(Flatten(TreeLevels(models).value.value))
  {
    TreeDepths(models);
    DepthsNoRepeats(Entries(models), TreeLevels(models).value.value);
  }

  /** `model_tree` never returns (`None`) exactly when the parent links reachable
      from the models without a parent run into a cycle, that is when every
      turn of its loop finds children. */
  lemma TreeNoneIffCycle(models: seq<JsonModel>)
    requires ParentsReadable(models)
    ensures TreeLevels(models).value.None? <==> RootedCycle(Entries(models))
    ensures TreeLevels(models).value.None? <==> forall k: nat :: Continues(Entries(models), k)
  {
    GrowNoneIffCycle(Entries(models));
    GrowNoneIffEndless(Entries(models));
  }

  /** With distinct model names `model_tree` returns. */
  lemma TreeStopsOnDistinctNames(models: seq<JsonModel>)
    requires ParentsReadable(models) && DistinctModelNames(models)
    ensures TreeLevels(models).value.Some?
  {
    GrowStopsOnDistinctNames(Entries(models));
  }

  /** Every position in `ix` is below `n`. */
  predicate IndicesBelow(ix: seq<nat>, n: nat) {
    forall t :: 0 <= t < |ix| ==> ix[t] < n
  }

  lemma TreeWithin(models: seq<JsonModel>)
    requires ParentsReadable(models) && TreeLevels(models).value.Some?
    ensures IndicesBelow(Flatten(TreeLevels(models).value.value), |models|)
  {
    TreeDepths(models);
    DepthsAllWithin(Entries(models), TreeLevels(models).value.value);
  }

  /** `values_at` on the model list: the models at the given positions, in order. */
  function Select(models: seq<JsonModel>, ix: seq<nat>): (r: seq<JsonModel>)
    requires IndicesBelow(ix, |models|)
    ensures |r| == |ix|
    ensures forall t :: 0 <= t < |ix| ==> r[t] == models[ix[t]]
  {
    if |ix| == 0 then [] else [models[ix[0]]] + Select(models, ix[1..])
  }

  /** `JsonProject#model_tree`: the models shallow to deep, each depth sorted by
      name; `None` where the Ruby loop never ends. */
  function Tree(models: seq<JsonModel>): (r: Checked<Option<seq<JsonModel>>>)
    ensures r.Failure? <==> !ParentsReadable(models)
    ensures r.Success? ==> (r.value.None? <==> RootedCycle(Entries(models)))
  {
    var levels := TreeLevels(models);
    if levels.Failure? then Failure(levels.error)
    else if levels.value.None? then TreeNoneIffCycle(models); Success(None)
    else
      TreeNoneIffCycle(models);
      TreeWithin(models);
      Success(Some(Select(models, Flatten(levels.value.value))))
  }

  /** What `model_tree` hands to the caller: models of the project only, and
      each model after the model its `parent_model_name` names. */
  lemma TreeParentFirst(models: seq<JsonModel>)
    requires Tree(models).Success? && Tree(models).value.Some?
    ensures var out := Tree(models).value.value;
            && (forall m :: m in out ==> m in models)
            && forall p :: 0 <= p < |out| && ParentName(out[p]).Some? ==>
                 exists q :: 0 <= q < p && ParentName(out[p]) == Some(out[q].name)
  {
    var ix := Flatten(TreeLevels(models).value.value);
    TreeParentBefore(models);
    SelectParents(models, ix);
  }

  lemma SelectParents(models: seq<JsonModel>, ix: seq<nat>)
    requires IndicesBelow(ix, |models|) && ParentsEarlier(models, ix)
    ensures var out := Select(models, ix);
            && (forall m :: m in out ==> m in models)
            && forall p :: 0 <= p < |out| && ParentName(out[p]).Some? ==>
                 exists q :: 0 <= q < p && ParentName(out[p]) == Some(out[q].name)
  {
    var out := Select(models, ix);
    forall p | 0 <= p < |out| && ParentName(out[p]).Some?
      ensures exists q :: 0 <= q < p && ParentName(out[p]) == Some(out[q].name)
    {
      var q :| 0 <= q < p && ParentName(models[ix[p]]) == Some(models[ix[q]].name);
      assert out[q] == models[ix[q]];
    }
  }
}

=== FILE: name_patterns.dfy ===
/** The two name patterns of `JsonBase` (json_models.rb), as the automaton a
    regex engine runs, together with the character-class rules they stand for. */
module NamePatterns {
  import opened RubyValues

  predicate Lower(c: char) {
    'a' <= c <= 'z'
  }

  predicate Digit(c: char) {
    '0' <= c <= '9'
  }

  /** A character allowed inside a segment: `[a-z0-9]`, or `[a-z]` when digits are not allowed. */
  predicate WordChar(c: char, digits: bool) {
    Lower(c) || (digits && Digit(c))
  }

  // ---------------------------------------------------------------------------
  // The automaton

  datatype State = Start | Word | AfterUnderscore | Dead

  function Step(q: State, c: char, digits: bool): State {
    match q
    case Start => if Lower(c) then Word else Dead
    case Word => if WordChar(c, digits) then Word else if c == '_' then AfterUnderscore else Dead
    case AfterUnderscore => if WordChar(c, digits) then Word else Dead
    case Dead => Dead
  }

  /** The state reached from `q` after reading all of `s`. */
  function Run(q: State, s: string, digits: bool): State
    decreases |s|
  {
    if |s| == 0 then q else Run(Step(q, s[0], digits), s[1..], digits)
  }

  /** `[a-z][a-z0-9]*(_[a-z0-9]+)*` matches the whole of `s`. */
  predicate MatchesWithNumbers(s: string) {
    Run(Start, s, true) == Word
  }

  /** `[a-z]*(_[a-z]+)*` matches the whole of `s`. */
  predicate MatchesNoNumbers(s: string) {
    Run(Word, s, false) == Word
  }

  /** `s =~ /\A[a-z][a-z0-9]*(_[a-z0-9]+)*\Z/`: Ruby's `\Z` also matches just
      before a final line feed. */
  predicate NameWithNumbers(s: string) {
    MatchesWithNumbers(s) || (|s| > 0 && s[|s| - 1] == '\n' && MatchesWithNumbers(s[..|s| - 1]))
  }

  /** `s =~ /\A[a-z]*(_[a-z]+)*\Z/`. */
  predicate NameNoNumbers(s: string) {
    MatchesNoNumbers(s) || (|s| > 0 && s[|s| - 1] == '\n' && MatchesNoNumbers(s[..|s| - 1]))
  }

  // ---------------------------------------------------------------------------
  // The rules the patterns stand for

  /** Segment characters and underscores only, and every underscore is followed
      by a segment character (so no doubled and no trailing underscore). */
  predicate Segmented(s: string, digits: bool) {
    && (forall i :: 0 <= i < |s| ==> WordChar(s[i], digits) || s[i] == '_')
    && (forall i :: 0 <= i < |s| && s[i] == '_' ==> i + 1 < |s| && WordChar(s[i + 1], digits))
  }

  /** snake_case with digits: a lower-case letter first, then segments. */
  predicate SnakeCaseWithNumbers(s: string) {
    |s| > 0 && Lower(s[0]) && Segmented(s, true)
  }

  /** snake_case of letters only; the empty name and a leading underscore are allowed. */
  predicate SnakeCaseNoNumbers(s: string) {
    Segmented(s, false)
  }

  lemma {:induction false} DeadStays(s: string, digits: bool)
    ensures Run(Dead, s, digits) == Dead
    decreases |s|
  {
    if |s| > 0 {
      DeadStays(s[1..], digits);
    }
  }

  lemma SegmentedWord(c: char, t: string, digits: bool)
    requires WordChar(c, digits)
    ensures Segmented([c] + t, digits) <==> Segmented(t, digits)
  {
    var s := [c] + t;
    assert forall i :: 0 <= i < |t| ==> s[i + 1] == t[i];
    if Segmented(t, digits) {
      forall i | 0 <= i < |s| && s[i] == '_'
        ensures i + 1 < |s| && WordChar(s[i + 1], digits)
      {
        assert t[i - 1] == '_';
      }
    }
  }

  lemma SegmentedUnderscore(t: string, digits: bool)
    ensures Segmented(['_'] + t, digits) <==> |t| > 0 && WordChar(t[0], digits) && Segmented(t, digits)
  {
    var s := ['_'] + t;
    assert forall i :: 0 <= i < |t| ==> s[i + 1] == t[i];
    if |t| > 0 && WordChar(t[0], digits) && Segmented(t, digits) {
      forall i | 0 <= i < |s| && s[i] == '_'
        ensures i + 1 < |s| && WordChar(s[i + 1], digits)
      {
        if i > 0 {
          assert t[i - 1] == '_';
        }
      }
    }
    if Segmented(s, digits) {
      assert s[0] == '_';
      forall i | 0 <= i < |t| && t[i] == '_'
        ensures i + 1 < |t| && WordChar(t[i + 1], digits)
      {
        assert s[i + 1] == '_';
      }
    }
  }

  /** From inside a segment the automaton accepts exactly the segmented strings. */
  lemma {:induction false} RunFromWord(s: string, digits: bool)
    ensures Run(Word, s, digits) == Word <==> Segmented(s, digits)
    decreases |s|
  {
    if |s| > 0 {
      var c, t := s[0], s[1..];
      assert s == [c] + t;
      if WordChar(c, digits) {
        RunFromWord(t, digits);
        SegmentedWord(c, t, digits);
      } else if c == '_' {
        SegmentedUnderscore(t, digits);
        if |t| > 0 {
          assert t == [t[0]] + t[1..];
          if WordChar(t[0], digits) {
            RunFromWord(t[1..], digits);
            SegmentedWord(t[0], t[1..], digits);
          } else {
            DeadStays(t[1..], digits);
          }
        }
      } else {
        DeadStays(t, digits);
        assert !Segmented(s, digits) by { assert !(WordChar(s[0], digits) || s[0] == '_'); }
      }
    }
  }

  /** The pattern with digits accepts exactly the snake_case-with-digits names. */
  lemma MatchesWithNumbersIff(s: string)
    ensures MatchesWithNumbers(s) <==> SnakeCaseWithNumbers(s)
  {
    if |s| > 0 {
      assert s == [s[0]] + s[1..];
      if Lower(s[0]) {
        RunFromWord(s[1..], true);
        SegmentedWord(s[0], s[1..], true);
      } else {
        DeadStays(s[1..], true);
      }
    }
  }

  /** The pattern without digits accepts exactly the letters-only snake_case names. */
  lemma MatchesNoNumbersIff(s: string)
    ensures MatchesNoNumbers(s) <==> SnakeCaseNoNumbers(s)
  {
    RunFromWord(s, false);
  }

  /** On a stripped name (no trailing white space) the `\Z` allowance never applies,
      so the anchored patterns are exactly the snake_case rules. */
  lemma AnchoredOnStripped(s: string)
    requires Trimmed(s)
    ensures NameWithNumbers(s) <==> SnakeCaseWithNumbers(s)
    ensures NameNoNumbers(s) <==> SnakeCaseNoNumbers(s)
  {
    MatchesWithNumbersIff(s);
    MatchesNoNumbersIff(s);
  }
}

=== FILE: ruby_values.dfy ===
/** The parsed JSON values the Magma client works on, and the handful of Ruby
    core methods it applies to them (`strip`, `empty?`, truthiness, string
    interpolation, `split`/`capitalize`/`join`). */
module RubyValues {
  import opened Wrappers
  import opened Dicts

  /** A parsed JSON value. Numbers are kept as integers: the client never looks
      at their value, only at the fact that they are neither strings nor containers. */
  datatype Json =
    | Null
    | Bool(b: bool)
    | Num(n: int)
    | Str(s: string)
    | Arr(items: seq<Json>)
    | Obj(fields: Dict<string, Json>)

  /** A parsed JSON object, i.e. a Ruby Hash with string keys. */
  type Hash = Dict<string, Json>

  /** The exceptions the modelled code can raise. */
  datatype Raised =
    | NoMethodError(methodName: string)
    | TypeError(message: string)
    | ArgumentError(message: string)

  type Checked<T> = Result<T, Raised>

  /** Ruby truthiness: everything except `nil` and `false`. */
  predicate Truthy(v: Json) {
    !(v.Null? || v == Bool(false))
  }

  /** The values for which `value.nil? || value.empty?` is true. */
  predicate Blank(v: Json) {
    v.Null? || v == Str("") || v == Arr([]) || v == Obj([])
  }

  /** `value.nil? || value.empty?`; booleans and numbers have no `empty?` and raise. */
  function NilOrEmpty(v: Json): (r: Checked<bool>)
    ensures r.Failure? <==> v.Bool? || v.Num?
    ensures r.Success? ==> (r.value <==> Blank(v))
  {
    match v
    case Null => Success(true)
    case Str(s) => Success(s == "")
    case Arr(items) => Success(items == [])
    case Obj(fields) => Success(fields == [])
    case _ => Failure(NoMethodError("empty?"))
  }

  /** The characters Ruby's `String#strip` removes from both ends. */
  predicate IsSpace(c: char) {
    c == '\0' || c == '\t' || c == '\n' || c == '\U{B}' || c == '\U{C}' || c == '\r' || c == ' '
  }

  function StripLeading(s: string): (r: string)
    ensures |r| <= |s|
  {
    if |s| > 0 && IsSpace(s[0]) then StripLeading(s[1..]) else s
  }

  function StripTrailing(s: string): (r: string)
    ensures |r| <= |s|
  {
    if |s| > 0 && IsSpace(s[|s| - 1]) then StripTrailing(s[..|s| - 1]) else s
  }

  /** `StripLeading` keeps a suffix that does not start with white space, and
      drops white space only. */
  lemma {:induction false} StripLeadingFacts(s: string)
    ensures var r := StripLeading(s);
            && r == s[|s| - |r|..]
            && (r == [] || !IsSpace(r[0]))
            && (forall i :: 0 <= i < |s| - |r| ==> IsSpace(s[i]))
    decreases |s|
  {
    if |s| > 0 && IsSpace(s[0]) {
      StripLeadingFacts(s[1..]);
      assert forall i :: 1 <= i < |s| ==> s[1..][i - 1] == s[i];
    }
  }

  /** `StripTrailing` keeps a prefix that does not end with white space, and
      drops white space only. */
  lemma {:induction false} StripTrailingFacts(s: string)
    ensures var r := StripTrailing(s);
            && r == s[..|r|]
            && (r == [] || !IsSpace(r[|r| - 1]))
            && (forall i :: |r| <= i < |s| ==> IsSpace(s[i]))
    decreases |s|
  {
    if |s| > 0 && IsSpace(s[|s| - 1]) {
      StripTrailingFacts(s[..|s| - 1]);
    }
  }

  /** Neither starts nor ends with white space. */
  predicate Trimmed(s: string) {
    s == [] || (!IsSpace(s[0]) && !IsSpace(s[|s| - 1]))
  }

  /** A string as `strip` leaves it. */
  type StrippedString = s: string | Trimmed(s)

  /** `String#strip`: white space dropped from both ends, and only that
      (`StripDropsSpaces`). */
  function Strip(s: string): (r: StrippedString)
    ensures |r| <= |s|
  {
    var t := StripLeading(s);
    StripLeadingFacts(s);
    StripTrailingFacts(t);
    StripTrailing(t)
  }

  /** `strip` keeps a middle part of the string, which neither starts nor ends
      with white space, and drops only white space around it. */
  lemma StripDropsSpaces(s: string)
    ensures var k := |s| - |StripLeading(s)|;
            && k + |Strip(s)| <= |s| && Strip(s) == s[k..k + |Strip(s)|]
            && (forall i :: 0 <= i < k ==> IsSpace(s[i]))
            && (forall i :: k + |Strip(s)| <= i < |s| ==> IsSpace(s[i]))
  {
    var t := StripLeading(s);
    var k := |s| - |t|;
    StripLeadingFacts(s);
    StripTrailingFacts(t);
    assert forall i :: k + |Strip(s)| <= i < |s| ==> s[i] == t[i - k];
  }

  /** A string that neither starts nor ends with white space is its own strip. */
  lemma StripTrimmed(s: string)
    requires Trimmed(s)
    ensures Strip(s) == s
  {
  }

  /** Stripping twice is stripping once. */
  lemma StripIdempotent(s: string)
    ensures Strip(Strip(s)) == Strip(s)
  {
    StripTrimmed(Strip(s));
  }

  /** `x&.strip` applied to `raw[key]`: nil stays nil, a string is stripped, any
      other value has no `strip` and raises. */
  function StripOrNil(v: Option<Json>): (r: Checked<Option<string>>)
    ensures r.Failure? <==> v.Some? && !v.value.Null? && !v.value.Str?
    ensures r == Success(None) <==> v.None? || v == Some(Null)
    ensures r.Success? && r.value.Some? ==> v.Some? && v.value.Str? && r.value.value == Strip(v.value.s)
  {
    match v
    case None => Success(None)
    case Some(Null) => Success(None)
    case Some(Str(s)) => Success(Some(Strip(s)))
    case Some(_) => Failure(NoMethodError("strip"))
  }

  /** `"#{value}"` for the values the validator interpolates: strings and the
      values `nil_or_empty?` accepts. */
  function Interpolate(v: Json): string
    requires v.Str? || Blank(v)
  {
    match v
    case Str(s) => s
    case Arr(_) => "[]"
    case Obj(_) => "{}"
    case _ => ""
  }

  /** `"#{x}"` for a value that is a string or nil. */
  function InterpolateOpt(x: Option<string>): string {
    x.GetOr("")
  }

  /** Ruby's `inspect` of an array of plain strings: `["a", "b"]`. */
  function InspectStrings(xs: seq<string>): string {
    "[" + JoinQuoted(xs) + "]"
  }

  function JoinQuoted(xs: seq<string>): string {
    if |xs| == 0 then ""
    else if |xs| == 1 then "\"" + xs[0] + "\""
    else "\"" + xs[0] + "\", " + JoinQuoted(xs[1..])
  }

  predicate StartsWith(s: string, prefix: string) {
    |prefix| <= |s| && s[..|prefix|] == prefix
  }

  /** `s.include?(part)`: `part` occurs in `s` at some position. */
  predicate Includes(s: string, part: string)
    decreases |s|
  {
    StartsWith(s, part) || (|s| > 0 && Includes(s[1..], part))
  }

  /** Ruby's `value[key]` with a string key: a Hash looks the key up (nil when
      missing), a String answers `key` itself when it contains it and nil
      otherwise, `nil` and booleans have no `[]`, and Integer and Array refuse a
      string index. */
  function Index(v: Json, key: string): (r: Checked<Json>)
    ensures v.Obj? ==> r == Success(Get(v.fields, key).GetOr(Null))
    ensures r.Failure? <==> !(v.Obj? || v.Str?)
  {
    match v
    case Obj(fields) => Success(Get(fields, key).GetOr(Null))
    case Str(s) => Success(if Includes(s, key) then Str(key) else Null)
    case Null => Failure(NoMethodError("[]"))
    case Bool(_) => Failure(NoMethodError("[]"))
    case Num(_) => Failure(TypeError("no implicit conversion of String into Integer"))
    case Arr(_) => Failure(TypeError("no implicit conversion of String into Integer"))
  }

  // ---------------------------------------------------------------------------
  // `String#<=>`: code point by code point, a proper prefix first. (UTF-8 byte
  // order, which Ruby compares, agrees with code point order.)

  predicate StrLt(a: string, b: string)
    decreases |a|
  {
    if |a| == 0 then |b| > 0
    else if |b| == 0 then false
    else if a[0] != b[0] then a[0] < b[0]
    else StrLt(a[1..], b[1..])
  }

  predicate StrLe(a: string, b: string) {
    a == b || StrLt(a, b)
  }

  lemma {:induction false} StrLtIrreflexive(a: string)
    ensures !StrLt(a, a)
    decreases |a|
  {
    if |a| > 0 {
      StrLtIrreflexive(a[1..]);
    }
  }

  lemma {:induction false} StrLtTotal(a: string, b: string)
    requires a != b
    ensures StrLt(a, b) || StrLt(b, a)
    decreases |a|
  {
    if |a| > 0 && |b| > 0 && a[0] == b[0] {
      assert a == [a[0]] + a[1..] && b == [b[0]] + b[1..];
      StrLtTotal(a[1..], b[1..]);
    }
  }

  lemma {:induction false} StrLtAsymmetric(a: string, b: string)
    requires StrLt(a, b)
    ensures !StrLt(b, a)
    decreases |a|
  {
    if |a| > 0 && |b| > 0 && a[0] == b[0] {
      StrLtAsymmetric(a[1..], b[1..]);
    }
  }

  lemma {:induction false} StrLtTransitive(a: string, b: string, c: string)
    requires StrLt(a, b) && StrLt(b, c)
    ensures StrLt(a, c)
    decreases |a|
  {
    if |a| > 0 && |b| > 0 && |c| > 0 && a[0] == b[0] && b[0] == c[0] {
      StrLtTransitive(a[1..], b[1..], c[1..]);
    }
  }

  lemma StrLeTotal(a: string, b: string)
    ensures StrLe(a, b) || StrLe(b, a)
  {
    if a != b {
      StrLtTotal(a, b);
    }
  }

  lemma StrLeTransitive(a: string, b: string, c: string)
    requires StrLe(a, b) && StrLe(b, c)
    ensures StrLe(a, c)
  {
    if a != b && b != c {
      StrLtTransitive(a, b, c);
    }
  }

  lemma StrLeAntisymmetric(a: string, b: string)
    requires StrLe(a, b) && StrLe(b, a)
    ensures a == b
  {
    if a != b {
      StrLtAsymmetric(a, b);
    }
  }

  /** Each string is `<=` the next (`Array#sort` output). */
  predicate SortedStrings(xs: seq<string>) {
    forall i :: 0 <= i < |xs| - 1 ==> StrLe(xs[i], xs[i + 1])
  }

  // ---------------------------------------------------------------------------
  // `name.split('_').map(&:capitalize).join(' ')`

  /** Every field between separators, empty ones included: `|Fields(s)|` is one
      more than the number of separators. */
  function Fields(s: string, sep: char): (fs: seq<string>)
    ensures |fs| >= 1
    decreases |s|
  {
    if |s| == 0 then [""]
    else
      var rest := Fields(s[1..], sep);
      if s[0] == sep then [""] + rest else [[s[0]] + rest[0]] + rest[1..]
  }

  function DropTrailingEmpty(fs: seq<string>): seq<string> {
    if |fs| > 0 && fs[|fs| - 1] == "" then DropTrailingEmpty(fs[..|fs| - 1]) else fs
  }

  /** Only empty fields are dropped, and only from the end. */
  lemma {:induction false} DropTrailingEmptyFacts(fs: seq<string>)
    ensures var r := DropTrailingEmpty(fs);
      && |r| <= |fs| && r == fs[..|r|]
      && (r == [] || r[|r| - 1] != "")
      && forall i :: |r| <= i < |fs| ==> fs[i] == ""
  {
    if |fs| > 0 && fs[|fs| - 1] == "" {
      DropTrailingEmptyFacts(fs[..|fs| - 1]);
    }
  }

  /** `String#split` with a one-character string pattern: trailing empty fields are dropped. */
  function Split(s: string, sep: char): seq<string> {
    DropTrailingEmpty(Fields(s, sep))
  }

  /** Joins with a separator (`Array#join`). */
  function Join(ws: seq<string>, sep: string): string {
    if |ws| == 0 then ""
    else if |ws| == 1 then ws[0]
    else ws[0] + sep + Join(ws[1..], sep)
  }

  function Upcase(c: char): char {
    if 'a' <= c <= 'z' then (c as int - 32) as char else c
  }

  function Downcase(c: char): char {
    if 'A' <= c <= 'Z' then (c as int + 32) as char else c
  }

  function DowncaseAll(s: string): (r: string)
    ensures |r| == |s|
  {
    if |s| == 0 then "" else [Downcase(s[0])] + DowncaseAll(s[1..])
  }

  /** `String#capitalize`: first character upper case, the rest lower case. */
  function Capitalize(w: string): string {
    if |w| == 0 then "" else [Upcase(w[0])] + DowncaseAll(w[1..])
  }

  function CapitalizeAll(ws: seq<string>): (r: seq<string>)
    ensures |r| == |ws|
  {
    if |ws| == 0 then [] else [Capitalize(ws[0])] + CapitalizeAll(ws[1..])
  }

  /** The display form of a model name, e.g. `sample_type` becomes `Sample Type`. */
  function Prettify(name: string): string {
    Join(CapitalizeAll(Split(name, '_')), " ")
  }

  /** Reference definition of the display form, character by character: an
      underscore shows as a space, the first character of a word is upper case
      and the others lower case. */
  function PrettyChar(s: string, i: nat): char
    requires i < |s|
  {
    if s[i] == '_' then ' '
    else if i == 0 || s[i - 1] == '_' then Upcase(s[i])
    else Downcase(s[i])
  }

  /** The display form built left to right; `start` says whether `s` begins a word. */
  function PrettyFrom(s: string, start: bool): string
    decreases |s|
  {
    if |s| == 0 then ""
    else
      var c := if s[0] == '_' then ' ' else if start then Upcase(s[0]) else Downcase(s[0]);
      [c] + PrettyFrom(s[1..], s[0] == '_')
  }

  lemma {:induction false} PrettyFromAt(s: string, start: bool)
    ensures |PrettyFrom(s, start)| == |s|
    ensures forall i :: 0 < i < |s| ==> PrettyFrom(s, start)[i] == PrettyChar(s, i)
    ensures |s| > 0 ==>
      PrettyFrom(s, start)[0] == (if s[0] == '_' then ' ' else if start then Upcase(s[0]) else Downcase(s[0]))
    decreases |s|
  {
    if |s| > 0 {
      var t := s[1..];
      PrettyFromAt(t, s[0] == '_');
      forall i | 1 < i < |s|
        ensures PrettyFrom(s, start)[i] == PrettyChar(s, i)
      {
        assert PrettyFrom(s, start)[i] == PrettyFrom(t, s[0] == '_')[i - 1];
        assert PrettyChar(t, i - 1) == PrettyChar(s, i) by { assert t[i - 1] == s[i] && t[i - 2] == s[i - 1]; }
      }
    }
  }

  /** The words of a split with the first one capitalised (`start`) or only
      lower-cased, and every later one capitalised. */
  function Heads(fs: seq<string>, start: bool): seq<string>
    requires |fs| > 0
  {
    [if start then Capitalize(fs[0]) else DowncaseAll(fs[0])] + CapitalizeAll(fs[1..])
  }

  lemma JoinConsHead(ch: char, w: string, ws: seq<string>, sep: string)
    ensures Join([[ch] + w] + ws, sep) == [ch] + Join([w] + ws, sep)
  {
    if |ws| > 0 {
      assert ([[ch] + w] + ws)[1..] == ws;
      assert ([w] + ws)[1..] == ws;
    }
  }

  /** Capitalising the fields and joining them with spaces is the display form
      built left to right. */
  lemma {:induction false} FieldsRender(s: string, start: bool)
    ensures Join(Heads(Fields(s, '_'), start), " ") == PrettyFrom(s, start)
    decreases |s|
  {
    if |s| > 0 {
      var t := s[1..];
      var rest := Fields(t, '_');
      if s[0] == '_' {
        FieldsRender(t, true);
        assert Fields(s, '_') == [""] + rest;
        assert Heads(rest, true) == CapitalizeAll(rest);
        assert Heads(Fields(s, '_'), start) == [""] + CapitalizeAll(rest);
      } else {
        FieldsRender(t, false);
        var ch := if start then Upcase(s[0]) else Downcase(s[0]);
        assert Fields(s, '_') == [[s[0]] + rest[0]] + rest[1..];
        assert DowncaseAll([s[0]] + rest[0]) == [Downcase(s[0])] + DowncaseAll(rest[0]) by {
          assert ([s[0]] + rest[0])[1..] == rest[0];
        }
        assert Heads(Fields(s, '_'), start) == [[ch] + DowncaseAll(rest[0])] + CapitalizeAll(rest[1..]);
        JoinConsHead(ch, DowncaseAll(rest[0]), CapitalizeAll(rest[1..]), " ");
      }
    }
  }

  /** A string that does not end with the separator has a non-empty last field. */
  lemma {:induction false} FieldsLast(s: string, sep: char)
    requires |s| > 0 && s[|s| - 1] != sep
    ensures Fields(s, sep)[|Fields(s, sep)| - 1] != ""
    decreases |s|
  {
    if |s| > 1 {
      FieldsLast(s[1..], sep);
    }
  }

  /** A trailing separator adds one empty field. */
  lemma {:induction false} FieldsSnoc(s: string, sep: char)
    ensures Fields(s + [sep], sep) == Fields(s, sep) + [""]
    decreases |s|
  {
    if |s| > 0 {
      assert (s + [sep])[1..] == s[1..] + [sep];
      FieldsSnoc(s[1..], sep);
    } else {
      var one: string := [sep];
      assert one[1..] == [];
    }
  }

  /** `prettified_name` shows every character of a name that does not end in an
      underscore: underscores as spaces, the first character of each word upper
      case and the others lower case. */
  lemma PrettifyChars(s: string)
    requires |s| == 0 || s[|s| - 1] != '_'
    ensures |Prettify(s)| == |s|
    ensures forall i :: 0 <= i < |s| ==> Prettify(s)[i] == PrettyChar(s, i)
  {
    PrettyFromAt(s, true);
    if |s| > 0 {
      FieldsLast(s, '_');
      assert Split(s, '_') == Fields(s, '_');
      FieldsRender(s, true);
      assert Heads(Fields(s, '_'), true) == CapitalizeAll(Fields(s, '_'));
    }
  }

  /** `split` drops trailing empty fields, so trailing underscores do not show. */
  lemma PrettifyTrailing(s: string)
    ensures Prettify(s + ['_']) == Prettify(s)
  {
    FieldsSnoc(s, '_');
    assert (Fields(s, '_') + [""])[..|Fields(s, '_')|] == Fields(s, '_');
  }
}

=== FILE: sorting.dfy ===
/** `Array#sort` with a block comparing names by `String#<=>`. */
module Sorting {
  import opened RubyValues

  /** Every element's name is `<=` the name of every later element. */
  predicate SortedBy<T>(xs: seq<T>, key: T -> string) {
    forall i, j :: 0 <= i < j < |xs| ==> StrLe(key(xs[i]), key(xs[j]))
  }

  lemma SortedCons<T>(x: T, xs: seq<T>, key: T -> string)
    requires SortedBy(xs, key)
    requires |xs| == 0 || StrLe(key(x), key(xs[0]))
    ensures SortedBy([x] + xs, key)
  {
    var r := [x] + xs;
    forall i, j | 0 <= i < j < |r|
      ensures StrLe(key(r[i]), key(r[j]))
    {
      if i == 0 && j > 1 {
        StrLeTransitive(key(x), key(xs[0]), key(xs[j - 1]));
      }
    }
  }

  /** Puts `x` in front of the first element whose name is not smaller. */
  function Insert<T>(x: T, xs: seq<T>, key: T -> string): (r: seq<T>)
    requires SortedBy(xs, key)
    ensures SortedBy(r, key)
    ensures multiset(r) == multiset(xs) + multiset{x}
    ensures |r| > 0 && (r[0] == x || (|xs| > 0 && r[0] == xs[0]))
  {
    if |xs| == 0 || StrLe(key(x), key(xs[0])) then
      SortedCons(x, xs, key);
      [x] + xs
    else
      StrLeTotal(key(x), key(xs[0]));
      var rest := Insert(x, xs[1..], key);
      assert xs == [xs[0]] + xs[1..];
      SortedCons(xs[0], rest, key);
      [xs[0]] + rest
  }

  /** The elements of `xs` ordered by name. Ruby's sort is not stable; elements
      with equal names are kept in an order of this model's choosing. */
  function SortBy<T>(xs: seq<T>, key: T -> string): (r: seq<T>)
    ensures SortedBy(r, key)
    ensures multiset(r) == multiset(xs)
  {
    if |xs| == 0 then []
    else
      assert xs == [xs[0]] + xs[1..];
      Insert(xs[0], SortBy(xs[1..], key), key)
  }
}

=== FILE: wrappers.dfy ===
/** Failure-compatible wrappers used throughout the model: `Option` for a Ruby
    value that may be `nil`, `Result` for a computation that may raise. */
module Wrappers {

  datatype Option<+T> = None | Some(value: T) {

    predicate IsFailure() {
      None?
    }

    function PropagateFailure<U>(): Option<U>
      requires None?
    {
      None
    }

    function Extract(): T
      requires Some?
    {
      value
    }

    /** Ruby's `x || default` for a value that is either nil or present. */
    function GetOr(default: T): T {
      match this
      case Some(v) => v
      case None => default
    }
  }

  datatype Result<+T, +E> = Success(value: T) | Failure(error: E) {

    predicate IsFailure() {
      Failure?
    }

    function PropagateFailure<U>(): Result<U, E>
      requires Failure?
    {
      Failure(error)
    }

    function Extract(): T
      requires Success?
    {
      value
    }
  }
}
